=== FILE: README.md ===
# ky_browser core, modelled in Dafny

ky_browser is a small desktop web browser written in Python on top of Tk. This project
models its core as pure Dafny functions and methods over immutable datatypes, and proves
what that core promises:

- the **URL** object: scheme splitting, host/port/path parsing with the default ports, the
  `data:`, `file:`, `view-source:` and `about:` schemes, the fallback to `about:blank`, and
  the `lex` tag stripper (`url.dfy`);
- the **base-URL extractor** used to resolve relative links (`url_parser.dfy`);
- the **markup parser**: doctype detection, text runs, comments, closing, self-closing and
  opening tags, raw-text `style`/`script`, and the final unwinding, building the node tree
  (`html_parser.dfy`, `nodes.dfy`), with a serializer and the round trip
  `Parse(Write(d)) == d` for every writable document (`html_roundtrip.dfy`);
- the **inline-style scanner** (`css_parser.dfy`);
- the **layout engine**: greedy word wrap, the box tree built from the node tree, the
  display list `render` draws, the plain-text file view and the source view's word
  runner (`layout.dfy`), and the display-list records (`draw.dfy`);
- the **scrollbar** arithmetic: scroll steps, bar and thumb geometry, click, drag and
  release (`scrollbar.dfy`);
- the **history list** (`history_manager.dfy`), the **tab** that owns it (`tab.dfy`), and
  the **window** that owns the tabs (`window.dfy`);
- the Python string and list semantics the code relies on — `strip`, `split`, `find`,
  `int`, negative indices, `del s[i:]` — written out in `strings.dfy`,
  `history_manager.dfy` and `url.dfy`; `Option`/`Result` in `wrappers.dfy`.

Font metrics, which come from Tk, are parameters (`Metrics`: a width function and a line
space); every network, file, canvas and widget call is either a parameter or left out.

## Model

| member | source | states |
|---|---|---|
| CssParser.NewParser | css_parser.py:6-9 | A new parser holds both inputs as given and an empty style map. |
| CssParser.ParseInlineStyles | css_parser.py:18-38 | The character loop computes the declaration scan, keeps every key already present, and keeps keys and values stripped when they were. |
| CssParser.Parse | css_parser.py:11-16 | Without inline text the map is returned unchanged; with it, the scanned declarations are added; the map is stored back on the parser. |
| CssParser.ParseExternalStyles | css_parser.py:40-41 | The external-style step leaves the map as it is. |
| CssParser.ScanStripped | css_parser.py:24-35 | Every key and every value the scan stores is stripped of surrounding whitespace. |
| CssParser.ScanOverrides | css_parser.py:23-35 | Scanning into a filled map equals the old map overridden by the scan of the same text into an empty map. |
| CssParser.ParseTwiceSame | css_parser.py:11-16 | Parsing the same inline styles again on the kept map yields the same map. |
| CssParser.ScanDecl | css_parser.py:24-30 | One `key:value;` declaration stores the stripped value under the stripped key, which stays current. |
| CssParser.TrailingBlankClearsValue | css_parser.py:33-35 | Whitespace after the last `;` is a non-empty leftover, so the current key ends up mapped to the empty string. |
| CssParser.LaterDeclarationWins | css_parser.py:27-29 | A later declaration of the same key replaces the earlier value. |
| CssParser.ValueWithoutKey | css_parser.py:21-29 | A value with no `key:` before it is stored under the empty key. |
| Draw.NewDrawText | draw.py:9-14 | A text record keeps its position, text and font, and its colour defaults to white. |
| Draw.NewDrawRect | draw.py:32-46 | A rectangle record keeps its geometry; its outline defaults to yellow and its fill to black. |
| Draw.Execute | draw.py:16-56 | A text record becomes a text call and a rectangle a rectangle call, at the record's place shifted by the scroll offsets, with the record's text, font and colours. |
| Draw.RecoverExecute | draw.py:16-56 | Executing loses nothing: the record can be read back from its canvas call and the offsets. |
| Draw.ExecuteUnscrolled | draw.py:16-56 | With zero offsets a record is drawn exactly where its coordinates say. |
| Draw.ExecuteShifts | draw.py:16-56 | Scrolling further by (dx, dy) moves every drawn point by exactly (-dx, -dy). |
| Nodes.NewDocument | nodes.py:2-4 | A new document has no children. |
| Nodes.NewElement | nodes.py:23-26 | A new element has the given tag and no children. |
| Nodes.AddChild | nodes.py:29-30 | The new child goes last and the earlier children are unchanged. |
| Nodes.AddDocumentChild | nodes.py:6-7 | The same for the document root. |
| HistoryManager.PyIndex | history_manager.py:18 | Python list indexing: a negative index counts from the end, anything else out of range raises `IndexError`. |
| HistoryManager.PyDelFrom | history_manager.py:22 | Python's `del s[start:]`: keeps the prefix before `start`, a negative start counting from the end and clamped at zero. |
| HistoryManager.Init | history_manager.py:9-11 | The history starts empty with the index at -1, a valid state. |
| HistoryManager.Add | history_manager.py:13-24 | Repeating the newest entry changes nothing; otherwise the entries after the current one are dropped, the item is appended and becomes current; validity and reachability are kept. |
| HistoryManager.Get | history_manager.py:26-32 | Succeeds exactly for 0 <= index < length, with that entry; every other index raises `IndexError`. |
| HistoryManager.GetItem | history_manager.py:81-89 | Indexing delegates to `get`: succeeds exactly for 0 <= index < length, with that entry; every other index raises `IndexError`. |
| HistoryManager.GetItemVersusList | history_manager.py:81-89 | Indexing the manager agrees with indexing its list for every index from 0 up, and differs exactly at the negative indices a list would count from the end. |
| HistoryManager.Len | history_manager.py:72-79 | The length is the number of entries. |
| HistoryManager.ContainsIffGet | history_manager.py:62-70 | An item is in the history exactly when some valid index yields it. |
| HistoryManager.Clear | history_manager.py:34-38 | The entries are emptied and the index is left where it was, so the state is valid only if the index was already -1. |
| HistoryManager.Back | history_manager.py:40-49 | With the index above 0 it moves back one and returns the entry there; otherwise it raises and changes nothing; validity and reachability are kept. |
| HistoryManager.Forward | history_manager.py:51-60 | With an entry after the current one it moves forward and returns it; otherwise it raises and changes nothing. |
| HistoryManager.BackThenForward | history_manager.py:40-60 | A successful back followed by forward restores the state and yields the entry that was current. |
| HistoryManager.ForwardThenBack | history_manager.py:40-60 | A successful forward followed by back restores the state and yields the entry that was current. |
| HistoryManager.DemoSession | history_manager.py:95-105 | Adding p1, p2, p2 leaves two entries; back yields p1 and forward then yields p2. |
| HistoryManager.AddTruncatesForward | history_manager.py:21-24 | After visiting a new address, forward fails; repeating the newest entry leaves the forward entries in place. |
| HistoryManager.ReachableValid | history_manager.py:34-60 | Every state reachable through the operations, including `clear`, is valid or empty with a non-negative index. |
| HistoryManager.ClearThenBackMoves | history_manager.py:38 | As written, `clear` can leave a state in which `back` raises yet still moves the index. |
| HistoryManager.ClearReset | history_manager.py:34-38 | The corrected `clear` returns to the initial state. |
| HistoryManager.ClearResetStable | history_manager.py:40-60 | After the corrected `clear`, back and forward both raise and change nothing. |
| HistoryManager.AddAfterClear | history_manager.py:13-38 | After either `clear`, the next visit leaves exactly that one entry, current. |
| HistoryManager.ClearedRaises | history_manager.py:38-60 | After the `clear` as written, back and forward always raise and no entry appears. |
| HistoryManager.GetAsDocumented | history_manager.py:26-29 | `get` as its doc comment describes it: negative indices count from the end, and non-negative ones agree with `get`. |
| HistoryManager.GetNegativeRaises | history_manager.py:26-32 | On any non-empty history `get(-1)` raises, though the documented behaviour returns the last entry. |
| Layout.TextHeight | layout.py:117-134 | A text node's height is never negative. |
| Layout.GlueAllIsJoin | layout.py:120-130 | Gluing lines together is joining their non-empty pieces with single spaces. |
| Layout.WrapKeepsWords | layout.py:120-132 | Wrapping neither loses, reorders nor alters a word: the lines glued back together are the words glued together. |
| Layout.LinesKeepWords | layout.py:117-133 | The non-empty lines of a text node, joined with spaces, are its words joined with spaces. |
| Layout.WrapLinesFit | layout.py:120-130 | Every wrapped line is empty, a single word, or no wider than the limit. |
| Layout.LinesFit | layout.py:117-133 | Every line of a text node is empty, one of its words, or fits the screen width less one horizontal step. |
| Layout.WrapHeight | layout.py:117-134 | The height loop gives one line space per wrapped line. |
| Layout.HeightStep | layout.py:120-130 | One word of the height loop adds a line space exactly when the wrap closes a line. |
| Layout.TextCmds | layout.py:325-347 | The commands for the wrapped lines: one per line. |
| Layout.TextCmdsAt | layout.py:325-347 | The k-th command draws the k-th line in white, k line spaces below the first. |
| Layout.RenderText | layout.py:315-347 | The text branch of `render` draws one white text command per wrapped line, each a line space below the last. |
| Layout.RenderWords | layout.py:316-347 | The drawing loop over the words yields the commands for the wrapped lines. |
| Layout.RenderStep | layout.py:318-337 | One word of the drawing loop draws the line it closes and leaves the rest of the drawing unchanged. |
| Layout.HeightMatchesDrawnLines | layout.py:117-347 | The two copies of the wrap loop agree: the height `layout` gives a text node is one line space per command `render` draws for it, each a line space lower. |
| Layout.LayoutElement | layout.py:89-149 | An element box sits where it is put, has the element's tag, has one child box per boxed child in order, and is well laid out: its height is the sum of its children's. |
| Layout.AppendBox | layout.py:94-142 | One child adds at most one box at the end and keeps the earlier ones: an element below the boxes already there, a text box at the parent's place. |
| Layout.PlacedAppend | layout.py:94-115 | One more placed, well-laid box keeps the list placed. |
| Layout.LayoutKids | layout.py:136-142 | The child loop keeps the boxes already there, adds one box per child that is not a doctype, comment or `head` element, and keeps them all placed. |
| Layout.ElementWellLaid | layout.py:144-149 | An element box whose height is the sum of its placed children's is well laid out. |
| Layout.LayoutRoots | layout.py:83-142 | Each top-level element other than `head` builds a fresh root box at (0, 0) across the screen, well laid out. |
| Layout.LayoutDocument | layout.py:78-151 | The root box is absent exactly when there is no top-level element other than `head`; otherwise it is the last such element laid out. |
| Layout.LastCandidate | layout.py:136-142 | The position of the last top-level element other than `head`, or -1 when there is none. |
| Layout.LayoutRootsIsLast | layout.py:103-142 | The root box is that of the last top-level element other than `head`; an earlier root stays when there is none. |
| Layout.Outlines | layout.py:305-314 | One rectangle per box, with the box's geometry and the default colours. |
| Layout.RectsAppend | layout.py:294-350 | The rectangles of two display lists joined are the rectangles of each, joined. |
| Layout.RectsOfText | layout.py:315-347 | The text branch of `render` draws no rectangle. |
| Layout.RenderRects | layout.py:294-350 | `render` draws exactly one rectangle per element box, in pre-order, with that box's position and size. |
| Layout.RenderAllRects | layout.py:349-350 | The same for a list of sibling boxes. |
| Layout.TextBoxHeight | layout.py:117-350 | A laid-out text box is one line space high per text command `render` emits for it, and those are all it emits. |
| Layout.FileView | layout.py:279-292 | One white text command per character, in order and in the given font; every `x` is within the margins, a newline starts at the left margin, and `y` never decreases. |
| Layout.Visible | layout.py:159-189 | The characters the source view draws: everything but spaces and newlines. |
| Layout.NewPen | layout.py:69-76 | The display list starts empty and the cursor starts one step in from the corner. |
| Layout.SourceChar | layout.py:164-185 | One character of the source-view loop keeps the drawn text plus the buffer equal to the visible characters so far; commands are non-empty texts in the given colour and font; the cursor never moves up. |
| Layout.SourceRuns | layout.py:162-189 | Over a whole text the commands drawn spell exactly its visible characters, each a non-empty text in the given colour and font. |
| Layout.SourceViewText | layout.py:153-189 | An empty text draws nothing; otherwise commands are only appended, and they spell exactly the visible characters of the text. |
| Layout.VisibleStep | layout.py:164-185 | One more character adds itself to what is visible unless it is a space or a newline. |
| Scrollbar.NewScrollbar | scrollbar.py:17-30 | A new scrollbar has offsets and limits at zero, is in range and is not dragging. |
| Scrollbar.UpdateScreenDimensions | scrollbar.py:32-34 | Only the screen size changes. |
| Scrollbar.ScrollLeft | scrollbar.py:36-44 | One step left, stopping at the minimum; nothing else changes; offsets stay in range. |
| Scrollbar.ScrollRight | scrollbar.py:46-54 | One step right, stopping at the maximum; nothing else changes; offsets stay in range. |
| Scrollbar.ScrollDown | scrollbar.py:56-64 | One step down, stopping at the maximum; nothing else changes; offsets stay in range. |
| Scrollbar.ScrollUp | scrollbar.py:66-74 | One step up, stopping at the minimum; nothing else changes; offsets stay in range. |
| Scrollbar.PressAllInRange | scrollbar.py:36-74 | Any sequence of scroll steps keeps both offsets in range and changes nothing else. |
| Scrollbar.ScrollIdempotentAtLimits | scrollbar.py:36-74 | At a limit the step toward it changes nothing. |
| Scrollbar.UpUndoesDown | scrollbar.py:56-74 | An up step undoes a down step that did not reach the limit. |
| Scrollbar.MaxX | scrollbar.py:284 | The largest `x` of a non-empty display list: attained and never exceeded. |
| Scrollbar.CalcMaxScroll | scrollbar.py:265-288 | Only the two limits change, both non-negative and zero for an empty list; the vertical limit is zero exactly when the last line fits, the horizontal one exactly when every `x` fits, each against the space the other bar left before the call; a positive limit is exactly the overflow: scrolled to it, the last line ends at the bottom edge and some command starts at the right edge. |
| Scrollbar.CalcMaxScrollClamped | scrollbar.py:265-288 | The recomputation as evidently intended: the same limits, and each offset kept when still in range and otherwise pulled back to its limit, so both offsets end in range. |
| Scrollbar.SettledAfterMove | scrollbar.py:265-288 | The recomputation reads only the screen size and the previous limits: limits it keeps stay kept when only the offsets or the drag state change. |
| Scrollbar.CalcMaxVUsesLastY | scrollbar.py:273-280 | The vertical limit depends only on the last command's `y`. |
| Scrollbar.VBounds | scrollbar.py:76-102 | No vertical bar without vertical overflow; otherwise a track along the right edge, shortened when a horizontal bar is shown, with the thumb inside its column. |
| Scrollbar.HBounds | scrollbar.py:104-128 | The same along the bottom edge. |
| Scrollbar.BarsAreSymmetric | scrollbar.py:76-128 | The horizontal bar is the vertical bar of the page turned on its side, turned back. |
| Scrollbar.TracksBorderContent | scrollbar.py:76-128 | Each track starts where the content area ends and runs along its full length. |
| Scrollbar.CornersInside | scrollbar.py:130-133 | All four corners of a rectangle count as inside it; a point one step beyond an edge does not. |
| Scrollbar.Clamp | scrollbar.py:157-159 | `max(lo, min(hi, n))`: within the range when the range is non-empty, `n` itself when already inside, and `lo` when the range is empty. |
| Scrollbar.Click | scrollbar.py:135-186 | The vertical bar is tried first: a press on its thumb starts a vertical drag from the current offset; on its track, away from the thumb, the offset jumps to the clamped ratio of the press along the track; off the vertical bar the same holds for the horizontal one; a press on neither bar changes nothing; offsets stay in range. |
| Scrollbar.Drag | scrollbar.py:188-231 | Only the offsets change, and only the held one, clamped to its range; the vertical drag wins; nothing changes when no thumb is held. |
| Scrollbar.Release | scrollbar.py:233-235 | Both drag flags are cleared and nothing else changes. |
| Scrollbar.DragAfterRelease | scrollbar.py:188-235 | After a release a drag changes nothing. |
| Scrollbar.MouseKeepsRange | scrollbar.py:135-235 | Clicks, drags and releases keep the offsets in range. |
| Strings.SpaceEnd | html_parser.py:10 | The first non-whitespace index at or after `i`: everything before it from `i` is whitespace. |
| Strings.LStrip | html_parser.py:10 | `lstrip()`: a suffix of the text, with only whitespace cut, starting with a non-space. |
| Strings.RStrip | html_parser.py:10 | `rstrip()`: a prefix of the text, with only whitespace cut, ending with a non-space. |
| Strings.Strip | html_parser.py:10 | `strip()`: a contiguous piece of the text, free of whitespace at both ends, with only whitespace cut away on either side. |
| Strings.StripEmptyIffAllSpace | html_parser.py:34-35 | Stripping leaves nothing exactly when the text is all whitespace. |
| Strings.StripOfStripped | html_parser.py:23 | Stripping an already stripped text changes nothing. |
| Strings.Find | html_parser.py:40 | `find(sub, start)`: the first occurrence at or after `start`, or -1 exactly when there is none. |
| Strings.ContainsIff | url.py:33 | `sub in s` holds exactly when `sub` occurs at some position. |
| Strings.SplitOnce | url.py:21-23 | `split(sep, 1)` when `sep` occurs: the two parts with `sep` between give the text back, and the first part does not contain `sep`. |
| Strings.SplitAfter | url.py:45 | A separator whose first character is not in `a` splits `a + sep + b` into `a` and `b`. |
| Strings.WordPrefix | layout.py:120 | The maximal run of non-whitespace at the start of a text. |
| Strings.WordsAreWords | layout.py:120 | `split()` yields no empty word and no word containing whitespace. |
| Strings.WordsCoverText | layout.py:120 | The words of a text, run together, are exactly its non-whitespace characters in order. |
| Strings.WordsOfWord | layout.py:120 | A text without whitespace is one word, or none when empty. |
| Strings.LStripChar | tab.py:161 | `lstrip(c)`: a suffix of the text that does not start with `c`, only copies of `c` having been cut. |
| Url.PyInt | url.py:38 | `int(text)` fails only with `ValueError`. |
| Url.PyIntDigits | url.py:38 | Plain decimal digits read as their value. |
| Url.PyIntGrouped | url.py:38 | An underscore between two runs of digits is read as if it were absent. |
| Url.PyIntShowNat | url.py:38 | `int(str(n))` gives back `n` for every natural number. |
| Url.DropUnderscores | url.py:38 | Taking the underscores out of digits and underscores leaves digits only. |
| Url.AfterFirst | url.py:41 | `split(sep, 1)[-1]`: when `sep` occurs, exactly what follows its first occurrence (the text is a `sep`-free part, `sep`, then the result); otherwise the whole text. |
| Url.SplitScheme | url.py:16-23 | The separator is `://` for the http, https and file prefixes and `:` otherwise; the split fails exactly when the separator does not occur, and otherwise is at its first occurrence: scheme, separator and rest give the address back and the scheme holds no separator. |
| Url.HostAndPath | url.py:33-35 | A `/` is appended when missing; the host part holds no `/`, and host, `/` and path give the text back. |
| Url.HostAndPathNoSlash | url.py:33-35 | Without a `/` the whole rest is the host part and the path after it is empty. |
| Url.ParseHttp | url.py:27-39 | The http(s) branch yields an http address whose host holds no `/` and whose path starts with `/`, or fails with `ValueError`. |
| Url.ReadHost | url.py:35-39 | The port is read from the host after a `:`, failing with `ValueError` when it is not an integer; the path is `/` and the rest. |
| Url.ReadHostDefault | url.py:28-39 | A host without `:` keeps the scheme's default port: 80 for http, 443 for https. |
| Url.ReadHostPort | url.py:36-38 | A host `host:digits` gives that host and the port the digits spell. |
| Url.ParseRest | url.py:25-49 | An unsupported scheme is exactly the unsupported outcome; failures are `ValueError` or `AssertionError`; a view-source address wraps the whole rest; http addresses are well formed. |
| Url.Parse | url.py:11-51 | The constructor: failures are `ValueError` or `AssertionError`, an unsupported scheme is recorded as such, and a view-source address wraps a strictly shorter address. |
| Url.SchemeSplit | url.py:16-25 | Without the separator the constructor fails with `ValueError`; otherwise the outcome is unsupported exactly when the scheme is not one of the six. |
| Url.ParseColon | url.py:22-23 | A scheme not starting with `h` or `f` ends at the first `:`. |
| Url.ParseHttpDefaultPort | url.py:21-39 | `scheme://host/path` without a port reads back as that host, the default port and the path. |
| Url.ParseHttpExplicitPort | url.py:21-39 | `scheme://host:port/path` reads back as that host, that port and that path. |
| Url.ParseHttpUrl | url.py:21-27 | An http(s) address is read by the http branch on everything after `://`. |
| Url.ParseBareHost | url.py:33-39 | `http://a` gets the path `/` on port 80. |
| Url.ParseData | url.py:44-45 | `data:type,content` splits at the first comma into media type and content. |
| Url.ParseViewSource | url.py:46-47 | `view-source:x` wraps everything after the first colon. |
| Url.ParseFile | url.py:40-43 | `file://p/q` with no `/` in `p` names the path `q` (so `file:///E:/dir/f` names `E:/dir/f`), and fails with `AssertionError` exactly when that path does not exist. |
| Url.FetchFile | url.py:167-172 | A file address answers with the file's text as plain text, with an empty plain page when the file is gone by the time it is opened, and with the blank page when it did not exist or cannot be read as text. |
| Url.FetchData | url.py:173-174 | A data address answers with its content, typed by its media type. |
| Url.FetchAbout | url.py:178-181 | `about:blank` answers with the blank page, every other `about:` address with the about page. |
| Url.FetchViewSource | url.py:175-177 | A view-source address answers exactly as the address it wraps. |
| Url.AnswerNoneIffUnsupported | url.py:53-184 | A request answers nothing exactly when the innermost wrapped address has an unsupported scheme; every constructor failure ends on the blank page. |
| Url.FetchNoneIffUnsupported | url.py:11-184 | The same, from the address text. |
| Url.LexShape | url.py:187-197 | The lexer's output has no angle brackets and is a subsequence of its input. |
| Url.LexPlain | url.py:187-197 | Text without angle brackets passes through the lexer unchanged. |
| UrlParser.SchemeLength | url_parser.py:13 | 7 exactly for an `http://` prefix, 8 exactly for `https://`, 0 for neither. |
| UrlParser.HostRun | url_parser.py:13 | The longest `/`-free run at the start of the text. |
| UrlParser.ExtractBaseUrl | url_parser.py:12-18 | Any base returned is a prefix of the address of the pattern's shape, followed by the end or a `/`. |
| UrlParser.ExtractIsLongestMatch | url_parser.py:12-18 | There is a base exactly when some prefix has the pattern's shape, and no longer prefix has it. |
| UrlParser.ExtractIdempotent | url_parser.py:12-18 | The base of a base is itself. |
| UrlParser.SchemesExclusive | url_parser.py:13 | No text starts with both `http://` and `https://`. |
| UrlParser.ExtractExamples | url_parser.py:12-18 | The scheme matches case-sensitively, a bare scheme has no base, and `https://a/b/c` has base `https://a`. |
| Tab.NewTab | tab.py:23-64 | A new tab is valid, titled "New Tab", with nothing loaded or drawn, a fresh history and a scrollbar at rest of the same size. |
| Tab.UpdateScreenDimensions | tab.py:108-111 | The tab and its scrollbar take the new size together and nothing else changes. |
| Tab.PrevUrl | tab.py:119-124 | The entry before the current one, or `None` where the history raises; only the index can change, and on a raise it changes only when the list was cleared. |
| Tab.NextUrl | tab.py:126-131 | The entry after the current one and the index moved to it, or `None` and no change. |
| Tab.PrevThenNext | tab.py:119-131 | A step back then a step forward returns to the same tab and names the address that was current. |
| Tab.ClearHistory | tab.py:104-106 | Only the history changes: the list is emptied, the index is kept, and the tab stays valid. |
| Tab.ClearHistoryForgets | tab.py:104-131 | After clearing, back and forward both answer `None`, the list stays empty, and forward changes nothing. |
| Tab.ClearHistoryThenAdd | tab.py:104-139 | After clearing, the next visit leaves exactly that address in the history, as a clear that also reset the index would. |
| Tab.ClearHistoryThenLoad | tab.py:104-106 | A load after `clear_history` records the same history as a load after a clear that also reset the index: only the address just loaded, and it is current. |
| Tab.BaseText | tab.py:161 | A missing base is written as `None` into the link. |
| Tab.ResolveLink | tab.py:159-163 | A link that mentions `http` is cut to start at its first `http`; any other link follows the base and one `/`, its own leading slashes dropped. |
| Tab.ResolveRelative | tab.py:159-161 | A relative link: its leading slashes are dropped and the rest follows the base and `/`. |
| Tab.ResolveAbsoluteStable | tab.py:159-163 | A resolved absolute link resolves to itself against any base. |
| Tab.ResolveAgainstHttp | tab.py:159-163 | Against a base starting with `http`, resolving twice is resolving once. |
| Tab.ResolveIdempotent | tab.py:146-163 | With a base extracted from the tab's address, resolving twice is resolving once. |
| Tab.Accepted | tab.py:181-193 | The resources kept are at most one per link, each from one of the links, each answered with an accepted media type. |
| Tab.AcceptedAppend | tab.py:181-193 | Links are handled in order: the resources of two lists of links are those of each, in order. |
| Tab.AcceptedKeepsAll | tab.py:181-193 | When every link answers with an accepted type, nothing is skipped and the k-th resource comes from the k-th link. |
| Tab.LoadJs | tab.py:178-197 | At most one script per link, each from a link resolved against the base of the tab's address. |
| Tab.CssSheets | tab.py:145-169 | With the style-parser call repaired, at most one stylesheet per link, each from a link resolved against the base of the tab's address. |
| Tab.EffectiveWidth | tab.py:253-255 | The width less the scrollbar width exactly when the page can scroll vertically, the full width otherwise; it agrees with the scrollbar's own computation. |
| Tab.EffectiveHeight | tab.py:256-258 | The height less the scrollbar width exactly when the page can scroll horizontally; it agrees with the scrollbar's own computation. |
| Tab.Shown | tab.py:260-271 | A command is drawn exactly when it lies horizontally within the view and vertically within it or less than one line above it. |
| Tab.Cull | tab.py:260-272 | At most one canvas call per command, each starting inside the visible area or at most one line above it; nothing is drawn when no command is in view. |
| Tab.CullAppend | tab.py:260-272 | Culling keeps order: the calls for two lists joined are those of each, joined. |
| Tab.CullAllShown | tab.py:260-272 | When every command is in view, each is executed exactly once, in order and at the scroll offsets. |
| Tab.DrawTab | tab.py:246-272 | The scroll limits are recomputed from the display list and nothing else changes; the calls made all start inside the area left by the scrollbars, or at most one line above it. |
| Tab.ScrollKey | scrollbar.py:36-74 | A scroll key takes the scrollbar's step and then the tab's redraw, which changes only the limits; on a tab whose limits a redraw would not change, the limits stay and an in-range offset stays in range. |
| Tab.MouseDown | scrollbar.py:135-186 | A press is redrawn exactly when it lands on a track away from the thumb, the vertical bar first; otherwise it is the scrollbar's click alone; on a settled tab the limits and the range are kept. |
| Tab.MouseDrag | scrollbar.py:188-231 | A drag is redrawn exactly when a thumb with room to move is held; otherwise it is the scrollbar's drag alone; on a settled tab the limits and the range are kept. |
| Tab.Redrawn | tab.py:246-250 | A mouse step calls the tab's `draw` exactly when asked: then only the limits change, recomputed from the display list, and a canvas is shown; otherwise the tab is unchanged and the canvas untouched. |
| Tab.GrowAfterScrollLeavesRange | scrollbar.py:265-288 | Scrolled to the bottom in a 900x400 window and redrawn at 900x500, the tab keeps the offset 95, past the new limit 0. |
| Tab.ScrollKeyLeavesRange | scrollbar.py:265-288 | After a resize the limits alternate between redraws, and a scroll key taken at the larger limit is left past the smaller one by its own redraw. |
| Tab.ModeOf | tab.py:199-240 | Nothing happens exactly when content or address is empty; otherwise HTML goes to the source view for view-source addresses and to page layout for the rest, and anything else to the file view. |
| Tab.TitleOf | tab.py:211-239 | The title is the address for source and file views and inline `data:text/html` pages, else the page title, else the base of the address. |
| Tab.Parse | tab.py:199-244 | With nothing loaded only the display list is emptied; otherwise, with the glue repaired, the title is set for the mode, the list becomes what the layout drew, the canvas is drawn, and validity is kept. |
| Tab.Load | tab.py:133-143 | With the `tab.parse` glue repaired: an empty address does nothing; otherwise the address is taken and requested, and the call raises `TypeError` with only the address changed exactly when the request answers nothing; an answer is stored, the address is added to the history exactly when asked, and the page is parsed and drawn. |
| Tab.LoadFailsIffUnsupported | tab.py:133-137 | With the `tab.parse` glue repaired, loading raises exactly when the address, once the view-source layers are peeled off, names an unsupported scheme. |
| Tab.ReloadKeepsHistory | tab.py:138-139 | Reloading the address just loaded leaves the history as the first load left it. |
| HtmlParser.Append | html_parser.py:36-37 | Adding a child puts it last under the current node and changes nothing above it. |
| HtmlParser.Open | html_parser.py:83-86 | A new element becomes the current node, one level deeper, with no children yet; the open tags gain its tag. |
| HtmlParser.Close | html_parser.py:59-61 | Moving to the parent: one level shallower, the last open tag dropped, the finished element now the parent's last child. |
| HtmlParser.FlushText | html_parser.py:33-38 | Buffered text becomes a stripped `Text` child of the current node exactly when it is not blank; nothing else changes. |
| HtmlParser.AppendKeepsWellBuilt | html_parser.py:36-37 | Adding a clean node keeps the tree well built. |
| HtmlParser.CloseKeepsWellBuilt | html_parser.py:59-61 | Moving to the parent keeps the tree well built. |
| HtmlParser.CommentKindLength | html_parser.py:47 | Content read as a comment holds at least its `!--`. |
| HtmlParser.CommentStep | html_parser.py:47-56 | A comment keeps the tag stack and current node in step, and either stops the scan or moves the cursor past the tag. |
| HtmlParser.RawTextStep | html_parser.py:70-79 | A `style` or `script` tag keeps the stack in step and either stops the scan or moves past the tag. |
| HtmlParser.TagStep | html_parser.py:40-89 | One tag keeps the tag stack as deep as the current node and either stops the scan or moves the cursor past the tag. |
| HtmlParser.CloseStep | html_parser.py:58-61 | A closing tag keeps the stack in step and moves just past the tag. |
| HtmlParser.SelfCloseStep | html_parser.py:63-66 | A self-closing tag keeps the stack in step and moves just past the tag. |
| HtmlParser.OpenStep | html_parser.py:80-86 | An opening tag keeps the stack in step and moves just past the tag. |
| HtmlParser.CloseAfterOpen | html_parser.py:40 | The first `>` at or after a `<` lies strictly after it. |
| HtmlParser.Step | html_parser.py:29-92 | One pass of the loop keeps the stack in step and either stops the scan or advances the cursor. |
| HtmlParser.Run | html_parser.py:29-92 | The loop ends at the end of the input or at a `break`, with the stack still in step: popping never passes the root. |
| HtmlParser.SkipSpace | html_parser.py:7 | `\s*`: the index just past the run of whitespace at `k`. |
| HtmlParser.MatchDoctype | html_parser.py:7-21 | A doctype match is a non-empty prefix of the markup. |
| HtmlParser.InitialBuilder | html_parser.py:19-22 | The tree starts at the root, well built, with a `DocumentType` first exactly when one was found. |
| HtmlParser.StepKeepsWellBuilt | html_parser.py:29-92 | One pass of the loop keeps the tree well built: no `DocumentType` below the first, text never empty, tags, text and comments stripped. |
| HtmlParser.TagStepKeepsWellBuilt | html_parser.py:40-89 | One tag keeps the tree well built. |
| HtmlParser.RunKeepsWellBuilt | html_parser.py:29-92 | The whole loop keeps the tree well built. |
| HtmlParser.UnwindKeepsWellBuilt | html_parser.py:103-105 | Unwinding to the root leaves a document of the parsed shape. |
| HtmlParser.ParseWellFormed | html_parser.py:9-105 | Every parsed document has a `DocumentType` first exactly when the declaration was there, and only clean nodes below; blank input gives an empty root. |
| HtmlParser.DoctypeFirstIff | html_parser.py:21-23 | The root's first child is a `DocumentType` exactly when the stripped input starts with the declaration. |
| HtmlParser.CommentKeepsCurrent | html_parser.py:47-56 | A comment never moves the current node nor touches the stack; a tag ending in `--` adds the stripped text between `!--` and `--`; otherwise the text up to the next `-->` is added, and without one the scan stops. |
| HtmlParser.CommentStepAppends | html_parser.py:47-56 | The same, for the comment branch itself. |
| HtmlParser.ClosingIgnoresName | html_parser.py:58-61 | Any two closing tags leave the same tree and stack, popping exactly when the stack is non-empty. |
| HtmlParser.SelfClosingStaysPut | html_parser.py:63-66 | A tag ending in `/` appends a childless element named by the rest, stripped, and neither pushes nor descends. |
| HtmlParser.TagStepIsRawText | html_parser.py:70-79 | `style` and `script` skip raw text up to their own end tag. |
| HtmlParser.RawTextSkips | html_parser.py:70-79 | Raw text adds no node and leaves the stack alone; the scan resumes just past the next end tag and stops exactly when there is none. |
| HtmlParser.OpeningDescends | html_parser.py:80-86 | Any other tag appends an element named by the whole stripped content, pushes that name and makes the element current. |
| HtmlParser.UnterminatedStops | html_parser.py:33-42 | A `<` with no `>` after it flushes the buffer and ends the scan. |
| HtmlParser.ParseHtml | html_parser.py:13-105 | The parse loop computes the parser's document, which has the parsed shape. |
| HtmlRoundTrip.FinalIsRun | html_parser.py:29-105 | Running the loop, flushing and unwinding is what the parser does from any scan state. |
| HtmlRoundTrip.TextRun | html_parser.py:91-92 | Characters before the next `<` are only buffered. |
| HtmlRoundTrip.FlushAtEnd | html_parser.py:97-101 | Stripped text left at the end of the input becomes the last text child. |
| HtmlRoundTrip.OpenTagRun | html_parser.py:80-88 | An opening tag in the markup opens an element of that name. |
| HtmlRoundTrip.CloseTagRun | html_parser.py:58-88 | A closing tag in the markup closes the current element. |
| HtmlRoundTrip.CommentTagRun | html_parser.py:47-56 | `<!--c-->` in the markup adds the comment `c`. |
| HtmlRoundTrip.NodeRun | html_parser.py:29-92 | The markup written for a node is read back as that node, appended to the current one. |
| HtmlRoundTrip.ElementRun | html_parser.py:29-92 | The markup written for an element is read back as that element with all its children. |
| HtmlRoundTrip.SeqRun | html_parser.py:29-92 | The markup written for a list of siblings is read back as those siblings, in order. |
| HtmlRoundTrip.ReadSeq | html_parser.py:25-105 | Scanning the markup of a list of nodes from the root gives a document with exactly those nodes after the given ones. |
| HtmlRoundTrip.DoctypeMatch | html_parser.py:7-21 | The written declaration matches the doctype pattern in full. |
| HtmlRoundTrip.NoDoctypeMatch | html_parser.py:7-21 | Markup written for nodes never matches the doctype pattern. |
| HtmlRoundTrip.ParseWrite | html_parser.py:9-105 | The round trip: parsing the markup written for any writable document gives the document back. |
| HtmlRoundTrip.ParseWriteDoctype | html_parser.py:9-105 | With the declaration written first, the parse starts with a `DocumentType` and then the nodes. |
| HtmlRoundTrip.ParseWritePlain | html_parser.py:9-105 | Without it, the parse is exactly the nodes. |
| Window.Remove | window.py:383-388 | `list.pop(i)`: one element fewer, those before `i` unchanged and those after it moved down one. |
| Window.UpdateTabStyles | window.py:420-425 | Exactly the current tab's button gets the active style; texts, targets and everything else are unchanged. |
| Window.UpdateTabCommands | window.py:406-411 | Every title button and close button targets its own position; texts, styles and everything else are unchanged. |
| Window.UpdateUrlEntry | window.py:328-330 | The address bar shows the current tab's address and nothing else changes. |
| Window.Redraw | window.py:324-326 | Only the current tab changes: with the `tab.parse` glue repaired, it is parsed again and drawn, keeping its address, history and size, and staying valid. |
| Window.AddTab | window.py:336-375 | A fresh tab of the window's size goes last, the others unchanged, and becomes current; the address bar is emptied; a valid window stays valid. |
| Window.NewWindow | window.py:13-63 | A new window has exactly one fresh 800 by 500 tab, current, and is valid. |
| Window.CurrentAfterClose | window.py:391-396 | Closing a tab at or before the current one moves the index back one, never below 0; closing a later tab keeps it. |
| Window.CloseTab | window.py:377-404 | With the `tab.parse` glue repaired, closing the only tab first opens a fresh one; a valid index then removes that tab with its buttons and frame and moves the current index; any other index only keeps the added tab; the window stays valid. |
| Window.CloseAt | window.py:381-404 | Removing a tab from a window with one to spare: one tab fewer, the index moved, the frame gone, the other tabs unchanged, the address bar showing the new current tab. |
| Window.Removed | window.py:383-396 | The four lists lose the same position and stay parallel, frames stay distinct, and the current index lands on a tab. |
| Window.SwitchTab | window.py:413-418 | With the `tab.parse` glue repaired, a valid index becomes current, the tab list keeps its length, and the address bar shows that tab; any other index changes nothing. |
| Window.CtrlTab | window.py:89-92 | Ctrl-Tab makes the next tab current, wrapping to the first. |
| Window.CtrlShiftTab | window.py:93-96 | Ctrl-Shift-Tab makes the previous tab current, wrapping to the last. |
| Window.NextIndex | window.py:91 | `(c + 1) % n` on a valid index is the next index, wrapping to 0. |
| Window.PrevIndex | window.py:95 | `(c - 1) % n` on a valid index is the previous index, wrapping to the last. |
| Window.CtrlShiftTabUndoesCtrlTab | window.py:89-96 | Ctrl-Shift-Tab returns to the tab that was current before Ctrl-Tab. |
| Window.CtrlTabs | window.py:89-92 | k presses of Ctrl-Tab keep the window valid and advance the index k places around the tabs. |
| Window.AdvanceSplit | window.py:89-92 | Presses add up: a + b presses are a presses followed by b. |
| Window.AdvanceCycles | window.py:89-92 | One press per tab brings the index back, and every index is reached in fewer presses than there are tabs. |
| Window.CtrlTabCycles | window.py:89-92 | On the window: as many presses as tabs return to the current tab, and every tab becomes current on the way. |
| Window.Truncate | window.py:429 | Titles up to 10 characters are kept; longer ones are cut to 10 and followed by `...`. |
| Window.TruncateIdempotent | window.py:429 | Cutting a cut title again changes nothing. |
| Window.UpdateTabTitle | window.py:427-430 | A missing or empty title changes nothing; otherwise only the current tab's button text changes, to the cut title. |
| Window.Resize | window.py:278-284 | With the `tab.parse` glue repaired, the window and every tab take the new size; tabs keep their addresses and history; the current tab is shown again; the window stays valid. |
| Window.Settle | window.py:504-506 | The current tab is replaced by the loaded one; on an error nothing more happens, otherwise the button shows the new title and the address bar the address. |
| Window.Load | window.py:501-506 | With the `tab.parse` glue repaired, the given address, or the address bar's text; an empty one does nothing; otherwise only the current tab changes, by loading it with history, raising exactly when the request answers nothing, and the address bar then shows the address. |

## Left out

- Networking (url.py:55-166): sockets, TLS, request headers, response decoding, redirects and the HTTP cache are the `Url.Env.network` parameter. It returns `None` where the exchange would fail, and the browser then shows the blank page.
- The file system is two parameters. `Url.Env.fileExists` is the existence test the constructor makes (url.py:42). `Url.Env.readFile` is the read that `request` makes later (url.py:167-172). The read gives the text, `FileNotFoundError`, or any other failure, such as a directory or bytes that are not UTF-8.
- Tk: the canvas, the widgets, and the page overlay with its bookmarks and shortcuts pane are left out. So are focus handling on the URL entry and the operating-system branch of the mouse-wheel handler (window.py:286-322). The model keeps what each handler computes: the tab list, the button texts, styles and targets, the URL entry text, and the canvas operations a tab draws.
- Scrollbar hover highlighting (scrollbar.py:237-263) and the drawing of the bars (scrollbar.py:290 onwards) are left out. They only choose colours and rectangles on the Tk canvas.
- Floating-point ratios in the scrollbar arithmetic (thumb size, thumb position and track jumps) are the `Scrollbar.FloatOps` parameter. The float-to-int truncation is therefore not modelled. The bounds and clamping around those ratios are modelled and proved for any value it returns.
- Printing and logging are left out: `print_tree`, `print_layout_tree`, the DOM-tree printer, `log`, and printing `js_ctx.result` (tab.py:78-102, html_parser.py:110-118, layout.py:353-366). None of them changes state that the model keeps.
- JavaScript execution is left out: `load_defaults` (tab.py:171-176) and `js_ctx.run`. `Tab.LoadJs` gives the scripts that would be run, in order, and the result of running them is not modelled.
- The source-view tree walk (layout.py:191-277) that colours tags and text differently is left out. The per-character runner it uses for text (layout.py:153-189) is modelled as `Layout.SourceViewText`.
- The glue inside `tab.parse` (tab.py:199-244) is replaced by parameters. That glue covers the two-argument layout constructor, `extract_title`, `extract_links` and `layout(styles=...)`, and as written these do not match the signatures in the other files. The page title is the `pageTitle` parameter of `Tab.Parse` and the display list is its `drawn` parameter. A window gets both from `Window.Page.paint`. As written the program does not get that far: tab.py:205 calls `Layout(self.WIDTH, self.HEIGHT)`, while `Layout.__init__` (layout.py:68) takes a window as well as the two sizes, so `parse` raises `TypeError` on every page whose content and address are both non-empty. `tab.load` then raises after the history add (tab.py:138-141), the display list is never filled (tab.py:243 is not reached), and the window's `_update_canvas` (window.py:324-326) raises before `_update_url_entry` is reached (window.py:403-404 and 417-418), as does `load` before its title and address-bar updates (window.py:504-506). `Tab.Parse`, `Tab.Load`, `Tab.LoadFailsIffUnsupported`, `Window.Redraw`, `Window.SwitchTab`, `Window.CloseTab`, `Window.Resize` and `Window.Load` describe these calls as intended, with the glue repaired.
- `load_css` (tab.py:145-169): the request for the default stylesheet, the hand-over of each fetched sheet to the style parser, and the console message written when a fetch raises are all left out. As written, the call `parse(external_styles=...)` does not match `CSSParser.parse`, which takes no arguments (css_parser.py:11). The external-sheet parser it would reach does nothing (css_parser.py:40-41), so no fetched sheet changes any style. As written the first such call, for the default stylesheet (tab.py:154), already raises `TypeError`, so no sheet is handed over at all. `Tab.CssSheets` models which sheets would be fetched with that call repaired, and in what order.
- Scrollbar.PressAllInRange: holds for the scrollbar on its own, and so do `Scrollbar.MouseKeepsRange` and the in-range clauses of `Scrollbar.ScrollLeft`, `Scrollbar.ScrollRight`, `Scrollbar.ScrollUp`, `Scrollbar.ScrollDown`, `Scrollbar.Click` and `Scrollbar.Drag`. In the browser each of these steps is followed by the tab's redraw, which recomputes the limits without clamping the offsets. At the tab level the range is kept only while the limits are settled (`Tab.ScrollKey`, `Tab.MouseDown`, `Tab.MouseDrag`). See the Findings.
- Url.PyInt: Python's `int()` also accepts non-ASCII decimal digits (for example Arabic-Indic digits), and the model rejects them. Its own ensures state only the error kind. Its values for ASCII digits, with or without underscores, are stated by `Url.PyIntDigits`, `Url.PyIntGrouped` and `Url.PyIntShowNat`.

## Findings

| source | as written | input that shows it | evidently intended | confidence | as-written member | corrected member |
|---|---|---|---|---|---|---|
| history_manager.py:34-38 | `clear()` empties the list but leaves `current_index` unchanged | a history whose index is 2: `clear()` and then `back()` raises `IndexError` yet moves the index to 1 | `clear()` resets the index to -1, giving the state of a new manager | not executed | HistoryManager.ClearThenBackMoves | HistoryManager.ClearReset |
| history_manager.py:26-32 | the doc comment of `get` says negative indices count from the end, but the code raises `IndexError` for any index below 0 | `get(-1)` on a non-empty history | `get(-1)` returns the newest entry | not executed | HistoryManager.GetNegativeRaises | HistoryManager.GetAsDocumented |
| scrollbar.py:265-288 | `calc_max_scroll` sets new limits but never moves the offsets into them, and the tab's `draw` calls it after every scroll step and resize | a tab scrolled to the bottom of a page in a 900x400 window, then resized to 900x500: the offset stays 95, past the limit 0; as written the display list is never filled (see the `tab.parse` line under "## Left out"), so this input is reachable only with that glue repaired | the offsets are clamped to the new limits | not executed | Tab.GrowAfterScrollLeavesRange | Scrollbar.CalcMaxScrollClamped |

The tab keeps `clear` as written, because `HistoryManager.AddAfterClear`, `Tab.ClearHistoryThenAdd` and `Tab.ClearHistoryThenLoad` prove that the leftover index is never observed: after a clear, back and forward both answer `None`, and the next visit yields the same history as the corrected clear.

The tab's `draw` also keeps `calc_max_scroll` as written, because the offsets it leaves out of range are observable: they decide which commands are drawn and where. So the tab-level steps state when the range holds rather than promising that it always does. `Tab.ScrollKeyLeavesRange` shows that once the limits are unsettled, a scroll key alone can leave the range.

=== FILE: css_parser.dfy ===
/** The inline-style scanner: `key: value;` declarations into a map. */
module CssParser {
  import opened Wrappers
  import opened Strings

  /** The parser's inputs and the map it fills. A missing input is `None`. */
  datatype CssParser = CssParser(inline: Option<string>, external: Option<string>, styles: map<string, string>)

  /** `CSSParser(inline_styles, external_styles)` */
  function NewParser(inline: Option<string>, external: Option<string>): (p: CssParser)
    ensures p.styles == map[] && p.inline == inline && p.external == external
  {
    CssParser(inline, external, map[])
  }

  /** Python truthiness of an optional string: present and non-empty. */
  predicate Given(s: Option<string>)
  {
    s.Some? && s.value != []
  }

  /** Every key and every value is free of whitespace at both ends. */
  predicate AllStripped(m: map<string, string>)
  {
    forall k :: k in m ==> Stripped(k) && Stripped(m[k])
  }

  /** The scan of `_parse_inline_styles` from a point where `buffer` and `key` hold what
      the characters before `s` left there. */
  function Scan(s: string, buffer: string, key: string, styles: map<string, string>): map<string, string>
    decreases |s|
  {
    if s == [] then
      if buffer != [] then styles[key := Strip(buffer)] else styles
    else if s[0] == ':' then Scan(s[1..], "", Strip(buffer), styles)
    else if s[0] == ';' then Scan(s[1..], "", key, styles[key := Strip(buffer)])
    else Scan(s[1..], buffer + [s[0]], key, styles)
  }

  /** `_parse_inline_styles()` as the loop it is. The handler that empties the map on an
      exception has no exception to catch: nothing in the loop can raise. */
  method ParseInlineStyles(text: string, styles: map<string, string>) returns (r: map<string, string>)
    ensures r == Scan(text, "", "", styles)
    ensures AllStripped(styles) ==> AllStripped(r)
    ensures forall k :: k in styles ==> k in r
  {
    var buffer := "";
    var key := "";
    r := styles;
    var i := 0;
    while i < |text|
      invariant 0 <= i <= |text|
      invariant Scan(text[i..], buffer, key, r) == Scan(text, "", "", styles)
      invariant Stripped(key)
      invariant AllStripped(styles) ==> AllStripped(r)
      invariant forall k :: k in styles ==> k in r
    {
      var c := text[i];
      assert text[i..][1..] == text[i + 1..];
      if c == ':' {
        key := Strip(buffer);
        buffer := "";
      } else if c == ';' {
        r := r[key := Strip(buffer)];
        buffer := "";
      } else {
        buffer := buffer + [c];
      }
      i := i + 1;
    }
    if buffer != [] {
      r := r[key := Strip(buffer)];
    }
  }

  /** `parse()`: the inline styles when given, then the external ones, whose parser does
      nothing; the map is returned and kept. */
  method Parse(p: CssParser) returns (styles: map<string, string>, q: CssParser)
    ensures q == p.(styles := styles)
    ensures !Given(p.inline) ==> styles == p.styles
    ensures Given(p.inline) ==> styles == Scan(p.inline.value, "", "", p.styles)
    ensures AllStripped(p.styles) ==> AllStripped(styles)
  {
    styles := p.styles;
    if Given(p.inline) {
      styles := ParseInlineStyles(p.inline.value, styles);
    }
    if Given(p.external) {
      styles := ParseExternalStyles(styles);
    }
    q := p.(styles := styles);
  }

  /** `_parse_external_styles()`: an empty body. */
  function ParseExternalStyles(styles: map<string, string>): (r: map<string, string>)
    ensures r == styles
  {
    styles
  }

  /** Every key and value the scan stores is stripped, whatever it started from. */
  lemma {:induction false} ScanStripped(s: string, buffer: string, key: string, styles: map<string, string>)
    requires Stripped(key) && AllStripped(styles)
    ensures AllStripped(Scan(s, buffer, key, styles))
    decreases |s|
  {
    if s == [] {
    } else if s[0] == ':' {
      ScanStripped(s[1..], "", Strip(buffer), styles);
    } else if s[0] == ';' {
      ScanStripped(s[1..], "", key, styles[key := Strip(buffer)]);
    } else {
      ScanStripped(s[1..], buffer + [s[0]], key, styles);
    }
  }

  /** Scanning into a map that already holds entries overrides those entries with exactly
      what a scan into an empty map finds. */
  lemma {:induction false} ScanOverrides(s: string, buffer: string, key: string, styles: map<string, string>)
    ensures Scan(s, buffer, key, styles) == styles + Scan(s, buffer, key, map[])
    decreases |s|
  {
    if s == [] {
      if buffer != [] {
        UpdateIsUnion(styles, key, Strip(buffer), map[]);
      }
    } else if s[0] == ':' {
      ScanOverrides(s[1..], "", Strip(buffer), styles);
    } else if s[0] == ';' {
      var v := Strip(buffer);
      assert Scan(s, buffer, key, styles) == styles[key := v] + Scan(s[1..], "", key, map[]) by {
        ScanOverrides(s[1..], "", key, styles[key := v]);
      }
      assert Scan(s, buffer, key, map[]) == map[key := v] + Scan(s[1..], "", key, map[]) by {
        ScanOverrides(s[1..], "", key, map[key := v]);
        assert map[][key := v] == map[key := v];
      }
      UpdateIsUnion(styles, key, v, Scan(s[1..], "", key, map[]));
    } else {
      ScanOverrides(s[1..], buffer + [s[0]], key, styles);
    }
  }

  /** Parsing the same inline styles a second time, as a second call to `parse` does on the
      kept map, yields the same map. */
  lemma ParseTwiceSame(text: string)
    ensures var once := Scan(text, "", "", map[]);
            Scan(text, "", "", once) == once
  {
    var once := Scan(text, "", "", map[]);
    ScanOverrides(text, "", "", once);
  }

  /** No declaration separator in `w`. */
  predicate Plain(w: string)
  {
    forall k :: 0 <= k < |w| ==> w[k] != ':' && w[k] != ';'
  }

  /** Ordinary characters only grow the buffer. */
  lemma {:induction false} ScanPlain(w: string, rest: string, buffer: string, key: string, styles: map<string, string>)
    requires Plain(w)
    ensures Scan(w + rest, buffer, key, styles) == Scan(rest, buffer + w, key, styles)
    decreases |w|
  {
    if w != [] {
      assert (w + rest)[0] == w[0];
      assert (w + rest)[1..] == w[1..] + rest;
      ScanPlain(w[1..], rest, buffer + [w[0]], key, styles);
      assert buffer + [w[0]] + w[1..] == buffer + w;
    } else {
      assert w + rest == rest;
      assert buffer + w == buffer;
    }
  }

  /** `key:` followed by more text: the stripped key becomes current. */
  lemma ScanKey(k: string, rest: string, styles: map<string, string>)
    requires Plain(k)
    ensures Scan(k + ":" + rest, "", "", styles) == Scan(rest, "", Strip(k), styles)
    ensures forall key :: Scan(k + ":" + rest, "", key, styles) == Scan(rest, "", Strip(k), styles)
  {
    forall key ensures Scan(k + ":" + rest, "", key, styles) == Scan(rest, "", Strip(k), styles) {
      assert k + ":" + rest == k + (":" + rest);
      ScanPlain(k, ":" + rest, "", key, styles);
      assert "" + k == k;
      assert (":" + rest)[1..] == rest;
    }
  }

  /** `value;` followed by more text: the stripped value is stored under the current key. */
  lemma ScanValue(v: string, rest: string, key: string, styles: map<string, string>)
    requires Plain(v)
    ensures Scan(v + ";" + rest, "", key, styles) == Scan(rest, "", key, styles[key := Strip(v)])
  {
    assert v + ";" + rest == v + (";" + rest);
    ScanPlain(v, ";" + rest, "", key, styles);
    assert "" + v == v;
    assert (";" + rest)[1..] == rest;
  }

  /** Text left after the last `;` is stored under the current key when non-empty. */
  lemma ScanLeftover(v: string, key: string, styles: map<string, string>)
    requires Plain(v)
    ensures Scan(v, "", key, styles) == if v == [] then styles else styles[key := Strip(v)]
  {
    ScanPlain(v, [], "", key, styles);
    assert v + [] == v;
    assert "" + v == v;
  }

  /** One whole declaration `key:value;`: the stripped value is stored under the
      stripped key, which stays current. */
  lemma ScanDecl(k: string, v: string, rest: string, key: string, styles: map<string, string>)
    requires Plain(k) && Plain(v)
    ensures Scan(k + ":" + v + ";" + rest, "", key, styles)
         == Scan(rest, "", Strip(k), styles[Strip(k) := Strip(v)])
  {
    assert k + ":" + v + ";" + rest == k + ":" + (v + ";" + rest);
    ScanKey(k, v + ";" + rest, styles);
    ScanValue(v, rest, Strip(k), styles);
  }

  /** A leftover of whitespace alone stores the empty value. */
  lemma ScanBlank(blank: string, key: string, styles: map<string, string>)
    requires blank != [] && Plain(blank) && Strip(blank) == []
    ensures Scan(blank, "", key, styles) == styles[key := ""]
  {
    ScanLeftover(blank, key, styles);
  }

  /** Whitespace after the last `;` is a leftover buffer that stores the empty value:
      "color: red; " ends with `color` mapped to the empty string. */
  lemma {:induction false} TrailingBlankClearsValue(k: string, v: string, blank: string)
    requires Plain(k) && Plain(v) && blank != [] && Plain(blank) && Strip(blank) == []
    ensures Scan(k + ":" + v + ";" + blank, "", "", map[]) == map[Strip(k) := ""]
  {
    var m1 := map[Strip(k) := Strip(v)];
    assert Scan(k + ":" + v + ";" + blank, "", "", map[]) == Scan(blank, "", Strip(k), m1) by {
      ScanDecl(k, v, blank, "", map[]);
    }
    assert Scan(blank, "", Strip(k), m1) == map[Strip(k) := ""] by {
      ScanBlank(blank, Strip(k), m1);
      Overwrite(Strip(k), Strip(v), "");
    }
  }

  /** A later declaration of the same key wins over an earlier one. */
  lemma {:induction false} LaterDeclarationWins(k: string, v1: string, v2: string)
    requires Plain(k) && Plain(v1) && Plain(v2)
    ensures Scan(k + ":" + v1 + ";" + (k + ":" + v2 + ";"), "", "", map[]) == map[Strip(k) := Strip(v2)]
  {
    var tail := k + ":" + v2 + ";";
    var m1 := map[Strip(k) := Strip(v1)];
    assert Scan(k + ":" + v1 + ";" + tail, "", "", map[]) == Scan(tail, "", Strip(k), m1) by {
      ScanDecl(k, v1, tail, "", map[]);
    }
    assert Scan(tail, "", Strip(k), m1) == map[Strip(k) := Strip(v2)] by {
      assert tail == k + ":" + v2 + ";" + [];
      ScanDecl(k, v2, [], Strip(k), m1);
      Overwrite(Strip(k), Strip(v1), Strip(v2));
    }
  }

  /** Storing under a key and then adding a map is adding the one-entry map first. */
  lemma UpdateIsUnion(styles: map<string, string>, key: string, v: string, more: map<string, string>)
    ensures styles[key := v] + more == styles + (map[key := v] + more)
  {
  }

  /** Storing twice under one key keeps the second value only. */
  lemma Overwrite(key: string, a: string, b: string)
    ensures map[key := a][key := b] == map[key := b]
  {
  }

  /** A value with no key before it is stored under the empty key. */
  lemma ValueWithoutKey(v: string)
    requires Plain(v)
    ensures Scan(v + ";", "", "", map[]) == map["" := Strip(v)]
  {
    assert v + ";" == v + ";" + [];
    ScanValue(v, [], "", map[]);
  }
}

=== FILE: draw.dfy ===
/** Display-list records and the canvas call each one issues when it is executed. */
module Draw {

  /** A font as the records carry it; fonts are compared, never measured, here. */
  datatype Font = Font(family: string, size: int, weight: string, slant: string)

  /** The font every layout text box uses. */
  const TextFont: Font := Font("Times New Roman", 14, "normal", "roman")

  /** A display-list command. Positions are document coordinates; `x` and `y` are shared
      by both kinds. The Python code spells the fill field `backgound`. */
  datatype DrawCmd =
    | DrawText(x: int, y: int, text: string, font: Font, color: string)
    | DrawRect(x: int, y: int, width: int, height: int, border: string, background: string)

  /** The call made on the canvas, in screen coordinates. */
  datatype CanvasOp =
    | CreateText(tx: int, ty: int, text: string, font: Font, anchor: string, fill: string)
    | CreateRectangle(x0: int, y0: int, x1: int, y1: int, outline: string, fill: string)

  const DefaultTextColor: string := "white"
  const DefaultBorder: string := "yellow"
  const DefaultBackground: string := "black"

  /** `DrawText(x, y, text, font)` with the colour left at its default. */
  function NewDrawText(x: int, y: int, text: string, font: Font): (c: DrawCmd)
    ensures c.DrawText? && c.color == "white"
    ensures c.x == x && c.y == y && c.text == text && c.font == font
  {
    DrawText(x, y, text, font, DefaultTextColor)
  }

  /** `DrawRect(x, y, width, height)` with both colours left at their defaults. */
  function NewDrawRect(x: int, y: int, width: int, height: int): (c: DrawCmd)
    ensures c.DrawRect? && c.border == "yellow" && c.background == "black"
    ensures c.x == x && c.y == y && c.width == width && c.height == height
  {
    DrawRect(x, y, width, height, DefaultBorder, DefaultBackground)
  }

  /** `execute(canvas, scroll_x, scroll_y)`: the command shifted up and left by the scroll
      offsets. Text is anchored at its north-west corner; a rectangle keeps its size. */
  function Execute(cmd: DrawCmd, scrollX: int, scrollY: int): (op: CanvasOp)
    ensures op.CreateText? <==> cmd.DrawText?
    ensures op.CreateText? ==>
      op.tx + scrollX == cmd.x && op.ty + scrollY == cmd.y && op.anchor == "nw"
      && op.text == cmd.text && op.font == cmd.font && op.fill == cmd.color
    ensures op.CreateRectangle? ==>
      op.x0 + scrollX == cmd.x && op.y0 + scrollY == cmd.y
      && op.x1 - op.x0 == cmd.width && op.y1 - op.y0 == cmd.height
      && op.outline == cmd.border && op.fill == cmd.background
  {
    match cmd
    case DrawText(x, y, text, font, color) =>
      CreateText(x - scrollX, y - scrollY, text, font, "nw", color)
    case DrawRect(x, y, w, h, border, background) =>
      CreateRectangle(x - scrollX, y - scrollY, x + w - scrollX, y + h - scrollY, border, background)
  }

  /** Reads a canvas call back into the command that issued it, given the offsets used. */
  function Recover(op: CanvasOp, scrollX: int, scrollY: int): DrawCmd
  {
    match op
    case CreateText(tx, ty, text, font, _, fill) => DrawText(tx + scrollX, ty + scrollY, text, font, fill)
    case CreateRectangle(x0, y0, x1, y1, outline, fill) =>
      DrawRect(x0 + scrollX, y0 + scrollY, x1 - x0, y1 - y0, outline, fill)
  }

  /** Executing loses nothing: the command can be read back from its canvas call. */
  lemma RecoverExecute(cmd: DrawCmd, scrollX: int, scrollY: int)
    ensures Recover(Execute(cmd, scrollX, scrollY), scrollX, scrollY) == cmd
  {
  }

  /** With the default offsets of zero a command is drawn where it says. */
  lemma ExecuteUnscrolled(cmd: DrawCmd)
    ensures Execute(cmd, 0, 0).CreateText? ==>
      Execute(cmd, 0, 0).tx == cmd.x && Execute(cmd, 0, 0).ty == cmd.y
    ensures Execute(cmd, 0, 0).CreateRectangle? ==>
      Execute(cmd, 0, 0).x0 == cmd.x && Execute(cmd, 0, 0).y0 == cmd.y
      && Execute(cmd, 0, 0).x1 == cmd.x + cmd.width && Execute(cmd, 0, 0).y1 == cmd.y + cmd.height
  {
  }

  /** Scrolling by (dx, dy) more moves every drawn point by exactly (-dx, -dy). */
  lemma ExecuteShifts(cmd: DrawCmd, scrollX: int, scrollY: int, dx: int, dy: int)
    ensures var a := Execute(cmd, scrollX, scrollY);
            var b := Execute(cmd, scrollX + dx, scrollY + dy);
            (a.CreateText? ==> b.tx == a.tx - dx && b.ty == a.ty - dy)
            && (a.CreateRectangle? ==>
                b.x0 == a.x0 - dx && b.y0 == a.y0 - dy && b.x1 == a.x1 - dx && b.y1 == a.y1 - dy)
  {
  }
}

=== FILE: history_manager.dfy ===
/** The back/forward list of visited addresses, with forward entries discarded on a new visit. */
module HistoryManager {
  import opened Wrappers

  /** `history` and `current_index`. */
  datatype History = History(items: seq<string>, current: int)

  /** Python's `s[i]`: a negative index counts from the end; anything else out of range raises. */
  function PyIndex(s: seq<string>, i: int): (r: Result<string>)
    ensures r.Ok? <==> -|s| <= i < |s|
    ensures 0 <= i < |s| ==> r == Ok(s[i])
    ensures -|s| <= i < 0 ==> r == Ok(s[|s| + i])
    ensures r.Err? ==> r.error == IndexError
  {
    if 0 <= i < |s| then Ok(s[i])
    else if -|s| <= i < 0 then Ok(s[|s| + i])
    else Err(IndexError)
  }

  /** Python's `del s[start:]`: a negative start counts from the end and is clamped at 0. */
  function PyDelFrom(s: seq<string>, start: int): (r: seq<string>)
    ensures 0 <= start ==> r == s[..if start <= |s| then start else |s|]
    ensures start < 0 ==> r == s[..if |s| + start >= 0 then |s| + start else 0]
  {
    var k := if start >= 0 then (if start <= |s| then start else |s|)
             else (if |s| + start >= 0 then |s| + start else 0);
    s[..k]
  }

  /** The range every state keeps as long as `clear` is not called. */
  predicate Valid(h: History)
  {
    -1 <= h.current < |h.items|
  }

  /** What every state keeps, `clear` included: the index is never below -1, and it is
      in range unless the list was emptied under it. */
  predicate Reachable(h: History)
  {
    -1 <= h.current && (h.items == [] || h.current < |h.items|)
  }

  /** With entries left, a reachable state is in range. */
  lemma ReachableValid(h: History)
    requires Reachable(h)
    ensures Valid(h) || (h.items == [] && h.current >= 0)
    ensures Valid(h) ==> Reachable(h)
  {
  }

  /** `HistoryManager()` */
  function Init(): (h: History)
    ensures Valid(h) && h.items == [] && h.current == -1
  {
    History([], -1)
  }

  /** `add(item)`: a repeat of the newest entry changes nothing; otherwise the entries
      after the current one are dropped, the item goes last and becomes current. */
  function Add(h: History, item: string): (r: History)
    ensures |h.items| > 0 && h.items[|h.items| - 1] == item ==> r == h
    ensures !(|h.items| > 0 && h.items[|h.items| - 1] == item) ==>
      |r.items| > 0 && r.current == |r.items| - 1 && r.items[r.current] == item
      && (Valid(h) ==> r.items == h.items[..h.current + 1] + [item])
    ensures Valid(h) ==> Valid(r)
    ensures Reachable(h) ==> Reachable(r)
  {
    if |h.items| > 0 && h.items[|h.items| - 1] == item then h
    else
      var kept := if h.current < |h.items| - 1 then PyDelFrom(h.items, h.current + 1) else h.items;
      History(kept + [item], |kept|)
  }

  /** `get(index)` and `__getitem__`: only 0 <= index < len succeeds; a negative index
      raises even though the doc comment promises Python-style counting from the end. */
  function Get(h: History, index: int): (r: Result<string>)
    ensures r.Ok? <==> 0 <= index < |h.items|
    ensures r.Ok? ==> r.value == h.items[index]
    ensures r.Err? ==> r.error == IndexError
  {
    if 0 <= index < |h.items| then Ok(h.items[index]) else Err(IndexError)
  }

  /** `h[index]`, which delegates to `get`. */
  function GetItem(h: History, index: int): (r: Result<string>)
    ensures r.Ok? <==> 0 <= index < |h.items|
    ensures r.Ok? ==> r.value == h.items[index]
    ensures r.Err? ==> r.error == IndexError
  {
    Get(h, index)
  }

  /** `h[i]` against indexing the underlying list: the same for every index from 0 up,
      and different exactly for the negative indices a list would count from the end. */
  lemma GetItemVersusList(h: History, index: int)
    ensures 0 <= index ==> GetItem(h, index) == PyIndex(h.items, index)
    ensures GetItem(h, index) != PyIndex(h.items, index) <==> -|h.items| <= index < 0
  {
  }

  /** `item in h` */
  predicate Contains(h: History, item: string)
  {
    item in h.items
  }

  /** `len(h)` */
  function Len(h: History): (n: nat)
    ensures n == |h.items|
  {
    |h.items|
  }

  /** Contains agrees with Get: an item is in the history exactly when some index yields it. */
  lemma ContainsIffGet(h: History, item: string)
    ensures Contains(h, item) <==> exists i :: 0 <= i < Len(h) && Get(h, i) == Ok(item)
  {
    if Contains(h, item) {
      var i :| 0 <= i < |h.items| && h.items[i] == item;
      assert Get(h, i) == Ok(item);
    }
  }

  /** `clear()`: the list is emptied; `current_index` is left where it was. */
  function Clear(h: History): (r: History)
    ensures r.items == [] && r.current == h.current
    ensures Valid(r) <==> h.current == -1
    ensures Reachable(h) ==> Reachable(r)
  {
    History([], h.current)
  }

  /** `back()`: the outcome and the state afterwards. When `current_index > 0` the index
      moves first and the list is then read, so the read itself can still raise. */
  function Back(h: History): (r: (Result<string>, History))
    ensures h.current <= 0 ==> r == (Err(IndexError), h)
    ensures h.current > 0 ==> r.1 == h.(current := h.current - 1)
    ensures Valid(h) ==> Valid(r.1)
    ensures Reachable(h) ==> Reachable(r.1)
    ensures Valid(h) ==> (r.0.Ok? <==> h.current > 0)
    ensures Reachable(h) ==> (r.0.Ok? <==> h.current > 0 && h.items != [])
    ensures Valid(h) && r.0.Ok? ==> r.0.value == h.items[h.current - 1]
    ensures r.0.Err? ==> r.0.error == IndexError
  {
    if h.current > 0 then
      var c := h.current - 1;
      (PyIndex(h.items, c), h.(current := c))
    else (Err(IndexError), h)
  }

  /** `forward()`: succeeds exactly when there is an entry after the current one. */
  function Forward(h: History): (r: (Result<string>, History))
    ensures h.current >= |h.items| - 1 ==> r == (Err(IndexError), h)
    ensures h.current < |h.items| - 1 ==> r.1 == h.(current := h.current + 1)
    ensures Valid(h) ==> Valid(r.1)
    ensures Reachable(h) ==> Reachable(r.1)
    ensures Reachable(h) ==> (r.0.Ok? <==> h.current < |h.items| - 1)
    ensures Reachable(h) && h.items == [] ==> r == (Err(IndexError), h)
    ensures Valid(h) && r.0.Ok? ==> r.0.value == h.items[h.current + 1]
    ensures r.0.Err? ==> r.0.error == IndexError
  {
    if h.current < |h.items| - 1 then
      var c := h.current + 1;
      (PyIndex(h.items, c), h.(current := c))
    else (Err(IndexError), h)
  }

  /** Going back and then forward again restores the position and yields the entry
      that was current before. */
  lemma BackThenForward(h: History)
    requires Valid(h) && Back(h).0.Ok?
    ensures Forward(Back(h).1).1 == h
    ensures Forward(Back(h).1).0 == Ok(h.items[h.current])
  {
  }

  /** Going forward and then back again restores the position and yields the entry
      that was current before. */
  lemma ForwardThenBack(h: History)
    requires Valid(h) && Forward(h).0.Ok? && h.current >= 0
    ensures Back(Forward(h).1).1 == h
    ensures Back(Forward(h).1).0 == Ok(h.items[h.current])
  {
  }

  /** The closing sequence of history_manager.py: p1, p2, p2 leaves two entries; back
      yields p1 and forward yields p2 again. */
  lemma DemoSession(p1: string, p2: string)
    requires p1 != p2
    ensures var h := Add(Add(Add(Init(), p1), p2), p2);
            Len(h) == 2 && Get(h, 0) == Ok(p1) && GetItem(h, 0) == Ok(p1)
            && Back(h).0 == Ok(p1) && Forward(Back(h).1).0 == Ok(p2)
  {
    var h1 := Add(Init(), p1);
    assert h1 == History([p1], 0);
    var h2 := Add(h1, p2);
    assert h2 == History([p1, p2], 1);
  }

  /** After a visit to a new address the forward list is gone and forward fails. A repeat
      of the newest entry is ignored even when the index is further back, so the forward
      list then survives. */
  lemma AddTruncatesForward(h: History, item: string)
    requires Valid(h)
    ensures !(|h.items| > 0 && h.items[|h.items| - 1] == item) ==> Forward(Add(h, item)).0.Err?
    ensures |h.items| > 0 && h.items[|h.items| - 1] == item && h.current < |h.items| - 1 ==>
      Forward(Add(h, item)).0.Ok?
  {
  }

  /** The state `clear` leaves can fail `back` while still moving the index: with the
      index at 2, clearing and going back raises and yet leaves the index at 1. */
  lemma ClearThenBackMoves(h: History)
    requires h.current == 2
    ensures Back(Clear(h)).0 == Err(IndexError)
    ensures Back(Clear(h)).1.current == 1
    ensures !Valid(Clear(h))
  {
  }

  /** `clear()` as evidently intended: the index returns to its initial value, so the
      cleared manager is indistinguishable from a new one. */
  function ClearReset(h: History): (r: History)
    ensures Valid(r) && r == Init()
  {
    History([], -1)
  }

  /** After the corrected clear, back and forward fail without changing anything. */
  lemma ClearResetStable(h: History)
    ensures Back(ClearReset(h)) == (Err(IndexError), ClearReset(h))
    ensures Forward(ClearReset(h)) == (Err(IndexError), ClearReset(h))
  {
  }

  /** The index `clear` leaves behind is never seen again: the next visit gives the same
      history as after the corrected clear, one entry and current. */
  lemma AddAfterClear(h: History, item: string)
    requires Reachable(h)
    ensures Add(Clear(h), item) == Add(ClearReset(h), item) == History([item], 0)
  {
  }

  /** On a cleared list back and forward always raise; back may still move the index,
      forward never does. */
  lemma ClearedRaises(h: History)
    requires Reachable(h)
    ensures Back(Clear(h)).0 == Err(IndexError) && Back(Clear(h)).1.items == []
    ensures Forward(Clear(h)) == (Err(IndexError), Clear(h))
  {
  }

  /** `get` as its doc comment describes it: a negative index counts from the end. */
  function GetAsDocumented(h: History, index: int): (r: Result<string>)
    ensures r.Ok? <==> -|h.items| <= index < |h.items|
    ensures 0 <= index ==> r == Get(h, index)
    ensures index < 0 && r.Ok? ==> r.value == h.items[|h.items| + index]
  {
    PyIndex(h.items, index)
  }

  /** The doc comment and the code of `get` part on every non-empty history: index -1
      names the newest entry in the first and raises in the second. */
  lemma GetNegativeRaises(h: History)
    requires |h.items| > 0
    ensures Get(h, -1) == Err(IndexError)
    ensures GetAsDocumented(h, -1) == Ok(h.items[|h.items| - 1])
  {
  }
}

=== FILE: html_parser.dfy ===
/** `HTMLParser`: one left-to-right scan over the markup with a text buffer, a stack of
    open tag strings and a current node, building a `Document` tree. */
module HtmlParser {
  import opened Wrappers
  import opened Strings
  import opened Nodes

  /** An element that is still open: its tag and the children appended to it so far. */
  datatype Frame = Frame(tag: string, children: seq<Node>)

  /** The tree under construction. `top` holds the root's children and `frames` the chain
      of open elements, outermost first, ending at the current node; with no frames the
      current node is the root. Moving the current node to its parent drops the last frame
      and attaches the finished element to the parent, at the position the Python code gave it
      when it appended the element on creation (every append in between went into it). */
  datatype Builder = Builder(top: seq<Node>, frames: seq<Frame>)

  /** The tags of the open elements, outermost first. */
  function Tags(fs: seq<Frame>): (t: seq<string>)
    ensures |t| == |fs| && forall k :: 0 <= k < |fs| ==> t[k] == fs[k].tag
  {
    if fs == [] then [] else Tags(fs[..|fs| - 1]) + [fs[|fs| - 1].tag]
  }

  lemma TagsExt(fs: seq<Frame>, gs: seq<Frame>)
    requires |fs| == |gs| && forall k :: 0 <= k < |fs| ==> fs[k].tag == gs[k].tag
    ensures Tags(fs) == Tags(gs)
  {
  }

  /** The children of the current node. */
  function CurrentChildren(b: Builder): seq<Node>
  {
    if b.frames == [] then b.top else b.frames[|b.frames| - 1].children
  }

  /** `c` has the same current node as `b` at the same depth, and everything above the
      current node is unchanged. */
  predicate SameAncestry(b: Builder, c: Builder)
  {
    |b.frames| == |c.frames| &&
    (|b.frames| > 0 ==>
       b.top == c.top && b.frames[..|b.frames| - 1] == c.frames[..|c.frames| - 1]
       && b.frames[|b.frames| - 1].tag == c.frames[|c.frames| - 1].tag)
  }

  /** `current_node.add_child(n)` */
  function Append(b: Builder, n: Node): (r: Builder)
    ensures SameAncestry(b, r)
    ensures CurrentChildren(r) == CurrentChildren(b) + [n]
    ensures Tags(r.frames) == Tags(b.frames)
  {
    if b.frames == [] then Builder(b.top + [n], [])
    else
      var k := |b.frames| - 1;
      var fs := b.frames[k := Frame(b.frames[k].tag, b.frames[k].children + [n])];
      TagsExt(fs, b.frames);
      Builder(b.top, fs)
  }

  /** Appending a new element and making it the current node. */
  function Open(b: Builder, tag: string): (r: Builder)
    ensures |r.frames| == |b.frames| + 1 && r.top == b.top
    ensures r.frames[..|b.frames|] == b.frames
    ensures r.frames[|b.frames|].tag == tag && CurrentChildren(r) == []
    ensures Tags(r.frames) == Tags(b.frames) + [tag]
  {
    var fs := b.frames + [Frame(tag, [])];
    assert fs[..|fs| - 1] == b.frames;
    Builder(b.top, fs)
  }

  /** The builder one level up, before the finished element is attached. */
  function Parent(b: Builder): (r: Builder)
    requires b.frames != []
    ensures Tags(r.frames) == Tags(b.frames)[..|b.frames| - 1]
  {
    Builder(b.top, b.frames[..|b.frames| - 1])
  }

  /** `current_node = current_node.parent`: the current element is finished and becomes
      the last child of its parent, which is the new current node. */
  function Close(b: Builder): (r: Builder)
    requires b.frames != []
    ensures |r.frames| == |b.frames| - 1
    ensures Tags(r.frames) == Tags(b.frames)[..|b.frames| - 1]
    ensures SameAncestry(Parent(b), r)
    ensures CurrentChildren(r) == CurrentChildren(Parent(b))
              + [Element(b.frames[|b.frames| - 1].tag, b.frames[|b.frames| - 1].children)]
  {
    var f := b.frames[|b.frames| - 1];
    Append(Parent(b), Element(f.tag, f.children))
  }

  /** A node the scan can create: never a `DocumentType`; tags, comment bodies and text
      stripped; text never empty. */
  predicate Clean(n: Node)
  {
    match n
    case DocumentType => false
    case Element(tag, kids) => Stripped(tag) && forall k :: 0 <= k < |kids| ==> Clean(kids[k])
    case Text(t) => t != [] && Stripped(t)
    case Comment(c) => Stripped(c)
  }

  predicate CleanSeq(ns: seq<Node>)
  {
    forall k :: 0 <= k < |ns| ==> Clean(ns[k])
  }

  /** The root's children: a `DocumentType` first exactly when one was found, and
      clean nodes otherwise. */
  predicate TopOk(top: seq<Node>, doctype: bool)
  {
    if doctype then |top| > 0 && top[0] == DocumentType && CleanSeq(top[1..])
    else CleanSeq(top)
  }

  predicate WellBuilt(b: Builder, doctype: bool)
  {
    TopOk(b.top, doctype)
    && forall k :: 0 <= k < |b.frames| ==> Stripped(b.frames[k].tag) && CleanSeq(b.frames[k].children)
  }

  lemma AppendKeepsWellBuilt(b: Builder, n: Node, doctype: bool)
    requires WellBuilt(b, doctype) && Clean(n)
    ensures WellBuilt(Append(b, n), doctype)
  {
    var r := Append(b, n);
    if b.frames == [] {
      if doctype { assert r.top[1..] == b.top[1..] + [n]; }
    } else {
      var k := |b.frames| - 1;
      forall m | 0 <= m < |r.frames|
        ensures Stripped(r.frames[m].tag) && CleanSeq(r.frames[m].children)
      {
        if m < k { assert r.frames[m] == b.frames[..k][m] == b.frames[m]; }
      }
    }
  }

  lemma CloseKeepsWellBuilt(b: Builder, doctype: bool)
    requires b.frames != [] && WellBuilt(b, doctype)
    ensures WellBuilt(Close(b), doctype)
  {
    var f := b.frames[|b.frames| - 1];
    assert Clean(Element(f.tag, f.children));
    AppendKeepsWellBuilt(Parent(b), Element(f.tag, f.children), doctype);
  }

  /** The scan state of `parse`: cursor, text buffer, tree, the `open_nodes` stack of tag
      strings, and whether the loop was left by `break`. */
  datatype Scan = Scan(i: nat, buffer: string, b: Builder, open: seq<string>, stopped: bool)

  /** The tag stack and the current node's chain of open elements agree: the stack is as
      deep as the current node, so walking to the parent never passes the root. */
  predicate DepthAgrees(st: Scan)
  {
    st.open == Tags(st.b.frames)
  }

  /** The text buffered since the last tag becomes a `Text` child when it is not blank. */
  function FlushText(b: Builder, buffer: string): (r: Builder)
    ensures SameAncestry(b, r) && Tags(r.frames) == Tags(b.frames)
    ensures Strip(buffer) == [] ==> r == b
    ensures Strip(buffer) != [] ==> CurrentChildren(r) == CurrentChildren(b) + [Text(Strip(buffer))]
  {
    if buffer != [] && Strip(buffer) != [] then Append(b, Text(Strip(buffer))) else b
  }

  lemma FlushKeepsWellBuilt(b: Builder, buffer: string, doctype: bool)
    requires WellBuilt(b, doctype)
    ensures WellBuilt(FlushText(b, buffer), doctype)
  {
    if buffer != [] && Strip(buffer) != [] {
      AppendKeepsWellBuilt(b, Text(Strip(buffer)), doctype);
    }
  }

  /** How the stripped content between `<` and `>` is treated, tested in the order the Python code tests them. */
  datatype TagKind = CommentTag | ClosingTag | SelfClosingTag | StyleTag | ScriptTag | OpeningTag

  function KindOf(content: string): TagKind
  {
    if StartsWith(content, "!--") then CommentTag
    else if StartsWith(content, "/") then ClosingTag
    else if EndsWith(content, "/") then SelfClosingTag
    else if StartsWith(content, "style") then StyleTag
    else if StartsWith(content, "script") then ScriptTag
    else OpeningTag
  }

  /** Content read as a comment holds at least the `!--` it starts with. */
  lemma CommentKindLength(content: string)
    requires KindOf(content) == CommentTag
    ensures |content| >= 3
  {
  }

  /** Python's `content[3:-2]`, which is empty for content of five characters or fewer. */
  function CommentInner(content: string): string
  {
    if |content| - 2 <= 3 then [] else content[3..|content| - 2]
  }

  /** The text between `<` and the first `>` after it, stripped. */
  function TagContent(html: string, i: nat, j: nat): string
    requires i < j <= |html|
  {
    Strip(html[i + 1..j])
  }

  /** A comment: the text is the inside of the tag when it already ends with `--`,
      otherwise everything up to the next `-->`; an unterminated comment stops the scan. */
  function CommentStep(html: string, i: nat, j: nat, content: string, b: Builder, open: seq<string>): (r: Scan)
    requires i + 4 <= j < |html| && |content| >= 3
    requires open == Tags(b.frames)
    ensures DepthAgrees(r) && r.i <= |html|
    ensures r.stopped || j < r.i
  {
    if EndsWith(content, "--") then
      Scan(j + 1, "", Append(b, Comment(Strip(CommentInner(content)))), open, false)
    else
      var k := Find(html, "-->", j + 1);
      if k == -1 then Scan(i, "", b, open, true)
      else Scan(k + 3, "", Append(b, Comment(Strip(html[i + 4..k]))), open, false)
  }

  /** A `style` or `script` opening tag: skip to just past the next `endTag` and add nothing;
      without one the scan stops. */
  function RawTextStep(html: string, i: nat, j: nat, endTag: string, b: Builder, open: seq<string>): (r: Scan)
    requires i < j < |html| && |endTag| > 0
    requires open == Tags(b.frames)
    ensures DepthAgrees(r) && r.i <= |html|
    ensures r.stopped || j < r.i
  {
    var k := Find(html, endTag, j + 1);
    if k == -1 then Scan(i, "", b, open, true) else Scan(k + |endTag|, "", b, open, false)
  }

  lemma ContentLength(html: string, i: nat, j: nat)
    requires i < j <= |html|
    ensures |TagContent(html, i, j)| <= j - i - 1
  {
  }

  /** One pass of the loop body on a `<` at `i` whose first following `>` is at `j`. */
  function TagStep(html: string, i: nat, j: nat, b: Builder, open: seq<string>): (r: Scan)
    requires i < j < |html|
    requires open == Tags(b.frames)
    ensures DepthAgrees(r) && r.i <= |html|
    ensures r.stopped || j < r.i
  {
    var content := TagContent(html, i, j);
    ContentLength(html, i, j);
    match KindOf(content)
    case CommentTag =>
      CommentKindLength(content);
      CommentStep(html, i, j, content, b, open)
    case ClosingTag => CloseStep(j, b, open)
    case SelfClosingTag => SelfCloseStep(j, content, b, open)
    case StyleTag => RawTextStep(html, i, j, "</style>", b, open)
    case ScriptTag => RawTextStep(html, i, j, "</script>", b, open)
    case OpeningTag => OpenStep(j, content, b, open)
  }

  /** A closing tag: pop the stack and move to the parent, or do nothing at the root. */
  function CloseStep(j: nat, b: Builder, open: seq<string>): (r: Scan)
    requires open == Tags(b.frames)
    ensures DepthAgrees(r) && r.i == j + 1 && !r.stopped
  {
    if |open| > 0 then Scan(j + 1, "", Close(b), open[..|open| - 1], false)
    else Scan(j + 1, "", b, open, false)
  }

  /** A tag ending in `/`: a childless element named by the rest, stripped again. */
  function SelfCloseStep(j: nat, content: string, b: Builder, open: seq<string>): (r: Scan)
    requires open == Tags(b.frames) && |content| > 0
    ensures DepthAgrees(r) && r.i == j + 1 && !r.stopped
  {
    Scan(j + 1, "", Append(b, Element(Strip(content[..|content| - 1]), [])), open, false)
  }

  /** Any other tag: a new element named by the content, stripped again, which is
      pushed and becomes the current node. */
  function OpenStep(j: nat, content: string, b: Builder, open: seq<string>): (r: Scan)
    requires open == Tags(b.frames)
    ensures DepthAgrees(r) && r.i == j + 1 && !r.stopped
  {
    var tag := Strip(content);
    Scan(j + 1, "", Open(b, tag), open + [tag], false)
  }

  /** The first `>` at or after a `<` lies strictly after it. */
  lemma CloseAfterOpen(html: string, i: nat)
    requires i < |html| && html[i] == '<'
    ensures Find(html, ">", i) == -1 || i < Find(html, ">", i) < |html|
  {
    assert html[i..i + 1] == [html[i]];
    assert !MatchAt(html, ">", i);
  }

  /** One iteration of `while i < len(html)`: buffer a character, or flush the buffer and
      handle the tag starting at `i`. Either the cursor moves forward or the loop stops. */
  function Step(html: string, st: Scan): (r: Scan)
    requires !st.stopped && st.i < |html| && DepthAgrees(st)
    ensures DepthAgrees(r) && r.i <= |html|
    ensures r.stopped || st.i < r.i
  {
    if html[st.i] != '<' then st.(i := st.i + 1, buffer := st.buffer + [html[st.i]])
    else
      var b := FlushText(st.b, st.buffer);
      var j := Find(html, ">", st.i);
      CloseAfterOpen(html, st.i);
      if j == -1 then Scan(st.i, "", b, st.open, true)
      else TagStep(html, st.i, j, b, st.open)
  }

  /** The whole scan loop, run until the cursor reaches the end or a `break`. */
  function Run(html: string, st: Scan): (r: Scan)
    requires DepthAgrees(st) && st.i <= |html|
    ensures DepthAgrees(r) && r.i <= |html|
    ensures r.stopped || r.i == |html|
    decreases if st.stopped then 0 else |html| - st.i + 1
  {
    if st.stopped || st.i >= |html| then st else Run(html, Step(html, st))
  }

  /** The final unwind: while the stack is non-empty, pop it and move to the parent. */
  function Unwind(b: Builder, open: seq<string>): (d: Document)
    requires |open| == |b.frames|
    decreases |open|
  {
    if open == [] then Document(b.top) else Unwind(Close(b), open[..|open| - 1])
  }

  /** Index just past the first run of whitespace at or after `k`. */
  function SkipSpace(s: string, k: nat): (r: nat)
    requires k <= |s|
    ensures k <= r <= |s| && AllSpace(s[k..r]) && (r == |s| || !IsSpace(s[r]))
  {
    var t := s[k..];
    var n := LeadingSpace(t);
    assert s[k..k + n] == t[..n];
    assert k + n < |s| ==> s[k + n] == LStrip(t)[0];
    k + n
  }

  /** The length of the match of `(?i)^\s*<!doctype\s+html\s*>` at the start of `s`. */
  function MatchDoctype(s: string): (m: Option<nat>)
    ensures m.Some? ==> 0 < m.value <= |s|
  {
    var a := SkipSpace(s, 0);
    if !(a + 9 <= |s| && s[a..a + 2] == "<!" && EqualsIgnoreCase(s[a + 2..a + 9], "doctype")) then None
    else
      var p := SkipSpace(s, a + 9);
      if p == a + 9 || !(p + 4 <= |s| && EqualsIgnoreCase(s[p..p + 4], "html")) then None
      else
        var e := SkipSpace(s, p + 4);
        if e < |s| && s[e] == '>' then Some(e + 1) else None
  }

  /** The markup the scan loop runs over, and whether a `DocumentType` was emitted. */
  function Prepare(html: string): (string, bool)
  {
    var m := MatchDoctype(html);
    if m.Some? then (Strip(html[m.value..]), true) else (html, false)
  }

  function InitialBuilder(doctype: bool): (b: Builder)
    ensures WellBuilt(b, doctype) && b.frames == []
  {
    if doctype then Builder([DocumentType], []) else Builder([], [])
  }

  /** `HTMLParser(html).parse()` followed by reading `root`. */
  function Parse(input: string): Document
  {
    var html := Strip(input);
    if html == [] then Document([])
    else
      var (body, doctype) := Prepare(html);
      var st := Run(body, Scan(0, "", InitialBuilder(doctype), [], false));
      Unwind(FlushText(st.b, st.buffer), st.open)
  }

  /** The input held a document type declaration at its (stripped) start. */
  predicate HasDoctype(input: string)
  {
    Strip(input) != [] && MatchDoctype(Strip(input)).Some?
  }

  /** What every parsed document looks like: a `DocumentType` first exactly when the
      declaration was present, and below the root only clean nodes. */
  predicate ParsedDocument(d: Document, doctype: bool)
  {
    TopOk(d.children, doctype)
  }

  lemma StepKeepsWellBuilt(html: string, st: Scan, doctype: bool)
    requires !st.stopped && st.i < |html| && DepthAgrees(st) && WellBuilt(st.b, doctype)
    ensures WellBuilt(Step(html, st).b, doctype)
  {
    if html[st.i] == '<' {
      var b := FlushText(st.b, st.buffer);
      FlushKeepsWellBuilt(st.b, st.buffer, doctype);
      var j := Find(html, ">", st.i);
      CloseAfterOpen(html, st.i);
      if j != -1 {
        TagStepKeepsWellBuilt(html, st.i, j, b, st.open, doctype);
      }
    }
  }

  lemma TagStepKeepsWellBuilt(html: string, i: nat, j: nat, b: Builder, open: seq<string>, doctype: bool)
    requires i < j < |html| && open == Tags(b.frames) && WellBuilt(b, doctype)
    ensures WellBuilt(TagStep(html, i, j, b, open).b, doctype)
  {
    var content := TagContent(html, i, j);
    ContentLength(html, i, j);
    var kind := KindOf(content);
    if kind == CommentTag {
      TagStepComment(html, i, j, b, open);
      CommentStepKeepsWellBuilt(html, i, j, content, b, open, doctype);
    } else if kind == StyleTag || kind == ScriptTag {
      TagStepRawText(html, i, j, b, open);
    } else {
      TagStepPlain(html, i, j, b, open);
      if kind == ClosingTag {
        if |open| > 0 { CloseKeepsWellBuilt(b, doctype); }
      } else if kind == SelfClosingTag {
        AppendKeepsWellBuilt(b, Element(Strip(content[..|content| - 1]), []), doctype);
      } else {
        OpenKeepsWellBuilt(b, Strip(content), doctype);
      }
    }
  }

  /** A comment tag is handled by `CommentStep`. */
  lemma TagStepComment(html: string, i: nat, j: nat, b: Builder, open: seq<string>)
    requires i < j < |html| && open == Tags(b.frames)
    requires KindOf(TagContent(html, i, j)) == CommentTag
    ensures var content := TagContent(html, i, j);
      |content| >= 3 && i + 4 <= j
      && TagStep(html, i, j, b, open) == CommentStep(html, i, j, content, b, open)
  {
    ContentLength(html, i, j);
    CommentKindLength(TagContent(html, i, j));
  }

  /** A `<` at the cursor with nothing buffered goes straight to the tag at the first `>`. */
  lemma StepAtTag(html: string, p: nat, j: nat, b: Builder, open: seq<string>)
    requires p < j < |html| && html[p] == '<' && Find(html, ">", p) == j && open == Tags(b.frames)
    ensures Step(html, Scan(p, "", b, open, false)) == TagStep(html, p, j, b, open)
  {
    assert FlushText(b, "") == b;
  }

  /** A closing tag is handled by `CloseStep`. */
  lemma TagStepClosing(html: string, i: nat, j: nat, b: Builder, open: seq<string>)
    requires i < j < |html| && open == Tags(b.frames)
    requires KindOf(TagContent(html, i, j)) == ClosingTag
    ensures TagStep(html, i, j, b, open) == CloseStep(j, b, open)
  {
  }

  /** An opening tag other than `style` and `script` is handled by `OpenStep`. */
  lemma TagStepOpening(html: string, i: nat, j: nat, b: Builder, open: seq<string>)
    requires i < j < |html| && open == Tags(b.frames)
    requires KindOf(TagContent(html, i, j)) == OpeningTag
    ensures TagStep(html, i, j, b, open) == OpenStep(j, TagContent(html, i, j), b, open)
  {
  }

  /** A `style` or `script` tag leaves the tree alone. */
  lemma TagStepRawText(html: string, i: nat, j: nat, b: Builder, open: seq<string>)
    requires i < j < |html| && open == Tags(b.frames)
    requires KindOf(TagContent(html, i, j)) in {StyleTag, ScriptTag}
    ensures TagStep(html, i, j, b, open).b == b
  {
    var endTag := if KindOf(TagContent(html, i, j)) == StyleTag then "</style>" else "</script>";
    TagStepIsRawText(html, i, j, b, open);
    RawTextSkips(html, i, j, endTag, b, open);
  }

  /** The tree the other tags leave behind. */
  lemma TagStepPlain(html: string, i: nat, j: nat, b: Builder, open: seq<string>)
    requires i < j < |html| && open == Tags(b.frames)
    requires KindOf(TagContent(html, i, j)) in {ClosingTag, SelfClosingTag, OpeningTag}
    ensures var content := TagContent(html, i, j);
      var rb := TagStep(html, i, j, b, open).b;
      match KindOf(content)
      case ClosingTag => rb == (if |b.frames| > 0 then Close(b) else b)
      case SelfClosingTag => |content| > 0 && rb == Append(b, Element(Strip(content[..|content| - 1]), []))
      case _ => rb == Open(b, Strip(content))
  {
    ContentLength(html, i, j);
  }

  lemma OpenKeepsWellBuilt(b: Builder, tag: string, doctype: bool)
    requires WellBuilt(b, doctype) && Stripped(tag)
    ensures WellBuilt(Open(b, tag), doctype)
  {
    var r := Open(b, tag);
    forall m | 0 <= m < |r.frames|
      ensures Stripped(r.frames[m].tag) && CleanSeq(r.frames[m].children)
    {
      if m < |b.frames| { assert r.frames[m] == r.frames[..|b.frames|][m]; }
    }
  }

  lemma CommentStepKeepsWellBuilt(html: string, i: nat, j: nat, content: string, b: Builder,
                                  open: seq<string>, doctype: bool)
    requires i + 4 <= j < |html| && |content| >= 3
    requires open == Tags(b.frames) && WellBuilt(b, doctype)
    ensures WellBuilt(CommentStep(html, i, j, content, b, open).b, doctype)
  {
    if EndsWith(content, "--") {
      AppendKeepsWellBuilt(b, Comment(Strip(CommentInner(content))), doctype);
    } else {
      var k := Find(html, "-->", j + 1);
      if k != -1 {
        AppendKeepsWellBuilt(b, Comment(Strip(html[i + 4..k])), doctype);
      }
    }
  }

  lemma {:induction false} RunKeepsWellBuilt(html: string, st: Scan, doctype: bool)
    requires DepthAgrees(st) && st.i <= |html| && WellBuilt(st.b, doctype)
    ensures WellBuilt(Run(html, st).b, doctype)
    decreases if st.stopped then 0 else |html| - st.i + 1
  {
    if !st.stopped && st.i < |html| {
      StepKeepsWellBuilt(html, st, doctype);
      RunKeepsWellBuilt(html, Step(html, st), doctype);
    }
  }

  lemma {:induction false} UnwindKeepsWellBuilt(b: Builder, open: seq<string>, doctype: bool)
    requires |open| == |b.frames| && WellBuilt(b, doctype)
    ensures ParsedDocument(Unwind(b, open), doctype)
    decreases |open|
  {
    if open != [] {
      CloseKeepsWellBuilt(b, doctype);
      UnwindKeepsWellBuilt(Close(b), open[..|open| - 1], doctype);
    }
  }

  /** Every parsed document has the shape `ParsedDocument` describes; a blank input gives
      a root without children. */
  lemma ParseWellFormed(input: string)
    ensures ParsedDocument(Parse(input), HasDoctype(input))
    ensures AllSpace(input) ==> Parse(input).children == []
  {
    StripEmptyIffAllSpace(input);
    var html := Strip(input);
    if html != [] {
      var (body, doctype) := Prepare(html);
      var st0 := Scan(0, "", InitialBuilder(doctype), [], false);
      RunKeepsWellBuilt(body, st0, doctype);
      var st := Run(body, st0);
      FlushKeepsWellBuilt(st.b, st.buffer, doctype);
      UnwindKeepsWellBuilt(FlushText(st.b, st.buffer), st.open, doctype);
    }
  }

  /** The root's first child is a `DocumentType` exactly when the stripped input starts
      with the declaration, and no other node anywhere is one. */
  lemma DoctypeFirstIff(input: string)
    ensures (|Parse(input).children| > 0 && Parse(input).children[0] == DocumentType)
            <==> HasDoctype(input)
  {
    ParseWellFormed(input);
  }

  /** A comment tag never moves the current node nor touches the stack; unless the scan
      stops, it adds exactly one stripped `Comment` to the current node. A tag that itself
      ends in `--` is the whole comment and its text is what lies between `!--` and `--`;
      otherwise the comment runs to the next `-->`, and without one the scan stops. */
  lemma CommentKeepsCurrent(html: string, i: nat, j: nat, b: Builder, open: seq<string>)
    requires i < j < |html| && open == Tags(b.frames)
    requires KindOf(TagContent(html, i, j)) == CommentTag
    ensures var r := TagStep(html, i, j, b, open);
      r.open == open && SameAncestry(b, r.b)
      && (r.stopped ==> r.b == b)
      && (!r.stopped ==> exists c :: Stripped(c) && CurrentChildren(r.b) == CurrentChildren(b) + [Comment(c)])
    ensures var r, content := TagStep(html, i, j, b, open), TagContent(html, i, j);
      EndsWith(content, "--") ==>
        !r.stopped && r.i == j + 1
        && CurrentChildren(r.b) == CurrentChildren(b) + [Comment(Strip(CommentInner(content)))]
    ensures var r, content := TagStep(html, i, j, b, open), TagContent(html, i, j);
      var k := Find(html, "-->", j + 1);
      !EndsWith(content, "--") ==>
        (r.stopped <==> k == -1)
        && (k != -1 ==> i + 4 <= k && r.i == k + 3
                        && CurrentChildren(r.b) == CurrentChildren(b) + [Comment(Strip(html[i + 4..k]))])
  {
    TagStepComment(html, i, j, b, open);
    CommentStepAppends(html, i, j, TagContent(html, i, j), b, open);
  }

  lemma CommentStepAppends(html: string, i: nat, j: nat, content: string, b: Builder, open: seq<string>)
    requires i + 4 <= j < |html| && |content| >= 3
    requires open == Tags(b.frames)
    ensures var r := CommentStep(html, i, j, content, b, open);
      r.open == open && SameAncestry(b, r.b)
      && (r.stopped ==> r.b == b)
      && (!r.stopped ==> exists c :: Stripped(c) && CurrentChildren(r.b) == CurrentChildren(b) + [Comment(c)])
    ensures var r := CommentStep(html, i, j, content, b, open);
      EndsWith(content, "--") ==>
        !r.stopped && r.i == j + 1
        && CurrentChildren(r.b) == CurrentChildren(b) + [Comment(Strip(CommentInner(content)))]
    ensures var r := CommentStep(html, i, j, content, b, open);
      var k := Find(html, "-->", j + 1);
      !EndsWith(content, "--") ==>
        (r.stopped <==> k == -1)
        && (k != -1 ==> i + 4 <= k && r.i == k + 3
                        && CurrentChildren(r.b) == CurrentChildren(b) + [Comment(Strip(html[i + 4..k]))])
  {
    var r := CommentStep(html, i, j, content, b, open);
    if EndsWith(content, "--") {
      var c := Strip(CommentInner(content));
      assert CurrentChildren(r.b) == CurrentChildren(b) + [Comment(c)];
    } else {
      var k := Find(html, "-->", j + 1);
      if k != -1 {
        var c := Strip(html[i + 4..k]);
        assert CurrentChildren(r.b) == CurrentChildren(b) + [Comment(c)];
      }
    }
  }

  /** A closing tag never looks at its name: any two closing tags leave the same tree and
      the same stack, popping exactly when the stack is non-empty. */
  lemma ClosingIgnoresName(html: string, i: nat, j: nat, html': string, i': nat, j': nat,
                           b: Builder, open: seq<string>)
    requires i < j < |html| && i' < j' < |html'| && open == Tags(b.frames)
    requires KindOf(TagContent(html, i, j)) == ClosingTag && KindOf(TagContent(html', i', j')) == ClosingTag
    ensures var r := TagStep(html, i, j, b, open);
      var r' := TagStep(html', i', j', b, open);
      r.b == r'.b && r.open == r'.open && !r.stopped && r.i == j + 1
      && r.open == (if |open| > 0 then open[..|open| - 1] else open)
  {
  }

  /** A tag ending in `/` appends a childless element and neither pushes nor descends. */
  lemma SelfClosingStaysPut(html: string, i: nat, j: nat, b: Builder, open: seq<string>)
    requires i < j < |html| && open == Tags(b.frames)
    requires KindOf(TagContent(html, i, j)) == SelfClosingTag
    ensures var r := TagStep(html, i, j, b, open);
      var content := TagContent(html, i, j);
      r.open == open && SameAncestry(b, r.b) && !r.stopped && r.i == j + 1
      && CurrentChildren(r.b) == CurrentChildren(b) + [Element(Strip(content[..|content| - 1]), [])]
  {
  }

  /** `style` and `script` are handled by skipping raw text up to their own end tag. */
  lemma TagStepIsRawText(html: string, i: nat, j: nat, b: Builder, open: seq<string>)
    requires i < j < |html| && open == Tags(b.frames)
    requires KindOf(TagContent(html, i, j)) in {StyleTag, ScriptTag}
    ensures TagStep(html, i, j, b, open)
            == RawTextStep(html, i, j, if KindOf(TagContent(html, i, j)) == StyleTag then "</style>" else "</script>", b, open)
  {
  }

  /** Skipping raw text adds no node and leaves the stack alone; the scan resumes just
      past the next end tag, and stops exactly when there is none. */
  lemma RawTextSkips(html: string, i: nat, j: nat, endTag: string, b: Builder, open: seq<string>)
    requires i < j < |html| && |endTag| > 0 && open == Tags(b.frames)
    ensures var r := RawTextStep(html, i, j, endTag, b, open);
      r.b == b && r.open == open
      && (r.stopped <==> Find(html, endTag, j + 1) == -1)
      && (!r.stopped ==> j + 1 + |endTag| <= r.i && html[r.i - |endTag|..r.i] == endTag)
  {
  }

  /** Any other tag appends an element named by the whole stripped content, pushes that
      name and makes the element the current node. */
  lemma OpeningDescends(html: string, i: nat, j: nat, b: Builder, open: seq<string>)
    requires i < j < |html| && open == Tags(b.frames)
    requires KindOf(TagContent(html, i, j)) == OpeningTag
    ensures var r := TagStep(html, i, j, b, open);
      var tag := TagContent(html, i, j);
      r.open == open + [tag] && !r.stopped && r.i == j + 1
      && r.b.top == b.top && r.b.frames == b.frames + [Frame(tag, [])]
  {
    StripOfStripped(TagContent(html, i, j));
  }

  /** A `<` with no `>` after it ends the scan: the buffer is flushed and the rest of the
      input is dropped. */
  lemma UnterminatedStops(html: string, st: Scan)
    requires !st.stopped && st.i < |html| && DepthAgrees(st)
    requires html[st.i] == '<' && Find(html, ">", st.i) == -1
    ensures Run(html, st) == Scan(st.i, "", FlushText(st.b, st.buffer), st.open, true)
  {
  }

  /** `HTMLParser(html).parse()` as the Python code writes it: the scan loop over the markup,
      then the final flush and the unwind back to the root. */
  method ParseHtml(input: string) returns (d: Document)
    ensures d == Parse(input)
    ensures ParsedDocument(d, HasDoctype(input))
  {
    ParseWellFormed(input);
    var html := Strip(input);
    if html == [] {
      return Document([]);
    }
    var prepared := Prepare(html);
    var body := prepared.0;
    var st := Scan(0, "", InitialBuilder(prepared.1), [], false);
    ghost var st0 := st;
    while !st.stopped && st.i < |body|
      invariant DepthAgrees(st) && st.i <= |body|
      invariant Run(body, st) == Run(body, st0)
      decreases if st.stopped then 0 else |body| - st.i + 1
    {
      st := Step(body, st);
    }
    var b := FlushText(st.b, st.buffer);
    var open := st.open;
    ghost var d0 := Unwind(b, open);
    while |open| > 0
      invariant |open| == |b.frames| && Unwind(b, open) == d0
    {
      b := Close(b);
      open := open[..|open| - 1];
    }
    d := Document(b.top);
  }
}

=== FILE: html_roundtrip.dfy ===
/** An independent check on the markup scan: a writer that prints a tree as markup, and
    the proof that the scan reads every tree it can print back unchanged. */
module HtmlRoundTrip {
  import opened Wrappers
  import opened Strings
  import opened Nodes
  import opened HtmlParser

  /** A tag the scan reads back as an opening tag of exactly that name. */
  predicate PlainTag(t: string)
  {
    t != [] && Stripped(t) && t[0] != '!' && '<' !in t && '>' !in t && KindOf(t) == OpeningTag
  }

  /** `w` occurs in `html` at position `p`, read one character at a time. */
  predicate Holds(html: string, p: nat, w: string)
    decreases |w|
  {
    if w == [] then p <= |html| else p < |html| && html[p] == w[0] && Holds(html, p + 1, w[1..])
  }

  /** No two `Text` nodes side by side: the scan would read them as one. */
  predicate NoAdjacentText(ns: seq<Node>)
  {
    forall k :: 0 <= k < |ns| - 1 ==> !(ns[k].Text? && ns[k + 1].Text?)
  }

  /** The trees the writer prints faithfully: the shapes the scan itself produces, with
      markup characters kept out of names, text and comments. */
  predicate Writable(n: Node)
  {
    match n
    case DocumentType => false
    case Element(tag, kids) =>
      PlainTag(tag) && NoAdjacentText(kids) && forall k :: 0 <= k < |kids| ==> Writable(kids[k])
    case Text(t) => t != [] && Stripped(t) && '<' !in t
    case Comment(c) => Stripped(c) && '>' !in c
  }

  predicate WritableSeq(ns: seq<Node>)
  {
    NoAdjacentText(ns) && forall k :: 0 <= k < |ns| ==> Writable(ns[k])
  }

  predicate WritableDocument(d: Document)
  {
    if |d.children| > 0 && d.children[0] == DocumentType then WritableSeq(d.children[1..])
    else WritableSeq(d.children)
  }

  const DoctypeMarkup: string := "<!doctype html>"

  /** Markup for one node. */
  function Write(n: Node): string
  {
    match n
    case DocumentType => DoctypeMarkup
    case Element(tag, kids) => "<" + tag + ">" + WriteSeq(kids) + "</" + tag + ">"
    case Text(t) => t
    case Comment(c) => "<!--" + c + "-->"
  }

  function WriteSeq(ns: seq<Node>): string
  {
    if ns == [] then [] else Write(ns[0]) + WriteSeq(ns[1..])
  }

  function WriteDocument(d: Document): string
  {
    if |d.children| > 0 && d.children[0] == DocumentType then DoctypeMarkup + WriteSeq(d.children[1..])
    else WriteSeq(d.children)
  }

  /** How far the scan in `st` still has to go. */
  function Remaining(html: string, st: Scan): nat
  {
    if st.stopped || st.i >= |html| then 0 else |html| - st.i + 1
  }

  /** What the parser makes of the scan started in `st`: run the loop, flush, unwind.
      Total, so that statements about it carry no side conditions; a state whose
      stack disagrees with its builder never arises and gives an empty page. The
      definition sits behind `Pending` and `Deferred`, so that the verifier's default
      unfolding of `Final` stops before it reaches `Step` and a proof about whole
      runs does not expand every step it mentions; `FinalStep` and `FinalHalted`
      take one step at a time. */
  function Final(html: string, st: Scan): Document
    decreases Remaining(html, st), 3
  {
    Pending(html, st)
  }

  function Pending(html: string, st: Scan): Document
    decreases Remaining(html, st), 2
  {
    Deferred(html, st)
  }

  function Deferred(html: string, st: Scan): Document
    decreases Remaining(html, st), 1
  {
    Advance(html, st)
  }

  function Advance(html: string, st: Scan): Document
    decreases Remaining(html, st), 0
  {
    if !DepthAgrees(st) then Document([])
    else if st.stopped || st.i >= |html| then Unwind(FlushText(st.b, st.buffer), st.open)
    else Final(html, Step(html, st))
  }

  lemma FinalAdvance(html: string, st: Scan)
    ensures Final(html, st) == Advance(html, st)
  {
    assert Final(html, st) == Pending(html, st);
    assert Pending(html, st) == Deferred(html, st);
  }

  /** A scan that has stopped or reached the end of the input is flushed and unwound. */
  lemma FinalHalted(html: string, st: Scan)
    requires DepthAgrees(st) && (st.stopped || st.i >= |html|)
    ensures Final(html, st) == Unwind(FlushText(st.b, st.buffer), st.open)
  {
    FinalAdvance(html, st);
  }

  /** `Final` is what `Parse` computes after the scan loop. */
  lemma {:induction false} FinalIsRun(html: string, st: Scan)
    requires DepthAgrees(st) && st.i <= |html|
    ensures var r := Run(html, st); Final(html, st) == Unwind(FlushText(r.b, r.buffer), r.open)
    decreases Remaining(html, st)
  {
    if !st.stopped && st.i < |html| {
      FinalStep(html, st);
      FinalIsRun(html, Step(html, st));
    } else {
      FinalHalted(html, st);
    }
  }

  /** The tree with `ns` appended to the current node. */
  function AddAll(b: Builder, ns: seq<Node>): (r: Builder)
    ensures Tags(r.frames) == Tags(b.frames)
  {
    if b.frames == [] then Builder(b.top + ns, [])
    else
      var k := |b.frames| - 1;
      var fs := b.frames[k := Frame(b.frames[k].tag, b.frames[k].children + ns)];
      TagsExt(fs, b.frames);
      Builder(b.top, fs)
  }

  /** The position `q` ends a text run: the input ends there or a tag starts there. */
  predicate TextEnds(html: string, q: nat)
  {
    q == |html| || (q < |html| && html[q] == '<')
  }

  lemma AddAllNone(b: Builder)
    ensures AddAll(b, []) == b
  {
    if b.frames != [] {
      var k := |b.frames| - 1;
      assert b.frames[k].children + [] == b.frames[k].children;
    }
  }

  lemma AddAllCons(b: Builder, n: Node, ns: seq<Node>)
    ensures AddAll(Append(b, n), ns) == AddAll(b, [n] + ns)
  {
    if b.frames == [] {
      assert b.top + [n] + ns == b.top + ([n] + ns);
    } else {
      var k := |b.frames| - 1;
      assert b.frames[k].children + [n] + ns == b.frames[k].children + ([n] + ns);
    }
  }

  lemma AddAllFirst(b: Builder, ns: seq<Node>)
    requires ns != []
    ensures AddAll(Append(b, ns[0]), ns[1..]) == AddAll(b, ns)
  {
    AddAllCons(b, ns[0], ns[1..]);
    assert [ns[0]] + ns[1..] == ns;
  }

  /** Opening an element, filling it and closing it appends the finished element. */
  lemma OpenFillClose(b: Builder, tag: string, kids: seq<Node>)
    ensures AddAll(Open(b, tag), kids).frames != []
    ensures Close(AddAll(Open(b, tag), kids)) == Append(b, Element(tag, kids))
  {
    var o := Open(b, tag);
    var f := AddAll(o, kids);
    assert o.frames == b.frames + [Frame(tag, [])];
    assert [] + kids == kids;
    assert f.frames == b.frames + [Frame(tag, kids)];
    assert f.frames[..|f.frames| - 1] == b.frames;
  }

  /** The first `ch` at or after `start` is at `k`. */
  lemma FindChar(s: string, ch: char, start: nat, k: nat)
    requires start <= k < |s| && s[k] == ch
    requires forall m :: start <= m < k ==> s[m] != ch
    ensures Find(s, [ch], start) == k
  {
    assert s[k..k + 1] == [ch];
    assert MatchAt(s, [ch], k);
    var r := Find(s, [ch], start);
    assert r != -1;
    assert s[r..r + 1] == [ch];
    assert s[r] == ch;
  }

  /** Reading the characters of a slice that is known to be `w`. */
  lemma SliceAt(s: string, a: nat, c: nat, w: string)
    requires a <= c <= |s| && s[a..c] == w
    ensures forall m :: a <= m < c ==> s[m] == w[m - a]
  {
    forall m | a <= m < c ensures s[m] == w[m - a] {
      assert s[a..c][m - a] == s[m];
    }
  }

  /** A slice known to be `w1 + w2` splits at the seam. */
  lemma SliceSplit(s: string, a: nat, c: nat, w1: string, w2: string)
    requires a <= c <= |s| && s[a..c] == w1 + w2
    ensures s[a..a + |w1|] == w1 && s[a + |w1|..c] == w2
  {
    assert s[a..a + |w1|] == s[a..c][..|w1|];
    assert s[a + |w1|..c] == s[a..c][|w1|..];
  }

  /** A slice is its first character followed by the rest. */
  lemma SliceCons(s: string, a: nat, c: nat)
    requires a < c <= |s|
    ensures s[a..c] == [s[a]] + s[a + 1..c]
  {
  }

  lemma SliceJoin(s: string, a: nat, m: nat, c: nat)
    requires a <= m <= c <= |s|
    ensures s[a..c] == s[a..m] + s[m..c]
  {
  }

  lemma Extend(buf: string, c: char, rest: string, whole: string)
    requires whole == [c] + rest
    ensures buf + [c] + rest == buf + whole
  {
  }

  lemma AppendNothing(buf: string, e: string)
    requires e == []
    ensures buf + e == buf
  {
  }

  lemma FinalStep(html: string, st: Scan)
    requires DepthAgrees(st) && !st.stopped && st.i < |html|
    ensures Final(html, st) == Final(html, Step(html, st))
  {
    FinalAdvance(html, st);
  }

  lemma CharStep(html: string, st: Scan)
    requires DepthAgrees(st) && !st.stopped && st.i < |html| && html[st.i] != '<'
    ensures Step(html, st) == st.(i := st.i + 1, buffer := st.buffer + [html[st.i]])
  {
  }

  /** Characters other than `<` only grow the buffer. */
  lemma {:induction false} TextRun(html: string, p: nat, q: nat, buf: string, b: Builder, open: seq<string>)
    requires p <= q <= |html| && forall m :: p <= m < q ==> html[m] != '<'
    requires open == Tags(b.frames)
    ensures Final(html, Scan(p, buf, b, open, false)) == Final(html, Scan(q, buf + html[p..q], b, open, false))
    decreases q - p
  {
    if p == q {
      AppendNothing(buf, html[p..q]);
    } else {
      var st := Scan(p, buf, b, open, false);
      CharStep(html, st);
      FinalStep(html, st);
      TextRun(html, p + 1, q, buf + [html[p]], b, open);
      SliceCons(html, p, q);
      Extend(buf, html[p], html[p + 1..q], html[p..q]);
    }
  }

  /** Buffered text where a text run ends is as good as a `Text` node already appended. */
  lemma FlushAtEnd(html: string, p: nat, t: string, b: Builder, open: seq<string>)
    requires TextEnds(html, p) && t != [] && Stripped(t) && open == Tags(b.frames)
    ensures Final(html, Scan(p, t, b, open, false)) == Final(html, Scan(p, "", Append(b, Text(t)), open, false))
  {
    StripOfStripped(t);
    var s1 := Scan(p, t, b, open, false);
    var s2 := Scan(p, "", Append(b, Text(t)), open, false);
    assert FlushText(b, t) == Append(b, Text(t));
    if p < |html| {
      assert Step(html, s1) == Step(html, s2);
      FinalStep(html, s1);
      FinalStep(html, s2);
    } else {
      FinalHalted(html, s1);
      FinalHalted(html, s2);
    }
  }

  /** A text node's markup is read into the tree as that node. */
  lemma TextNodeRun(html: string, p: nat, q: nat, b: Builder, open: seq<string>)
    requires p < q <= |html| && TextEnds(html, q) && open == Tags(b.frames)
    requires Stripped(html[p..q]) && forall m :: p <= m < q ==> html[m] != '<'
    ensures Final(html, Scan(p, "", b, open, false))
            == Final(html, Scan(q, "", Append(b, Text(html[p..q])), open, false))
  {
    TextRun(html, p, q, "", b, open);
    EmptyThen(html[p..q]);
    FlushAtEnd(html, q, html[p..q], b, open);
  }

  lemma NoTagIn(html: string, p: nat, t: string)
    requires '<' !in t && p + |t| <= |html| && html[p..p + |t|] == t
    ensures forall m :: p <= m < p + |t| ==> html[m] != '<'
  {
    SliceAt(html, p, p + |t|, t);
    forall m | p <= m < p + |t| ensures html[m] != '<' {
      assert t[m - p] in t;
    }
  }

  lemma EmptyThen(w: string)
    ensures "" + w == w
  {
  }

  /** The markup of a non-text node starts with `<`. */
  lemma WriteStartsTag(n: Node)
    requires Writable(n) && !n.Text?
    ensures |Write(n)| > 0 && Write(n)[0] == '<'
  {
  }

  /** Only the `<` at `p` and the `>` at `j` lie between them, with none before `j`. */
  lemma FirstClose(html: string, p: nat, j: nat, inner: string)
    requires p < j < |html| && html[p] == '<' && html[j] == '>'
    requires html[p + 1..j] == inner && '>' !in inner
    ensures Find(html, ">", p) == j
  {
    SliceAt(html, p + 1, j, inner);
    forall m | p <= m < j ensures html[m] != '>' {
      if m > p { assert inner[m - p - 1] in inner; }
    }
    FindChar(html, '>', p, j);
  }

  /** A tag whose stripped inside `c` sits between the `<` at `p` and the `>` at `j`:
      the scan reads `c` as the tag's content and hands it to `TagStep`. */
  lemma TagAt(html: string, p: nat, j: nat, c: string, b: Builder, open: seq<string>)
    requires p < j < |html| && html[p] == '<' && html[j] == '>'
    requires html[p + 1..j] == c && '>' !in c && Stripped(c) && open == Tags(b.frames)
    ensures TagContent(html, p, j) == c
    ensures Step(html, Scan(p, "", b, open, false)) == TagStep(html, p, j, b, open)
  {
    FirstClose(html, p, j, c);
    StripOfStripped(c);
    StepAtTag(html, p, j, b, open);
  }

  /** An opening tag that the writer printed is read as an opening tag of the same name. */
  lemma OpenTagStep(html: string, p: nat, tag: string, b: Builder, open: seq<string>)
    requires PlainTag(tag) && open == Tags(b.frames)
    requires p + |tag| + 2 <= |html| && html[p] == '<' && Holds(html, p + 1, tag)
    requires html[p + 1 + |tag|] == '>'
    ensures Step(html, Scan(p, "", b, open, false)) == Scan(p + |tag| + 2, "", Open(b, tag), open + [tag], false)
  {
    var j := p + 1 + |tag|;
    assert html[p + 1..j] == tag by {
      HoldsIff(html, p + 1, tag);
    }
    TagAt(html, p, j, tag, b, open);
    TagStepOpening(html, p, j, b, open);
    StripOfStripped(tag);
  }

  /** A closing tag that the writer printed pops the element it closes. */
  lemma CloseTagStep(html: string, p: nat, tag: string, b: Builder, open: seq<string>)
    requires PlainTag(tag) && open == Tags(b.frames) && open != []
    requires p + |tag| + 3 <= |html| && html[p] == '<' && html[p + 1] == '/'
    requires Holds(html, p + 2, tag) && html[p + 2 + |tag|] == '>'
    ensures Step(html, Scan(p, "", b, open, false)) == Scan(p + |tag| + 3, "", Close(b), open[..|open| - 1], false)
  {
    var j := p + 2 + |tag|;
    assert html[p + 1..j] == "/" + tag by {
      HoldsIff(html, p + 2, tag);
      SlashTag(html, p, tag);
    }
    SlashTagShape(tag);
    assert p < j < |html|;
    assert html[p] == '<';
    assert html[j] == '>';
    assert '>' !in "/" + tag;
    assert Stripped("/" + tag);
    TagAt(html, p, j, "/" + tag, b, open);
    TagStepClosing(html, p, j, b, open);
  }

  /** What the scan sees in the inside of a written closing tag. */
  lemma SlashTagShape(tag: string)
    requires PlainTag(tag)
    ensures Stripped("/" + tag) && '>' !in "/" + tag && KindOf("/" + tag) == ClosingTag
  {
    SlashPieces(tag, "/" + tag);
  }

  lemma SlashPieces(tag: string, c: string)
    requires tag != [] && Stripped(tag) && '>' !in tag && c == "/" + tag
    ensures Stripped(c) && '>' !in c && KindOf(c) == ClosingTag
  {
    assert c[..1] == "/";
    assert c[0] != '!';
    assert c[|c| - 1] == tag[|tag| - 1];
    forall k | 0 <= k < |c| ensures c[k] != '>' {
      if k > 0 { assert c[k] == tag[k - 1]; }
    }
  }

  lemma SlashTag(html: string, p: nat, tag: string)
    requires p + |tag| + 3 <= |html| && html[p + 1] == '/' && html[p + 2..p + 2 + |tag|] == tag
    ensures html[p + 1..p + 2 + |tag|] == "/" + tag
  {
    SliceCons(html, p + 1, p + 2 + |tag|);
  }

  lemma OpenTagRun(html: string, p: nat, tag: string, b: Builder, open: seq<string>)
    requires PlainTag(tag) && open == Tags(b.frames)
    requires p + |tag| + 2 <= |html| && html[p] == '<' && Holds(html, p + 1, tag)
    requires html[p + 1 + |tag|] == '>'
    ensures Final(html, Scan(p, "", b, open, false))
            == Final(html, Scan(p + |tag| + 2, "", Open(b, tag), open + [tag], false))
  {
    OpenTagStep(html, p, tag, b, open);
    FinalStep(html, Scan(p, "", b, open, false));
  }

  lemma CloseTagRun(html: string, p: nat, tag: string, b: Builder, open: seq<string>)
    requires PlainTag(tag) && open == Tags(b.frames) && open != []
    requires p + |tag| + 3 <= |html| && html[p] == '<' && html[p + 1] == '/'
    requires Holds(html, p + 2, tag) && html[p + 2 + |tag|] == '>'
    ensures Final(html, Scan(p, "", b, open, false))
            == Final(html, Scan(p + |tag| + 3, "", Close(b), open[..|open| - 1], false))
  {
    CloseTagStep(html, p, tag, b, open);
    FinalStep(html, Scan(p, "", b, open, false));
  }

  lemma CommentTagRun(html: string, p: nat, c: string, b: Builder, open: seq<string>)
    requires Stripped(c) && '>' !in c && open == Tags(b.frames)
    requires Holds(html, p, "<!--" + c + "-->")
    ensures p + |c| + 7 <= |html|
    ensures Final(html, Scan(p, "", b, open, false))
            == Final(html, Scan(p + |c| + 7, "", Append(b, Comment(c)), open, false))
  {
    CommentTagStep(html, p, c, b, open);
    FinalStep(html, Scan(p, "", b, open, false));
  }

  /** The inside of a written comment tag. */
  lemma CommentContent(html: string, p: nat, c: string)
    requires p + |c| + 7 <= |html| && html[p..p + 4] == "<!--" && html[p + 4..p + 4 + |c|] == c
    requires html[p + 4 + |c|..p + 7 + |c|] == "-->"
    ensures html[p + 1..p + 6 + |c|] == "!--" + c + "--"
  {
    SliceJoin(html, p + 1, p + 4, p + 6 + |c|);
    SliceJoin(html, p + 4, p + 4 + |c|, p + 6 + |c|);
    assert html[p + 1..p + 4] == html[p..p + 4][1..];
    assert html[p + 4 + |c|..p + 6 + |c|] == html[p + 4 + |c|..p + 7 + |c|][..2];
  }

  /** The parts of a written comment that the scan looks at. */
  lemma CommentAt(html: string, p: nat, c: string)
    requires Holds(html, p, "<!--" + c + "-->")
    ensures p + |c| + 7 <= |html| && html[p] == '<' && html[p + |c| + 6] == '>'
    ensures html[p + 1..p + |c| + 6] == "!--" + c + "--"
  {
    HoldsIff(html, p, "<!--" + c + "-->");
    CommentPieces(html, p, c);
    CommentContent(html, p, c);
    assert html[p] == html[p..p + 4][0];
    assert html[p + |c| + 6] == html[p + 4 + |c|..p + 7 + |c|][2];
  }

  /** A comment that the writer printed is read back with the same text. */
  lemma CommentTagStep(html: string, p: nat, c: string, b: Builder, open: seq<string>)
    requires Stripped(c) && '>' !in c && open == Tags(b.frames)
    requires Holds(html, p, "<!--" + c + "-->")
    ensures p + |c| + 7 <= |html|
    ensures Step(html, Scan(p, "", b, open, false)) == Scan(p + |c| + 7, "", Append(b, Comment(c)), open, false)
  {
    CommentAt(html, p, c);
    var j := p + |c| + 6;
    assert p < j < |html|;
    assert html[p] == '<' && html[j] == '>';
    var content := html[p + 1..j];
    CommentMarkup(content, c);
    assert '>' !in content && Stripped(content);
    TagAt(html, p, j, content, b, open);
    TagStepComment(html, p, j, b, open);
    assert CommentStep(html, p, j, content, b, open) == Scan(j + 1, "", Append(b, Comment(c)), open, false);
  }

  /** What the scan sees in the inside of a written comment tag. */
  lemma CommentMarkup(content: string, c: string)
    requires content == "!--" + c + "--" && Stripped(c)
    ensures Strip(content) == content && KindOf(content) == CommentTag
    ensures EndsWith(content, "--") && |content| >= 3 && Strip(CommentInner(content)) == c
    ensures '>' !in c ==> '>' !in content
  {
    CommentMarkupParts(content, c);
    StripOfStripped(content);
    StripOfStripped(c);
    if '>' !in c {
      CommentNoClose(content, c);
    }
  }

  lemma CommentNoClose(content: string, c: string)
    requires content == "!--" + c + "--" && '>' !in c
    ensures '>' !in content
  {
    forall k | 0 <= k < |content| ensures content[k] != '>' {
      if k < 3 {
        assert content[k] == "!--"[k];
      } else if k < |c| + 3 {
        assert content[k] == c[k - 3];
      } else {
        assert content[k] == "--"[k - 3 - |c|];
      }
    }
  }

  lemma CommentMarkupParts(content: string, c: string)
    requires content == "!--" + c + "--"
    ensures |content| == |c| + 5 && content[..3] == "!--" && content[|content| - 2..] == "--"
    ensures content[3..|content| - 2] == c
    ensures forall k :: 0 <= k < 3 ==> content[k] == "!--"[k]
    ensures forall k :: |content| - 2 <= k < |content| ==> content[k] == '-'
  {
  }

  /** The parts of a written element, located in the input. */
  lemma ElementPieces(html: string, p: nat, tag: string, w: string)
    requires Holds(html, p, "<" + tag + ">" + w + "</" + tag + ">")
    ensures var q := p + |tag| + 2; var q' := q + |w|;
      q' + |tag| + 3 <= |html|
      && html[p] == '<' && Holds(html, p + 1, tag) && html[p + 1 + |tag|] == '>'
      && Holds(html, q, w)
      && html[q'] == '<' && html[q' + 1] == '/' && Holds(html, q' + 2, tag)
      && html[q' + 2 + |tag|] == '>'
  {
    var q := p + |tag| + 2;
    var q' := q + |w|;
    HoldsSplit(html, p, "<" + tag + ">" + w + "</" + tag, ">");
    HoldsSplit(html, p, "<" + tag + ">" + w + "</", tag);
    HoldsSplit(html, p, "<" + tag + ">" + w, "</");
    HoldsSplit(html, p, "<" + tag + ">", w);
    HoldsSplit(html, p, "<" + tag, ">");
    HoldsSplit(html, p, "<", tag);
    HoldsSplit(html, q', "<", "/");
    HoldsLength(html, q' + 2 + |tag|, ">");
  }

  lemma HoldsLength(html: string, p: nat, w: string)
    requires Holds(html, p, w)
    ensures p + |w| <= |html|
  {
    HoldsIff(html, p, w);
  }

  /** A written sequence, split into its first node and the rest. */
  lemma HoldsSplit(html: string, p: nat, w1: string, w2: string)
    requires Holds(html, p, w1 + w2)
    ensures Holds(html, p, w1) && Holds(html, p + |w1|, w2)
  {
    HoldsIff(html, p, w1 + w2);
    SliceSplit(html, p, p + |w1 + w2|, w1, w2);
    HoldsIff(html, p, w1);
    HoldsIff(html, p + |w1|, w2);
  }

  /** The parts of a written comment, located in the input. */
  lemma CommentPieces(html: string, p: nat, c: string)
    requires p + |c| + 7 <= |html| && html[p..p + |c| + 7] == "<!--" + c + "-->"
    ensures html[p..p + 4] == "<!--" && html[p + 4..p + 4 + |c|] == c
    ensures html[p + 4 + |c|..p + 7 + |c|] == "-->"
  {
    SliceSplit(html, p, p + |c| + 7, "<!--" + c, "-->");
    SliceSplit(html, p, p + |c| + 4, "<!--", c);
  }

  lemma DropLast(open: seq<string>, tag: string)
    ensures (open + [tag])[..|open|] == open
  {
  }

  /** The character just after a written node, when a non-text sibling follows it. */
  lemma NextIsTag(html: string, p: nat, rest: seq<Node>)
    requires rest != [] && Writable(rest[0]) && !rest[0].Text?
    requires Holds(html, p, WriteSeq(rest))
    ensures TextEnds(html, p)
  {
    WriteStartsTag(rest[0]);
    assert WriteSeq(rest) == Write(rest[0]) + WriteSeq(rest[1..]);
  }

  /** Scanning the markup of a writable node appends that node to the current node. */
  lemma {:induction false} NodeRun(html: string, p: nat, n: Node, b: Builder, open: seq<string>)
    requires Writable(n) && open == Tags(b.frames)
    requires Holds(html, p, Write(n))
    requires n.Text? ==> TextEnds(html, p + |Write(n)|)
    ensures p + |Write(n)| <= |html|
    ensures Final(html, Scan(p, "", b, open, false))
            == Final(html, Scan(p + |Write(n)|, "", Append(b, n), open, false))
    decreases n, 3
  {
    HoldsLength(html, p, Write(n));
    match n
    case Text(t) =>
      TextAt(html, p, t, b, open);
    case Comment(c) =>
      CommentTagRun(html, p, c, b, open);
    case Element(tag, kids) =>
      ElementRun(html, p, tag, kids, b, open);
  }

  /** Scanning the markup of a writable element: open it, read its children into it, close it. */
  lemma {:induction false} ElementRun(html: string, p: nat, tag: string, kids: seq<Node>, b: Builder, open: seq<string>)
    requires Writable(Element(tag, kids)) && open == Tags(b.frames)
    requires Holds(html, p, Write(Element(tag, kids)))
    ensures p + |Write(Element(tag, kids))| <= |html|
    ensures Final(html, Scan(p, "", b, open, false))
            == Final(html, Scan(p + |Write(Element(tag, kids))|, "", Append(b, Element(tag, kids)), open, false))
    decreases Element(tag, kids), 2
  {
    var w := WriteSeq(kids);
    ElementPieces(html, p, tag, w);
    assert |Write(Element(tag, kids))| == |tag| + 2 + |w| + |tag| + 3;
    OpenTagRun(html, p, tag, b, open);
    ChildrenRun(html, p + |tag| + 2, tag, kids, b, open);
  }

  /** After the opening tag: the children are read into the open element, then the end
      tag closes it. */
  lemma {:induction false} ChildrenRun(html: string, q: nat, tag: string, kids: seq<Node>, b: Builder, open: seq<string>)
    requires PlainTag(tag) && WritableSeq(kids) && open == Tags(b.frames)
    requires var q' := q + |WriteSeq(kids)|;
      q' + |tag| + 3 <= |html|
      && Holds(html, q, WriteSeq(kids))
      && html[q'] == '<' && html[q' + 1] == '/' && Holds(html, q' + 2, tag)
      && html[q' + 2 + |tag|] == '>'
    ensures Final(html, Scan(q, "", Open(b, tag), open + [tag], false))
            == Final(html, Scan(q + |WriteSeq(kids)| + |tag| + 3, "", Append(b, Element(tag, kids)), open, false))
    decreases Element(tag, kids), 0
  {
    var o := Open(b, tag);
    assert TextEnds(html, q + |WriteSeq(kids)|);
    SeqRun(html, q, kids, o, open + [tag]);
    CloseElementRun(html, q + |WriteSeq(kids)|, tag, kids, b, open);
  }

  /** The end tag of a written element closes the element its children were read into. */
  lemma CloseElementRun(html: string, q: nat, tag: string, kids: seq<Node>, b: Builder, open: seq<string>)
    requires PlainTag(tag) && open == Tags(b.frames)
    requires q + |tag| + 3 <= |html| && html[q] == '<' && html[q + 1] == '/'
    requires Holds(html, q + 2, tag) && html[q + 2 + |tag|] == '>'
    ensures Final(html, Scan(q, "", AddAll(Open(b, tag), kids), open + [tag], false))
            == Final(html, Scan(q + |tag| + 3, "", Append(b, Element(tag, kids)), open, false))
  {
    var f := AddAll(Open(b, tag), kids);
    assert Tags(f.frames) == open + [tag];
    OpenFillClose(b, tag, kids);
    CloseTagRun(html, q, tag, f, open + [tag]);
    DropLast(open, tag);
  }

  /** Scanning the markup of a writable sequence appends all of it to the current node. */
  lemma {:induction false} SeqRun(html: string, p: nat, ns: seq<Node>, b: Builder, open: seq<string>)
    requires WritableSeq(ns) && open == Tags(b.frames)
    requires Holds(html, p, WriteSeq(ns))
    requires TextEnds(html, p + |WriteSeq(ns)|)
    ensures p + |WriteSeq(ns)| <= |html|
    ensures Final(html, Scan(p, "", b, open, false))
            == Final(html, Scan(p + |WriteSeq(ns)|, "", AddAll(b, ns), open, false))
    decreases ns, 1
  {
    HoldsLength(html, p, WriteSeq(ns));
    if ns == [] {
      AddAllNone(b);
    } else {
      SeqPieces(html, p, ns);
      SeqRunCons(html, p, ns, b, open);
    }
  }

  /** The same for a non-empty sequence, from its located first node and rest. */
  lemma {:induction false} SeqRunCons(html: string, p: nat, ns: seq<Node>, b: Builder, open: seq<string>)
    requires ns != [] && open == Tags(b.frames)
    requires var m := p + |Write(ns[0])|;
      Writable(ns[0]) && WritableSeq(ns[1..])
      && Holds(html, p, Write(ns[0])) && Holds(html, m, WriteSeq(ns[1..]))
      && TextEnds(html, m + |WriteSeq(ns[1..])|)
      && (ns[0].Text? ==> TextEnds(html, m))
    ensures Final(html, Scan(p, "", b, open, false))
            == Final(html, Scan(p + |Write(ns[0])| + |WriteSeq(ns[1..])|, "", AddAll(b, ns), open, false))
    decreases ns, 0
  {
    var n := ns[0];
    var rest := ns[1..];
    var m := p + |Write(n)|;
    assert Final(html, Scan(p, "", b, open, false))
           == Final(html, Scan(m, "", Append(b, n), open, false)) by {
      NodeRun(html, p, n, b, open);
    }
    assert Final(html, Scan(m, "", Append(b, n), open, false))
           == Final(html, Scan(m + |WriteSeq(rest)|, "", AddAll(Append(b, n), rest), open, false)) by {
      SeqRun(html, m, rest, Append(b, n), open);
    }
    AddAllFirst(b, ns);
  }

  /** A written sequence, located in the input as its first node and the rest. */
  lemma SeqPieces(html: string, p: nat, ns: seq<Node>)
    requires ns != [] && WritableSeq(ns)
    requires Holds(html, p, WriteSeq(ns)) && TextEnds(html, p + |WriteSeq(ns)|)
    ensures var m := p + |Write(ns[0])|;
      Writable(ns[0]) && WritableSeq(ns[1..])
      && Holds(html, p, Write(ns[0])) && Holds(html, m, WriteSeq(ns[1..]))
      && m + |WriteSeq(ns[1..])| == p + |WriteSeq(ns)|
      && (ns[0].Text? ==> TextEnds(html, m))
  {
    var n := ns[0];
    var rest := ns[1..];
    var w := Write(n);
    assert WriteSeq(ns) == w + WriteSeq(rest);
    HoldsSplit(html, p, w, WriteSeq(rest));
    if n.Text? && rest != [] {
      assert !rest[0].Text?;
      NextIsTag(html, p + |w|, rest);
    }
  }

  lemma {:induction false} HoldsIff(html: string, p: nat, w: string)
    ensures Holds(html, p, w) <==> p + |w| <= |html| && html[p..p + |w|] == w
    decreases |w|
  {
    if w != [] {
      HoldsIff(html, p + 1, w[1..]);
      if p + |w| <= |html| {
        SliceCons(html, p, p + |w|);
        if html[p..p + |w|] == w {
          assert html[p] == w[0];
          assert html[p + 1..p + |w|] == w[1..];
        }
        if html[p] == w[0] && html[p + 1..p + 1 + |w[1..]|] == w[1..] {
          assert w == [w[0]] + w[1..];
        }
      }
    }
  }

  lemma TextAt(html: string, p: nat, t: string, b: Builder, open: seq<string>)
    requires t != [] && Stripped(t) && '<' !in t && open == Tags(b.frames)
    requires Holds(html, p, t) && TextEnds(html, p + |t|)
    ensures Final(html, Scan(p, "", b, open, false))
            == Final(html, Scan(p + |t|, "", Append(b, Text(t)), open, false))
  {
    HoldsIff(html, p, t);
    NoTagIn(html, p, t);
    TextNodeRun(html, p, p + |t|, b, open);
  }

  /** The markup of a writable node is non-empty and has no whitespace at either end. */
  lemma WriteEnds(n: Node)
    requires Writable(n)
    ensures |Write(n)| > 0 && !IsSpace(Write(n)[0]) && !IsSpace(Write(n)[|Write(n)| - 1])
  {
  }

  /** The markup of a writable sequence has no whitespace at either end, and it starts
      the way the markup of its first node starts. */
  lemma {:induction false} WriteSeqStripped(ns: seq<Node>)
    requires WritableSeq(ns)
    ensures Stripped(WriteSeq(ns))
    ensures ns != [] ==> WriteSeq(ns) == Write(ns[0]) + WriteSeq(ns[1..]) && |Write(ns[0])| > 0
    decreases |ns|
  {
    if ns != [] {
      WriteEnds(ns[0]);
      var rest := ns[1..];
      assert WritableSeq(rest) by {
        forall k | 0 <= k < |rest| ensures Writable(rest[k]) { assert rest[k] == ns[k + 1]; }
        forall k | 0 <= k < |rest| - 1 ensures !(rest[k].Text? && rest[k + 1].Text?) {
          assert rest[k] == ns[k + 1] && rest[k + 1] == ns[k + 2];
        }
      }
      WriteSeqStripped(rest);
      var w := Write(ns[0]);
      var r := WriteSeq(rest);
      assert (w + r)[0] == w[0];
      if r != [] {
        assert (w + r)[|w + r| - 1] == r[|r| - 1];
      } else {
        assert w + r == w;
      }
    }
  }

  /** `\s*` from `k` stops at the first non-whitespace character `r`. */
  lemma SkipSpaceTo(s: string, k: nat, r: nat)
    requires k <= r < |s| && !IsSpace(s[r]) && forall m :: k <= m < r ==> IsSpace(s[m])
    ensures SkipSpace(s, k) == r
  {
  }

  /** Markup printed without a declaration does not match the declaration pattern. */
  lemma NoDoctypeMatch(ns: seq<Node>)
    requires WritableSeq(ns) && ns != []
    ensures MatchDoctype(WriteSeq(ns)) == None
  {
    var s := WriteSeq(ns);
    WriteSeqStripped(ns);
    var w := Write(ns[0]);
    assert s[0] == w[0];
    WriteEnds(ns[0]);
    SkipSpaceTo(s, 0, 0);
    NotDoctype(s, w, ns[0]);
  }

  lemma NotDoctype(s: string, w: string, n: Node)
    requires Writable(n) && w == Write(n) && |w| > 0 && |s| >= |w| && s[..|w|] == w
    ensures !(9 <= |s| && s[0..2] == "<!" && EqualsIgnoreCase(s[2..9], "doctype"))
  {
    if 9 <= |s| && s[0..2] == "<!" {
      assert s[0] == '<' && s[1] == '!';
      assert s[0] == w[0];
      if n.Comment? {
        assert w[2] == '-';
        assert s[2] == w[2];
        assert s[2..9][0] == s[2];
        assert AsciiLower(s[2..9][0]) != "doctype"[0];
      }
    }
  }

  /** The declaration the writer prints is matched in full, whatever follows it. */
  lemma DoctypeMatch(w: string)
    ensures MatchDoctype(DoctypeMarkup + w) == Some(|DoctypeMarkup|)
  {
    var s := DoctypeMarkup + w;
    DoctypeChars(s, w);
    SkipSpaceTo(s, 0, 0);
    SkipSpaceTo(s, 9, 10);
    SkipSpaceTo(s, 14, 14);
    DoctypeAt(s);
  }

  lemma DoctypeAt(s: string)
    requires |s| >= 15 && SkipSpace(s, 0) == 0 && SkipSpace(s, 9) == 10 && SkipSpace(s, 14) == 14
    requires s[0..2] == "<!" && EqualsIgnoreCase(s[2..9], "doctype")
    requires EqualsIgnoreCase(s[10..14], "html") && s[14] == '>'
    ensures MatchDoctype(s) == Some(15)
  {
  }

  lemma DoctypeChars(s: string, w: string)
    requires s == DoctypeMarkup + w
    ensures |s| >= 15 && s[0] == '<' && IsSpace(s[9]) && !IsSpace(s[10]) && s[14] == '>'
    ensures s[0..2] == "<!" && EqualsIgnoreCase(s[2..9], "doctype") && EqualsIgnoreCase(s[10..14], "html")
  {
    assert s[..15] == DoctypeMarkup;
    assert s[2..9] == DoctypeMarkup[2..9] == "doctype";
    assert s[10..14] == DoctypeMarkup[10..14] == "html";
  }

  /** Scanning the whole markup of a writable sequence from a fresh start puts exactly
      that sequence below the root, after whatever the root already held. */
  lemma ReadSeq(s: string, ns: seq<Node>, top: seq<Node>)
    requires WritableSeq(ns) && s == WriteSeq(ns)
    ensures Final(s, Scan(0, "", Builder(top, []), [], false)) == Document(top + ns)
  {
    HoldsIff(s, 0, s);
    assert s[0..|s|] == s;
    SeqRun(s, 0, ns, Builder(top, []), []);
    var b := AddAll(Builder(top, []), ns);
    assert b == Builder(top + ns, []);
    FinalHalted(s, Scan(|s|, "", b, [], false));
    assert Strip("") == [];
  }

  /** `Parse` on stripped, non-empty input is the scan of the prepared markup. */
  lemma ParseOf(input: string, body: string, doctype: bool)
    requires Strip(input) == input && input != [] && Prepare(input) == (body, doctype)
    ensures Parse(input) == Final(body, Scan(0, "", InitialBuilder(doctype), [], false))
  {
    FinalIsRun(body, Scan(0, "", InitialBuilder(doctype), [], false));
  }

  /** The printed declaration is removed and reported; the rest is scanned as it is. */
  lemma PrepareDoctype(input: string, w: string)
    requires input == DoctypeMarkup + w && Stripped(w)
    ensures Strip(input) == input && input != [] && Prepare(input) == (w, true)
  {
    DoctypeMatch(w);
    DoctypeRest(input, w);
    PrepareAfter(input, 15, w);
    DoctypeStripped(input, w);
  }

  lemma DoctypeRest(input: string, w: string)
    requires input == DoctypeMarkup + w && Stripped(w)
    ensures |input| >= 15 && Strip(input[15..]) == w
  {
    assert input[15..] == w;
    StripOfStripped(w);
  }

  lemma PrepareAfter(input: string, m: nat, w: string)
    requires MatchDoctype(input) == Some(m) && Strip(input[m..]) == w
    ensures Prepare(input) == (w, true)
  {
  }

  lemma DoctypeStripped(input: string, w: string)
    requires input == DoctypeMarkup + w && Stripped(w)
    ensures Strip(input) == input && input != []
  {
    assert input[0] == '<';
    if w == [] {
      assert input == DoctypeMarkup;
    } else {
      assert input[|input| - 1] == w[|w| - 1];
    }
    StripOfStripped(input);
  }

  lemma PrepareNone(ns: seq<Node>)
    requires WritableSeq(ns) && ns != []
    ensures var input := WriteSeq(ns); Strip(input) == input && input != [] && Prepare(input) == (input, false)
  {
    WriteSeqStripped(ns);
    StripOfStripped(WriteSeq(ns));
    NoDoctypeMatch(ns);
  }

  /** The round trip: parsing what the writer prints gives back the document. */
  lemma ParseWrite(d: Document)
    requires WritableDocument(d)
    ensures Parse(WriteDocument(d)) == d
  {
    if |d.children| > 0 && d.children[0] == DocumentType {
      ParseWriteDoctype(d.children[1..]);
      HeadTail(d.children);
    } else if d.children == [] {
      assert Strip([]) == [];
    } else {
      ParseWritePlain(d.children);
    }
  }

  lemma ParseWriteDoctype(ns: seq<Node>)
    requires WritableSeq(ns)
    ensures Parse(DoctypeMarkup + WriteSeq(ns)) == Document([DocumentType] + ns)
  {
    var w := WriteSeq(ns);
    var input := DoctypeMarkup + w;
    WriteSeqStripped(ns);
    PrepareDoctype(input, w);
    ParseOf(input, w, true);
    ReadSeq(w, ns, [DocumentType]);
  }

  lemma ParseWritePlain(ns: seq<Node>)
    requires WritableSeq(ns) && ns != []
    ensures Parse(WriteSeq(ns)) == Document(ns)
  {
    var input := WriteSeq(ns);
    PrepareNone(ns);
    ParseOf(input, input, false);
    ReadSeq(input, ns, []);
    assert [] + ns == ns;
  }
}

=== FILE: layout.dfy ===
/** The layout engine: greedy word wrap, the box tree built from the document tree, the
    display list drawn from it, and the two character-level views. */
module Layout {
  import opened Wrappers
  import opened Strings
  import opened Nodes
  import opened Draw

  const HStep: int := 13
  const VStep: int := 18

  /** Font metrics, which come from the windowing toolkit: the width of a piece of text
      and the height of a line. */
  datatype Metrics = Metrics(measure: string -> nat, linespace: nat)

  // ---------------------------------------------------------------------------
  // Greedy word wrap
  // ---------------------------------------------------------------------------

  /** The lines the wrap loop produces, given the words still to place and the line
      being filled. A word is tried after a single space; when the trial line is wider
      than `limit` the current line is emitted, even when it is empty, and the word starts
      the next one. The last line is emitted only when it is non-empty. */
  function Wrap(ws: seq<string>, text: string, measure: string -> nat, limit: int): seq<string>
    decreases |ws|
  {
    if ws == [] then (if text != [] then [text] else [])
    else
      var test := if text != [] then text + " " + ws[0] else ws[0];
      if measure(test) > limit then [text] + Wrap(ws[1..], ws[0], measure, limit)
      else Wrap(ws[1..], test, measure, limit)
  }

  /** The lines of a text node: its whitespace-separated words wrapped against the screen
      width less one horizontal step. */
  function Lines(text: string, mt: Metrics, screenWidth: int): seq<string>
  {
    Wrap(Words(text), "", mt.measure, screenWidth - HStep)
  }

  /** The height the layout gives a text node: one line space per wrapped line. */
  function TextHeight(text: string, mt: Metrics, screenWidth: int): (h: int)
    ensures h >= 0
  {
    mt.linespace * |Lines(text, mt, screenWidth)|
  }

  /** Two pieces joined by a single space, an empty piece contributing nothing. */
  function Glue(a: string, b: string): (r: string)
    ensures r == [] <==> a == [] && b == []
  {
    if a == [] then b else if b == [] then a else a + " " + b
  }

  lemma GlueAssoc(a: string, b: string, c: string)
    ensures Glue(Glue(a, b), c) == Glue(a, Glue(b, c))
  {
  }

  /** All pieces glued left to right. */
  function GlueAll(ls: seq<string>): string
  {
    if ls == [] then [] else Glue(ls[0], GlueAll(ls[1..]))
  }

  /** The non-empty pieces, in order. */
  function NonEmpty(ls: seq<string>): (r: seq<string>)
    ensures forall k :: 0 <= k < |r| ==> r[k] != []
  {
    if ls == [] then [] else (if ls[0] != [] then [ls[0]] else []) + NonEmpty(ls[1..])
  }

  lemma {:induction false} JoinOfNonEmpty(ls: seq<string>, sep: string)
    requires ls != [] && ls[0] != []
    ensures Join(ls, sep) != []
  {
  }

  /** Gluing is joining the non-empty pieces with single spaces. */
  lemma {:induction false} GlueAllIsJoin(ls: seq<string>)
    ensures GlueAll(ls) == Join(NonEmpty(ls), " ")
  {
    if ls != [] {
      GlueAllIsJoin(ls[1..]);
      var rest := NonEmpty(ls[1..]);
      if ls[0] != [] {
        assert NonEmpty(ls) == [ls[0]] + rest;
        if rest != [] {
          JoinOfNonEmpty(rest, " ");
          assert ([ls[0]] + rest)[1..] == rest;
        }
      } else {
        assert NonEmpty(ls) == [] + rest == rest;
      }
    }
  }

  lemma {:induction false} NonEmptyKeeps(ls: seq<string>)
    requires forall k :: 0 <= k < |ls| ==> ls[k] != []
    ensures NonEmpty(ls) == ls
  {
    if ls != [] {
      NonEmptyKeeps(ls[1..]);
    }
  }

  /** Wrapping neither loses, reorders nor alters a word: gluing the lines gives the text
      being filled glued to all the words. */
  lemma {:induction false} WrapKeepsWords(ws: seq<string>, text: string, measure: string -> nat, limit: int)
    requires forall k :: 0 <= k < |ws| ==> ws[k] != []
    ensures GlueAll(Wrap(ws, text, measure, limit)) == Glue(text, GlueAll(ws))
    decreases |ws|
  {
    if ws != [] {
      var w := ws[0];
      var test := if text != [] then text + " " + w else w;
      assert test == Glue(text, w);
      assert GlueAll(ws) == Glue(w, GlueAll(ws[1..]));
      if measure(test) > limit {
        WrapKeepsWords(ws[1..], w, measure, limit);
        assert ([text] + Wrap(ws[1..], w, measure, limit))[1..] == Wrap(ws[1..], w, measure, limit);
      } else {
        WrapKeepsWords(ws[1..], test, measure, limit);
        GlueAssoc(text, w, GlueAll(ws[1..]));
      }
    }
  }

  /** The non-empty lines of a text node, joined with single spaces, are its words joined
      with single spaces. */
  lemma LinesKeepWords(text: string, mt: Metrics, screenWidth: int)
    ensures Join(NonEmpty(Lines(text, mt, screenWidth)), " ") == Join(Words(text), " ")
  {
    var ws := Words(text);
    WordsAreWords(text);
    WrapKeepsWords(ws, "", mt.measure, screenWidth - HStep);
    GlueAllIsJoin(Lines(text, mt, screenWidth));
    GlueAllIsJoin(ws);
    NonEmptyKeeps(ws);
  }

  /** Every line is empty, one of the words, or no wider than the limit. */
  lemma {:induction false} WrapLinesFit(ws: seq<string>, text: string, measure: string -> nat, limit: int, pool: seq<string>)
    requires forall k :: 0 <= k < |ws| ==> ws[k] in pool
    requires text == [] || text in pool || measure(text) <= limit
    ensures forall k :: 0 <= k < |Wrap(ws, text, measure, limit)| ==>
      var l := Wrap(ws, text, measure, limit)[k];
      l == [] || l in pool || measure(l) <= limit
    decreases |ws|
  {
    if ws != [] {
      var w := ws[0];
      var test := if text != [] then text + " " + w else w;
      if measure(test) > limit {
        WrapLinesFit(ws[1..], w, measure, limit, pool);
        var r := Wrap(ws[1..], w, measure, limit);
        assert forall k :: 1 <= k < |r| + 1 ==> ([text] + r)[k] == r[k - 1];
      } else {
        WrapLinesFit(ws[1..], test, measure, limit, pool);
      }
    }
  }

  /** Every line of a text node is empty, a single word of it, or fits the screen width
      less one horizontal step. */
  lemma LinesFit(text: string, mt: Metrics, screenWidth: int)
    ensures forall k :: 0 <= k < |Lines(text, mt, screenWidth)| ==>
      var l := Lines(text, mt, screenWidth)[k];
      l == [] || l in Words(text) || mt.measure(l) <= screenWidth - HStep
  {
    WrapLinesFit(Words(text), "", mt.measure, screenWidth - HStep, Words(text));
  }

  /** The height loop of `layout` for a text node. */
  method WrapHeight(text: string, mt: Metrics, screenWidth: int) returns (h: int)
    ensures h == TextHeight(text, mt, screenWidth)
  {
    var ws := Words(text);
    var limit := screenWidth - HStep;
    var line := "";
    h := 0;
    ghost var n := 0;
    var i := 0;
    while i < |ws|
      invariant 0 <= i <= |ws|
      invariant h == mt.linespace * n
      invariant n + |Wrap(ws[i..], line, mt.measure, limit)| == |Wrap(ws, "", mt.measure, limit)|
    {
      line, h, n := HeightStep(ws, i, line, mt, limit, h, n);
      i := i + 1;
    }
    assert ws[i..] == [];
    if line != [] {
      ScaleSucc(mt.linespace, n);
      h := h + mt.linespace;
      n := n + 1;
    }
  }

  /** One word of the height loop: a line space is added exactly when the wrap closes a line. */
  method HeightStep(ws: seq<string>, i: int, line: string, mt: Metrics, limit: int, h: int, ghost n: int)
    returns (line': string, h': int, ghost n': int)
    requires 0 <= i < |ws| && h == mt.linespace * n
    ensures h' == mt.linespace * n'
    ensures n' + |Wrap(ws[i + 1..], line', mt.measure, limit)| == n + |Wrap(ws[i..], line, mt.measure, limit)|
  {
    var word := ws[i];
    var test := if line != [] then line + " " + word else word;
    WrapStep(ws, i, line, mt.measure, limit);
    if mt.measure(test) > limit {
      ScaleSucc(mt.linespace, n);
      h' := h + mt.linespace;
      n' := n + 1;
      line' := word;
    } else {
      h' := h;
      n' := n;
      line' := test;
    }
  }

  lemma ScaleSucc(a: int, n: int)
    ensures a * (n + 1) == a * n + a
  {
  }

  /** One white `DrawText` per line in the text font, each a line space below the last. */
  function TextCmds(x: int, y: int, lines: seq<string>, linespace: int): (r: seq<DrawCmd>)
    ensures |r| == |lines|
    decreases |lines|
  {
    if lines == [] then []
    else [DrawText(x, y, lines[0], TextFont, DefaultTextColor)] + TextCmds(x, y + linespace, lines[1..], linespace)
  }

  /** The `k`th command draws the `k`th line, `k` line spaces below the first. */
  lemma {:induction false} TextCmdsAt(x: int, y: int, lines: seq<string>, linespace: int, k: int)
    requires 0 <= k < |lines|
    ensures TextCmds(x, y, lines, linespace)[k] == DrawText(x, y + k * linespace, lines[k], TextFont, DefaultTextColor)
    decreases |lines|
  {
    if k > 0 {
      TextCmdsAt(x, y + linespace, lines[1..], linespace, k - 1);
      assert (k - 1) * linespace + linespace == k * linespace;
    }
  }

  /** One step of the wrap loop at word `i`. */
  lemma WrapStep(ws: seq<string>, i: int, line: string, measure: string -> nat, limit: int)
    requires 0 <= i < |ws|
    ensures var test := if line != [] then line + " " + ws[i] else ws[i];
      Wrap(ws[i..], line, measure, limit)
      == if measure(test) > limit then [line] + Wrap(ws[i + 1..], ws[i], measure, limit)
         else Wrap(ws[i + 1..], test, measure, limit)
  {
    assert ws[i..][0] == ws[i] && ws[i..][1..] == ws[i + 1..];
  }

  lemma TextCmdsCons(x: int, y: int, line: string, rest: seq<string>, linespace: int)
    ensures TextCmds(x, y, [line] + rest, linespace)
         == [DrawText(x, y, line, TextFont, DefaultTextColor)] + TextCmds(x, y + linespace, rest, linespace)
  {
    assert ([line] + rest)[1..] == rest;
  }

  /** The text branch of `render`: the same wrap loop, drawing each line as it is closed. */
  method RenderText(x: int, y: int, text: string, mt: Metrics, screenWidth: int) returns (cmds: seq<DrawCmd>)
    ensures cmds == TextCmds(x, y, Lines(text, mt, screenWidth), mt.linespace)
  {
    cmds := RenderWords(x, y, Words(text), mt.measure, screenWidth - HStep, mt.linespace);
  }

  /** The loop of the text branch of `render` over the words of the text. */
  method RenderWords(x: int, y: int, ws: seq<string>, measure: string -> nat, limit: int, linespace: int)
    returns (cmds: seq<DrawCmd>)
    ensures cmds == TextCmds(x, y, Wrap(ws, "", measure, limit), linespace)
  {
    var line := "";
    var cursorY := y;
    cmds := [];
    var i := 0;
    assert ws[0..] == ws;
    while i < |ws|
      invariant 0 <= i <= |ws|
      invariant cmds + TextCmds(x, cursorY, Wrap(ws[i..], line, measure, limit), linespace)
             == TextCmds(x, y, Wrap(ws, "", measure, limit), linespace)
    {
      cmds, line, cursorY := RenderStep(x, ws, i, measure, limit, linespace, cmds, line, cursorY);
      i := i + 1;
    }
    assert ws[i..] == [];
    if line != [] {
      TextCmdsCons(x, cursorY, line, [], linespace);
      assert [line] + [] == [line];
      cmds := cmds + [DrawText(x, cursorY, line, TextFont, DefaultTextColor)];
    }
  }

  /** One word of the drawing loop: the closed line, if any, is drawn and nothing that
      is still to be drawn changes. */
  method RenderStep(x: int, ws: seq<string>, i: int, measure: string -> nat, limit: int, linespace: int,
                    cmds: seq<DrawCmd>, line: string, cursorY: int)
    returns (cmds': seq<DrawCmd>, line': string, cursorY': int)
    requires 0 <= i < |ws|
    ensures cmds' + TextCmds(x, cursorY', Wrap(ws[i + 1..], line', measure, limit), linespace)
         == cmds + TextCmds(x, cursorY, Wrap(ws[i..], line, measure, limit), linespace)
  {
    var word := ws[i];
    var test := if line != [] then line + " " + word else word;
    WrapStep(ws, i, line, measure, limit);
    if measure(test) > limit {
      var rest := Wrap(ws[i + 1..], word, measure, limit);
      TextCmdsCons(x, cursorY, line, rest, linespace);
      cmds' := cmds + [DrawText(x, cursorY, line, TextFont, DefaultTextColor)];
      cursorY' := cursorY + linespace;
      line' := word;
    } else {
      cmds' := cmds;
      cursorY' := cursorY;
      line' := test;
    }
  }

  /** The two copies of the wrap loop agree: the height the loop of `layout` gives a text
      node is one line space per command the loop of `render` draws for it. */
  method HeightMatchesDrawnLines(x: int, y: int, text: string, mt: Metrics, screenWidth: int)
    returns (h: int, cmds: seq<DrawCmd>)
    ensures h == mt.linespace * |cmds|
    ensures forall k :: 0 <= k < |cmds| ==> cmds[k].DrawText? && cmds[k].y == y + k * mt.linespace
  {
    h := WrapHeight(text, mt, screenWidth);
    cmds := RenderText(x, y, text, mt, screenWidth);
    forall k | 0 <= k < |cmds|
      ensures cmds[k].DrawText? && cmds[k].y == y + k * mt.linespace
    {
      TextCmdsAt(x, y, Lines(text, mt, screenWidth), mt.linespace, k);
    }
  }

  // ---------------------------------------------------------------------------
  // The box tree
  // ---------------------------------------------------------------------------

  /** What a box lays out: an element, by its tag, or a run of text. */
  datatype Content = ElementBox(tag: string) | TextBox(text: string)

  /** `LayoutNode` and `TextNode`: position, size, content and child boxes. */
  datatype Box = Box(x: int, y: int, width: int, height: int, content: Content, children: seq<Box>)

  function SumHeights(bs: seq<Box>): int
  {
    if bs == [] then 0 else SumHeights(bs[..|bs| - 1]) + bs[|bs| - 1].height
  }

  function Contents(bs: seq<Box>): (r: seq<Content>)
    ensures |r| == |bs|
    ensures forall k :: 0 <= k < |bs| ==> r[k] == bs[k].content
  {
    if bs == [] then [] else Contents(bs[..|bs| - 1]) + [bs[|bs| - 1].content]
  }

  /** The child nodes that get a box, as the box content each gets: document types,
      comments and `head` elements get none. */
  function Boxed(ns: seq<Node>): seq<Content>
  {
    if ns == [] then []
    else
      var n := ns[0];
      (match n
       case Element(tag, _) => if tag == "head" then [] else [ElementBox(tag)]
       case Text(text) => [TextBox(text)]
       case _ => [])
      + Boxed(ns[1..])
  }

  /** Where the `i`th child box of a parent at (x, y) and `width` wide belongs: the
      parent's `x` and width; an element below the boxes before it, text at the parent's
      `y`. */
  predicate Placed(bs: seq<Box>, i: int, x: int, y: int, width: int)
    requires 0 <= i < |bs|
  {
    bs[i].x == x && bs[i].width == width
    && (bs[i].content.ElementBox? ==> bs[i].y == y + SumHeights(bs[..i]))
    && (bs[i].content.TextBox? ==> bs[i].y == y)
  }

  /** A laid-out tree: a text box is a childless box one line space high per wrapped line;
      an element box is as high as its children together and places them as above. */
  predicate WellLaid(b: Box, mt: Metrics, screenWidth: int)
    decreases b
  {
    match b.content
    case TextBox(text) => b.children == [] && b.height == TextHeight(text, mt, screenWidth)
    case ElementBox(_) =>
      b.height == SumHeights(b.children)
      && forall i :: 0 <= i < |b.children| ==>
           Placed(b.children, i, b.x, b.y, b.width) && WellLaid(b.children[i], mt, screenWidth)
  }

  /** Every box so far is placed in the parent and laid out. */
  predicate AllPlaced(bs: seq<Box>, x: int, y: int, width: int, mt: Metrics, screenWidth: int)
  {
    forall i :: 0 <= i < |bs| ==> Placed(bs, i, x, y, width) && WellLaid(bs[i], mt, screenWidth)
  }

  lemma ElementWellLaid(b: Box, mt: Metrics, screenWidth: int)
    requires b.content.ElementBox? && b.height == SumHeights(b.children)
    requires AllPlaced(b.children, b.x, b.y, b.width, mt, screenWidth)
    ensures WellLaid(b, mt, screenWidth)
  {
  }

  /** `recurse` on an element below a parent box: a box at the given place, its children
      laid out inside it, and its height the sum of theirs. */
  function LayoutElement(n: Node, x: int, y: int, width: int, mt: Metrics, screenWidth: int): (b: Box)
    requires n.Element?
    ensures b.x == x && b.y == y && b.width == width && b.content == ElementBox(n.tag)
    ensures Contents(b.children) == Boxed(n.children)
    ensures WellLaid(b, mt, screenWidth)
    decreases n, 1
  {
    var kids := LayoutKids(n.children, x, y, width, [], mt, screenWidth);
    assert kids[0..] == kids;
    var b := Box(x, y, width, SumHeights(kids), ElementBox(n.tag), kids);
    ElementWellLaid(b, mt, screenWidth);
    b
  }

  /** `recurse` on one child of a parent box: an element other than `head` gets its own
      box below the boxes already there, a text node a box at the parent's place, and
      anything else nothing. */
  function AppendBox(n: Node, x: int, y: int, width: int, acc: seq<Box>, mt: Metrics, screenWidth: int): (next: seq<Box>)
    ensures |acc| <= |next| <= |acc| + 1 && next[..|acc|] == acc
    ensures Contents(next[|acc|..]) == Boxed([n])
    ensures AllPlaced(acc, x, y, width, mt, screenWidth) ==> AllPlaced(next, x, y, width, mt, screenWidth)
    decreases n, 2
  {
    match n
    case Element(tag, _) =>
      if tag == "head" then
        assert acc[..|acc|] == acc;
        acc
      else
        var b := LayoutElement(n, x, y + SumHeights(acc), width, mt, screenWidth);
        PlacedAppend(acc, b, x, y, width, mt, screenWidth);
        acc + [b]
    case Text(text) =>
      var b := Box(x, y, width, TextHeight(text, mt, screenWidth), TextBox(text), []);
      PlacedAppend(acc, b, x, y, width, mt, screenWidth);
      acc + [b]
    case _ =>
      assert acc[..|acc|] == acc;
      acc
  }

  /** One more box, placed after the others and laid out, keeps the list placed; the
      list grows by exactly that box. */
  lemma PlacedAppend(acc: seq<Box>, b: Box, x: int, y: int, width: int, mt: Metrics, screenWidth: int)
    requires b.x == x && b.width == width
    requires b.content.ElementBox? ==> b.y == y + SumHeights(acc)
    requires b.content.TextBox? ==> b.y == y
    requires WellLaid(b, mt, screenWidth)
    ensures (acc + [b])[..|acc|] == acc && (acc + [b])[|acc|..] == [b]
    ensures Contents([b]) == [b.content]
    ensures AllPlaced(acc, x, y, width, mt, screenWidth) ==> AllPlaced(acc + [b], x, y, width, mt, screenWidth)
  {
    var next := acc + [b];
    assert next[..|acc|] == acc;
    if AllPlaced(acc, x, y, width, mt, screenWidth) {
      forall i | 0 <= i < |next|
        ensures Placed(next, i, x, y, width) && WellLaid(next[i], mt, screenWidth)
      {
        if i < |acc| {
          PlacedKeep(acc, b, i, x, y, width);
          assert next[i] == acc[i];
        } else {
          assert next[i] == b;
        }
      }
    }
  }

  lemma PlacedKeep(acc: seq<Box>, b: Box, i: int, x: int, y: int, width: int)
    requires 0 <= i < |acc| && Placed(acc, i, x, y, width)
    ensures Placed(acc + [b], i, x, y, width)
  {
    assert (acc + [b])[..i] == acc[..i];
    assert (acc + [b])[i] == acc[i];
  }

  /** The loop over an element's children, `acc` holding the boxes appended so far. */
  function LayoutKids(ns: seq<Node>, x: int, y: int, width: int, acc: seq<Box>, mt: Metrics, screenWidth: int): (r: seq<Box>)
    ensures |acc| <= |r| && r[..|acc|] == acc
    ensures Contents(r[|acc|..]) == Boxed(ns)
    ensures AllPlaced(acc, x, y, width, mt, screenWidth) ==> AllPlaced(r, x, y, width, mt, screenWidth)
    decreases ns, 3
  {
    if ns == [] then acc
    else
      var next := AppendBox(ns[0], x, y, width, acc, mt, screenWidth);
      var r := LayoutKids(ns[1..], x, y, width, next, mt, screenWidth);
      KidsStep(ns, acc, next, r);
      r
  }

  lemma BoxedCons(ns: seq<Node>)
    requires ns != []
    ensures Boxed(ns) == Boxed([ns[0]]) + Boxed(ns[1..])
  {
    assert [ns[0]][1..] == [];
  }

  /** The bookkeeping of one step of the child loop. */
  lemma KidsStep(ns: seq<Node>, acc: seq<Box>, next: seq<Box>, r: seq<Box>)
    requires ns != []
    requires |acc| <= |next| && next[..|acc|] == acc
    requires Contents(next[|acc|..]) == Boxed([ns[0]])
    requires |next| <= |r| && r[..|next|] == next
    requires Contents(r[|next|..]) == Boxed(ns[1..])
    ensures |acc| <= |r| && r[..|acc|] == acc
    ensures Contents(r[|acc|..]) == Boxed(ns)
  {
    assert r[..|acc|] == r[..|next|][..|acc|];
    assert r[|acc|..] == next[|acc|..] + r[|next|..];
    BoxedCons(ns);
    ContentsAppend(next[|acc|..], r[|next|..]);
  }

  lemma {:induction false} ContentsAppend(a: seq<Box>, b: seq<Box>)
    ensures Contents(a + b) == Contents(a) + Contents(b)
    decreases |b|
  {
    if b == [] {
      assert a + b == a;
    } else {
      ContentsAppend(a, b[..|b| - 1]);
      assert (a + b)[..|a + b| - 1] == a + b[..|b| - 1];
    }
  }

  /** A top-level node that becomes the root box: an element other than `head`. */
  predicate RootCandidate(n: Node)
  {
    n.Element? && n.tag != "head"
  }

  /** `layout(document)`: the document's children are visited without a parent box, so
      each top-level element other than `head` builds a fresh root box at (0, 0) across
      the screen, and the last one is kept. Top-level text gets a box that nothing holds. */
  function LayoutRoots(ns: seq<Node>, mt: Metrics, screenWidth: int, root: Option<Box>): (r: Option<Box>)
    ensures r != root ==>
      r.Some? && r.value.x == 0 && r.value.y == 0 && r.value.width == screenWidth && WellLaid(r.value, mt, screenWidth)
    decreases |ns|
  {
    if ns == [] then root
    else
      var next := if RootCandidate(ns[0]) then Some(LayoutElement(ns[0], 0, 0, screenWidth, mt, screenWidth)) else root;
      LayoutRoots(ns[1..], mt, screenWidth, next)
  }

  /** The root box of a fresh layout of a document: none without a top-level element
      other than `head`, otherwise the last such element laid out across the screen. */
  function LayoutDocument(d: Document, mt: Metrics, screenWidth: int): (r: Option<Box>)
    ensures r.None? <==> LastCandidate(d.children) == -1
    ensures r.Some? ==>
      r.value == LayoutElement(d.children[LastCandidate(d.children)], 0, 0, screenWidth, mt, screenWidth)
      && r.value.x == 0 && r.value.y == 0 && r.value.width == screenWidth && WellLaid(r.value, mt, screenWidth)
  {
    LayoutRootsIsLast(d.children, mt, screenWidth, None);
    LayoutRoots(d.children, mt, screenWidth, None)
  }

  /** The position of the last root candidate, or -1 when there is none. */
  function LastCandidate(ns: seq<Node>): (r: int)
    ensures -1 <= r < |ns|
    ensures r == -1 ==> forall k :: 0 <= k < |ns| ==> !RootCandidate(ns[k])
    ensures r >= 0 ==> RootCandidate(ns[r]) && forall j :: r < j < |ns| ==> !RootCandidate(ns[j])
  {
    if ns == [] then -1
    else if RootCandidate(ns[|ns| - 1]) then |ns| - 1
    else
      var r := LastCandidate(ns[..|ns| - 1]);
      assert forall k :: 0 <= k < |ns| - 1 ==> ns[..|ns| - 1][k] == ns[k];
      r
  }

  /** A node added at the end decides the root when it is a candidate. */
  lemma {:induction false} LayoutRootsSnoc(ns: seq<Node>, n: Node, mt: Metrics, screenWidth: int, root: Option<Box>)
    ensures LayoutRoots(ns + [n], mt, screenWidth, root)
         == if RootCandidate(n) then Some(LayoutElement(n, 0, 0, screenWidth, mt, screenWidth))
            else LayoutRoots(ns, mt, screenWidth, root)
    decreases |ns|
  {
    if ns == [] {
      assert [n][1..] == [];
    } else {
      var next := if RootCandidate(ns[0]) then Some(LayoutElement(ns[0], 0, 0, screenWidth, mt, screenWidth)) else root;
      assert (ns + [n])[1..] == ns[1..] + [n];
      LayoutRootsSnoc(ns[1..], n, mt, screenWidth, next);
    }
  }

  /** The root box is the layout of the last top-level element other than `head`, and
      the previous root stays when there is no such element. */
  lemma {:induction false} LayoutRootsIsLast(ns: seq<Node>, mt: Metrics, screenWidth: int, root: Option<Box>)
    ensures LayoutRoots(ns, mt, screenWidth, root)
         == if LastCandidate(ns) == -1 then root
            else Some(LayoutElement(ns[LastCandidate(ns)], 0, 0, screenWidth, mt, screenWidth))
    decreases |ns|
  {
    if ns != [] {
      var init := ns[..|ns| - 1];
      assert ns == init + [ns[|ns| - 1]];
      LayoutRootsSnoc(init, ns[|ns| - 1], mt, screenWidth, root);
      LayoutRootsIsLast(init, mt, screenWidth, root);
      if !RootCandidate(ns[|ns| - 1]) && LastCandidate(init) >= 0 {
        assert init[LastCandidate(init)] == ns[LastCandidate(init)];
      }
    }
  }

  // ---------------------------------------------------------------------------
  // Rendering the box tree
  // ---------------------------------------------------------------------------

  /** What `render` draws for one box itself: the outline of an element box, or the
      wrapped lines of a text box. */
  function Own(b: Box, mt: Metrics, screenWidth: int): seq<DrawCmd>
  {
    match b.content
    case ElementBox(_) => [NewDrawRect(b.x, b.y, b.width, b.height)]
    case TextBox(text) => TextCmds(b.x, b.y, Lines(text, mt, screenWidth), mt.linespace)
  }

  /** `render(root)`: the box itself, then its children in order. */
  function Render(b: Box, mt: Metrics, screenWidth: int): seq<DrawCmd>
    decreases b, 1
  {
    Own(b, mt, screenWidth) + RenderAll(b.children, mt, screenWidth)
  }

  function RenderAll(bs: seq<Box>, mt: Metrics, screenWidth: int): seq<DrawCmd>
    decreases bs, 0
  {
    if bs == [] then [] else Render(bs[0], mt, screenWidth) + RenderAll(bs[1..], mt, screenWidth)
  }

  /** The element boxes of a tree in pre-order. */
  function PreorderElements(b: Box): seq<Box>
    decreases b, 1
  {
    (if b.content.ElementBox? then [b] else []) + PreorderAll(b.children)
  }

  function PreorderAll(bs: seq<Box>): seq<Box>
    decreases bs, 0
  {
    if bs == [] then [] else PreorderElements(bs[0]) + PreorderAll(bs[1..])
  }

  /** The rectangles of a display list, in order. */
  function Rects(cmds: seq<DrawCmd>): seq<DrawCmd>
  {
    if cmds == [] then [] else (if cmds[0].DrawRect? then [cmds[0]] else []) + Rects(cmds[1..])
  }

  /** The outline of each box, with the default colours. */
  function Outlines(bs: seq<Box>): (r: seq<DrawCmd>)
    ensures |r| == |bs|
    ensures forall k :: 0 <= k < |bs| ==> r[k] == NewDrawRect(bs[k].x, bs[k].y, bs[k].width, bs[k].height)
  {
    if bs == [] then [] else [NewDrawRect(bs[0].x, bs[0].y, bs[0].width, bs[0].height)] + Outlines(bs[1..])
  }

  lemma {:induction false} RectsAppend(a: seq<DrawCmd>, b: seq<DrawCmd>)
    ensures Rects(a + b) == Rects(a) + Rects(b)
    decreases |a|
  {
    if a == [] {
      assert a + b == b;
    } else {
      var head := if a[0].DrawRect? then [a[0]] else [];
      RectsCons(a, b);
      RectsAppend(a[1..], b);
      ConcatAssoc(head, Rects(a[1..]), Rects(b));
    }
  }

  /** One unfolding of `Rects` on a concatenation. */
  lemma RectsCons(a: seq<DrawCmd>, b: seq<DrawCmd>)
    requires a != []
    ensures Rects(a + b) == (if a[0].DrawRect? then [a[0]] else []) + Rects(a[1..] + b)
  {
    assert (a + b)[0] == a[0];
    assert (a + b)[1..] == a[1..] + b;
  }

  lemma {:induction false} OutlinesAppend(a: seq<Box>, b: seq<Box>)
    ensures Outlines(a + b) == Outlines(a) + Outlines(b)
  {
  }

  lemma {:induction false} RectsOfText(x: int, y: int, lines: seq<string>, linespace: int)
    ensures Rects(TextCmds(x, y, lines, linespace)) == []
    decreases |lines|
  {
    if lines != [] {
      RectsOfText(x, y + linespace, lines[1..], linespace);
    }
  }

  /** `render` draws exactly one rectangle per element box, in pre-order, each with the
      box's own position and size. */
  lemma {:induction false} RenderRects(b: Box, mt: Metrics, screenWidth: int)
    ensures Rects(Render(b, mt, screenWidth)) == Outlines(PreorderElements(b))
    decreases b, 1
  {
    RenderAllRects(b.children, mt, screenWidth);
    RectsAppend(Own(b, mt, screenWidth), RenderAll(b.children, mt, screenWidth));
    OutlinesAppend(if b.content.ElementBox? then [b] else [], PreorderAll(b.children));
    match b.content
    case ElementBox(_) =>
      assert Rects(Own(b, mt, screenWidth)) == Outlines([b]);
    case TextBox(text) =>
      RectsOfText(b.x, b.y, Lines(text, mt, screenWidth), mt.linespace);
  }

  lemma {:induction false} RenderAllRects(bs: seq<Box>, mt: Metrics, screenWidth: int)
    ensures Rects(RenderAll(bs, mt, screenWidth)) == Outlines(PreorderAll(bs))
    decreases bs, 0
  {
    if bs != [] {
      RenderRects(bs[0], mt, screenWidth);
      RenderAllRects(bs[1..], mt, screenWidth);
      RectsAppend(Render(bs[0], mt, screenWidth), RenderAll(bs[1..], mt, screenWidth));
      OutlinesAppend(PreorderElements(bs[0]), PreorderAll(bs[1..]));
    }
  }

  /** A laid-out text box is one line space high for every `DrawText` that `render`
      emits for it, and those are all it emits. */
  lemma TextBoxHeight(b: Box, mt: Metrics, screenWidth: int)
    requires b.content.TextBox? && WellLaid(b, mt, screenWidth)
    ensures Render(b, mt, screenWidth) == Own(b, mt, screenWidth)
    ensures b.height == mt.linespace * |Render(b, mt, screenWidth)|
    ensures forall k :: 0 <= k < |Render(b, mt, screenWidth)| ==> Render(b, mt, screenWidth)[k].DrawText?
  {
    assert RenderAll([], mt, screenWidth) == [];
    var lines := Lines(b.content.text, mt, screenWidth);
    forall k | 0 <= k < |lines| ensures TextCmds(b.x, b.y, lines, mt.linespace)[k].DrawText? {
      TextCmdsAt(b.x, b.y, lines, mt.linespace, k);
    }
  }

  // ---------------------------------------------------------------------------
  // The character views
  // ---------------------------------------------------------------------------

  function Max(a: int, b: int): int
  {
    if a >= b then a else b
  }

  /** `file_view(text, font)`: one white `DrawText` per character on a fixed grid; a new
      line starts at a newline and when the next column would pass the right margin. */
  method FileView(text: string, font: Font, mt: Metrics, screenWidth: int) returns (cmds: seq<DrawCmd>)
    ensures |cmds| == |text|
    ensures forall k :: 0 <= k < |cmds| ==>
      cmds[k].DrawText? && cmds[k].text == [text[k]] && cmds[k].font == font && cmds[k].color == DefaultTextColor
    ensures forall k :: 0 <= k < |cmds| ==> HStep <= cmds[k].x <= Max(HStep, screenWidth - HStep)
    ensures forall k :: 0 <= k < |cmds| && text[k] == '\n' ==> cmds[k].x == HStep
    ensures forall k :: 0 < k < |cmds| ==> cmds[k - 1].y <= cmds[k].y
  {
    var cursorX := HStep;
    var cursorY := VStep;
    cmds := [];
    var i := 0;
    while i < |text|
      invariant 0 <= i <= |text| && |cmds| == i
      invariant HStep <= cursorX <= Max(HStep, screenWidth - HStep)
      invariant forall k :: 0 <= k < i ==>
        cmds[k].DrawText? && cmds[k].text == [text[k]] && cmds[k].font == font && cmds[k].color == DefaultTextColor
      invariant forall k :: 0 <= k < i ==> HStep <= cmds[k].x <= Max(HStep, screenWidth - HStep)
      invariant forall k :: 0 <= k < i && text[k] == '\n' ==> cmds[k].x == HStep
      invariant forall k :: 0 < k < i ==> cmds[k - 1].y <= cmds[k].y
      invariant forall k :: 0 <= k < i ==> cmds[k].y <= cursorY
    {
      var c := text[i];
      if c == '\n' {
        cursorX := HStep;
        cursorY := cursorY + VStep;
      }
      cmds := cmds + [DrawText(cursorX, cursorY, [c], font, DefaultTextColor)];
      cursorX := cursorX + HStep;
      if cursorX > screenWidth - HStep {
        cursorX := HStep;
        cursorY := cursorY + mt.linespace + VStep;
      }
      i := i + 1;
    }
  }

  /** The characters the source view draws: everything but spaces and newlines. */
  function Visible(s: string): (r: string)
    ensures |r| <= |s|
  {
    if s == [] then []
    else Visible(s[..|s| - 1]) + (if s[|s| - 1] == ' ' || s[|s| - 1] == '\n' then [] else [s[|s| - 1]])
  }

  /** The texts of a display list's `DrawText` commands, run together. */
  function Emitted(cmds: seq<DrawCmd>): string
  {
    if cmds == [] then []
    else Emitted(cmds[..|cmds| - 1]) + (if cmds[|cmds| - 1].DrawText? then cmds[|cmds| - 1].text else [])
  }

  /** The pen of the source view: the commands drawn so far and the cursor. */
  datatype Pen = Pen(displayList: seq<DrawCmd>, cursorX: int, cursorY: int)

  /** `Layout(...)`: an empty display list and the cursor one step in from the corner. */
  function NewPen(): (p: Pen)
    ensures p.displayList == [] && p.cursorX == HStep && p.cursorY == VStep
  {
    Pen([], HStep, VStep)
  }

  /** Every command drawn is a non-empty text in the given colour and font. */
  predicate TextRuns(cmds: seq<DrawCmd>, color: string, font: Font)
  {
    forall k :: 0 <= k < |cmds| ==>
      cmds[k].DrawText? && cmds[k].text != [] && cmds[k].color == color && cmds[k].font == font
  }

  /** One character of `_update_source_view_display_list`: a newline starts a new line; a
      space draws the word gathered so far, steps the cursor past it and breaks the line
      when the next word would pass the right edge, then advances by a space unless the
      previous character was one; any other character joins the word. */
  method SourceChar(text: string, i: int, x: int, color: string, font: Font, mt: Metrics, screenWidth: int,
                    added: seq<DrawCmd>, buffer: string, cursorX: int, cursorY: int)
    returns (added': seq<DrawCmd>, buffer': string, cursorX': int, cursorY': int)
    requires 0 <= i < |text|
    requires TextRuns(added, color, font)
    ensures TextRuns(added', color, font)
    ensures Emitted(added') + buffer' == Emitted(added) + buffer + (if text[i] == ' ' || text[i] == '\n' then [] else [text[i]])
    ensures cursorY' >= cursorY
  {
    added', buffer', cursorX', cursorY' := added, buffer, cursorX, cursorY;
    var c := text[i];
    if c == '\n' {
      cursorX' := x;
      cursorY' := cursorY + mt.linespace + VStep;
    } else if c == ' ' {
      if buffer != [] {
        EmittedAppend(added, DrawText(cursorX, cursorY, buffer, font, color));
        added' := added + [DrawText(cursorX, cursorY, buffer, font, color)];
        cursorX' := cursorX + mt.measure(buffer);
        var j := Find(text, " ", i + 1);
        if j != -1 {
          var nextWord := text[i + 1..j];
          if cursorX' + mt.measure(nextWord) > screenWidth {
            cursorX' := x;
            cursorY' := cursorY + mt.linespace + VStep;
          }
        }
        buffer' := "";
      }
      if i < 1 || text[i - 1] != ' ' {
        cursorX' := cursorX' + mt.measure(" ");
      }
    } else {
      buffer' := buffer + [c];
    }
  }

  /** The loop of `_update_source_view_display_list` over a non-empty text: the commands
      it draws and where it leaves the cursor. */
  method SourceRuns(text: string, x: int, y: int, color: string, font: Font, mt: Metrics, screenWidth: int)
    returns (added: seq<DrawCmd>, cursorX: int, cursorY: int)
    ensures TextRuns(added, color, font)
    ensures Emitted(added) == Visible(text)
    ensures cursorY >= y
  {
    cursorX := x;
    cursorY := y;
    added := [];
    var buffer := "";
    var i := 0;
    while i < |text|
      invariant 0 <= i <= |text|
      invariant Emitted(added) + buffer == Visible(text[..i])
      invariant TextRuns(added, color, font)
      invariant cursorY >= y
    {
      VisibleStep(text, i);
      added, buffer, cursorX, cursorY := SourceChar(text, i, x, color, font, mt, screenWidth, added, buffer, cursorX, cursorY);
      i := i + 1;
    }
    assert text[..|text|] == text;
    if buffer != [] {
      EmittedAppend(added, DrawText(cursorX, cursorY, buffer, font, color));
      added := added + [DrawText(cursorX, cursorY, buffer, font, color)];
    }
  }

  /** `_update_source_view_display_list(text, x, color, font)`: the text is cut at spaces
      and newlines into words, each drawn where the cursor stands; a newline, or a next
      word that would pass the right edge, moves the cursor to `x` on a new line. An
      empty text leaves the pen as it was. */
  method SourceViewText(p: Pen, text: string, x: int, color: string, font: Font, mt: Metrics, screenWidth: int)
    returns (r: Pen)
    ensures text == [] ==> r == p
    ensures |p.displayList| <= |r.displayList| && r.displayList[..|p.displayList|] == p.displayList
    ensures forall k :: |p.displayList| <= k < |r.displayList| ==>
      r.displayList[k].DrawText? && r.displayList[k].text != [] && r.displayList[k].color == color && r.displayList[k].font == font
    ensures Emitted(r.displayList[|p.displayList|..]) == Visible(text)
    ensures r.cursorY >= p.cursorY
  {
    if text == [] {
      return p;
    }
    var added, cursorX, cursorY := SourceRuns(text, x, p.cursorY, color, font, mt, screenWidth);
    r := Pen(p.displayList + added, cursorX, cursorY);
    assert r.displayList[|p.displayList|..] == added;
    assert forall k :: |p.displayList| <= k < |r.displayList| ==> r.displayList[k] == added[k - |p.displayList|];
  }

  /** One more character of the text adds itself to what is visible, unless it is a
      space or a newline. */
  lemma VisibleStep(text: string, i: int)
    requires 0 <= i < |text|
    ensures Visible(text[..i + 1]) == Visible(text[..i]) + (if text[i] == ' ' || text[i] == '\n' then [] else [text[i]])
  {
    assert text[..i + 1][..i] == text[..i];
  }

  lemma EmittedAppend(cmds: seq<DrawCmd>, c: DrawCmd)
    ensures Emitted(cmds + [c]) == Emitted(cmds) + (if c.DrawText? then c.text else [])
  {
    assert (cmds + [c])[..|cmds|] == cmds;
  }
}

=== FILE: nodes.dfy ===
/** The document tree: the closed set of node kinds the markup parser builds. */
module Nodes {

  /** A node below the root. Only `Element` has children; `DocumentType`, `Text` and
      `Comment` are leaves. Tags, text and comment bodies are stored exactly as given.
      Elements carry no attributes. Parent back-references are not stored: a node's
      parent is the node whose `children` holds it. */
  datatype Node =
    | DocumentType
    | Element(tag: string, children: seq<Node>)
    | Text(text: string)
    | Comment(comment: string)

  /** The root of a parsed page. */
  datatype Document = Document(children: seq<Node>)

  /** A name/value pair. Nothing in the tree refers to it. */
  datatype Attribute = Attribute(name: string, value: string)

  /** `Document()`: a root with no children yet. */
  function NewDocument(): (d: Document)
    ensures d.children == []
  {
    Document([])
  }

  /** `Element(tag, parent)`: a childless element with the tag as given. */
  function NewElement(tag: string): (n: Node)
    ensures n.Element? && n.tag == tag && n.children == []
  {
    Element(tag, [])
  }

  /** `Element.add_child`: the new child goes last and the earlier children stay as they were. */
  function AddChild(n: Node, child: Node): (r: Node)
    requires n.Element?
    ensures r.Element? && r.tag == n.tag
    ensures |r.children| == |n.children| + 1
    ensures r.children[..|n.children|] == n.children && r.children[|n.children|] == child
  {
    n.(children := n.children + [child])
  }

  /** `Document.add_child`, with the same promise. */
  function AddDocumentChild(d: Document, child: Node): (r: Document)
    ensures |r.children| == |d.children| + 1
    ensures r.children[..|d.children|] == d.children && r.children[|d.children|] == child
  {
    d.(children := d.children + [child])
  }
}

=== FILE: scrollbar.dfy ===
/** Scroll offsets, their limits, and the geometry and mouse handling of the two scrollbars. */
module Scrollbar {
  import opened Wrappers
  import Draw

  const ScrollStep: int := 100
  const MinVScroll: int := 0
  const MinHScroll: int := 0
  const ScrollbarWidth: int := 15
  /** The smallest thumb length. */
  const MinThumb: int := 20

  /** A scrollbar's state. The redraw callback a tab passes in is the tab's `draw`, which
      recomputes the limits before it paints; the functions here are the scrollbar's own
      part of each step, and the tab composes them with that redraw. */
  datatype Scrollbar = Scrollbar(
    screenWidth: int, screenHeight: int,
    vScroll: int, hScroll: int,
    maxV: int, maxH: int,
    draggingV: bool, draggingH: bool,
    dragStartY: int, dragStartX: int, dragStartScroll: int)

  /** The truncated results of the floating-point expressions, which are not modelled:
      `scaled(a, b, c)` stands for `int(a / b * c)` and `shifted(s, a, b, c)` for
      `int(s + a / b * c)`. */
  datatype FloatOps = FloatOps(scaled: (int, int, int) -> int, shifted: (int, int, int, int) -> int)

  /** `Scrollbar(screen_width, screen_height)` */
  function NewScrollbar(width: int, height: int): (s: Scrollbar)
    ensures InRange(s) && s.maxV == 0 && s.maxH == 0
    ensures !s.draggingV && !s.draggingH
    ensures s.screenWidth == width && s.screenHeight == height
  {
    Scrollbar(width, height, 0, 0, 0, 0, false, false, 0, 0, 0)
  }

  /** Both offsets lie within their limits. */
  predicate InRange(s: Scrollbar)
  {
    MinVScroll <= s.vScroll <= s.maxV && MinHScroll <= s.hScroll <= s.maxH
  }

  /** `update_screen_dimensions` */
  function UpdateScreenDimensions(s: Scrollbar, width: int, height: int): (r: Scrollbar)
    ensures r.screenWidth == width && r.screenHeight == height
    ensures r.(screenWidth := s.screenWidth, screenHeight := s.screenHeight) == s
  {
    s.(screenWidth := width, screenHeight := height)
  }

  /** `scroll_left`: one step left, stopping at the minimum. */
  function ScrollLeft(s: Scrollbar): (r: Scrollbar)
    ensures r == s.(hScroll := r.hScroll)
    ensures r.hScroll == (if s.hScroll - ScrollStep < MinHScroll then MinHScroll else s.hScroll - ScrollStep)
    ensures InRange(s) ==> InRange(r)
  {
    if s.hScroll - ScrollStep < MinHScroll then s.(hScroll := MinHScroll)
    else s.(hScroll := s.hScroll - ScrollStep)
  }

  /** `scroll_right`: one step right, stopping at the maximum. */
  function ScrollRight(s: Scrollbar): (r: Scrollbar)
    ensures r == s.(hScroll := r.hScroll)
    ensures r.hScroll == (if s.hScroll + ScrollStep > s.maxH then s.maxH else s.hScroll + ScrollStep)
    ensures InRange(s) ==> InRange(r)
  {
    if s.hScroll + ScrollStep > s.maxH then s.(hScroll := s.maxH)
    else s.(hScroll := s.hScroll + ScrollStep)
  }

  /** `scroll_down`: one step down, stopping at the maximum. */
  function ScrollDown(s: Scrollbar): (r: Scrollbar)
    ensures r == s.(vScroll := r.vScroll)
    ensures r.vScroll == (if s.vScroll + ScrollStep > s.maxV then s.maxV else s.vScroll + ScrollStep)
    ensures InRange(s) ==> InRange(r)
  {
    if s.vScroll + ScrollStep > s.maxV then s.(vScroll := s.maxV)
    else s.(vScroll := s.vScroll + ScrollStep)
  }

  /** `scroll_up`: one step up, stopping at the minimum. */
  function ScrollUp(s: Scrollbar): (r: Scrollbar)
    ensures r == s.(vScroll := r.vScroll)
    ensures r.vScroll == (if s.vScroll - ScrollStep < MinVScroll then MinVScroll else s.vScroll - ScrollStep)
    ensures InRange(s) ==> InRange(r)
  {
    if s.vScroll - ScrollStep < MinVScroll then s.(vScroll := MinVScroll)
    else s.(vScroll := s.vScroll - ScrollStep)
  }

  /** The four scroll keys. */
  datatype Key = Left | Right | Up | Down

  function Press(s: Scrollbar, k: Key): (r: Scrollbar)
    ensures r == s.(vScroll := r.vScroll, hScroll := r.hScroll)
    ensures InRange(s) ==> InRange(r)
  {
    match k
    case Left => ScrollLeft(s)
    case Right => ScrollRight(s)
    case Up => ScrollUp(s)
    case Down => ScrollDown(s)
  }

  function PressAll(s: Scrollbar, keys: seq<Key>): Scrollbar
    decreases |keys|
  {
    if keys == [] then s else PressAll(Press(s, keys[0]), keys[1..])
  }

  /** Any sequence of scroll steps keeps both offsets in range and changes nothing but
      the two offsets. */
  lemma {:induction false} PressAllInRange(s: Scrollbar, keys: seq<Key>)
    requires InRange(s)
    ensures InRange(PressAll(s, keys))
    ensures PressAll(s, keys) == s.(vScroll := PressAll(s, keys).vScroll, hScroll := PressAll(s, keys).hScroll)
    decreases |keys|
  {
    if keys != [] {
      PressAllInRange(Press(s, keys[0]), keys[1..]);
    }
  }

  /** At a limit the step toward it changes nothing. */
  lemma ScrollIdempotentAtLimits(s: Scrollbar)
    requires s.maxV >= 0 && s.maxH >= 0
    ensures s.vScroll == MinVScroll ==> ScrollUp(s) == s
    ensures s.vScroll == s.maxV ==> ScrollDown(s) == s
    ensures s.hScroll == MinHScroll ==> ScrollLeft(s) == s
    ensures s.hScroll == s.maxH ==> ScrollRight(s) == s
  {
  }

  /** An up step undoes a down step that did not hit the limit. */
  lemma UpUndoesDown(s: Scrollbar)
    requires InRange(s) && s.vScroll + ScrollStep <= s.maxV
    ensures ScrollUp(ScrollDown(s)) == s
  {
  }

  /** The space the page is drawn in: the screen minus any vertical scrollbar. */
  function EffectiveWidth(s: Scrollbar): int
  {
    s.screenWidth - (if s.maxV > 0 then ScrollbarWidth else 0)
  }

  /** The space the page is drawn in: the screen minus any horizontal scrollbar. */
  function EffectiveHeight(s: Scrollbar): int
  {
    s.screenHeight - (if s.maxH > 0 then ScrollbarWidth else 0)
  }

  /** The largest `x` of a non-empty display list. */
  function MaxX(cmds: seq<Draw.DrawCmd>): (m: int)
    requires cmds != []
    ensures exists k :: 0 <= k < |cmds| && cmds[k].x == m
    ensures forall k :: 0 <= k < |cmds| ==> cmds[k].x <= m
  {
    if |cmds| == 1 then cmds[0].x
    else
      var rest := MaxX(cmds[1..]);
      assert forall k :: 1 <= k < |cmds| ==> cmds[k] == cmds[1..][k - 1];
      if cmds[0].x >= rest then cmds[0].x else rest
  }

  /** `calc_max_scroll(display_list, font)`: both limits from the display list, each
      measured against the space left by the OTHER scrollbar as it stood before the call. */
  function CalcMaxScroll(s: Scrollbar, cmds: seq<Draw.DrawCmd>, linespace: int): (r: Scrollbar)
    ensures r == s.(maxV := r.maxV, maxH := r.maxH)
    ensures r.maxV >= 0 && r.maxH >= 0
    ensures cmds == [] ==> r.maxV == 0 && r.maxH == 0
    ensures cmds != [] ==> r.maxV >= cmds[|cmds| - 1].y - EffectiveHeight(s) + linespace
    ensures cmds != [] ==> forall k :: 0 <= k < |cmds| ==> r.maxH >= cmds[k].x - EffectiveWidth(s)
    ensures r.maxH == 0 <==> forall k :: 0 <= k < |cmds| ==> cmds[k].x <= EffectiveWidth(s)
    ensures r.maxV == 0 <==> cmds == [] || cmds[|cmds| - 1].y + linespace <= EffectiveHeight(s)
    ensures r.maxV > 0 ==> cmds != [] && r.maxV + EffectiveHeight(s) == cmds[|cmds| - 1].y + linespace
    ensures r.maxH > 0 ==> exists k :: 0 <= k < |cmds| && r.maxH + EffectiveWidth(s) == cmds[k].x
  {
    var effH := EffectiveHeight(s);
    var effW := EffectiveWidth(s);
    var v := if cmds != [] then cmds[|cmds| - 1].y - effH + linespace else 0;
    var h := if cmds != [] then MaxX(cmds) - effW else 0;
    s.(maxV := if v > 0 then v else 0, maxH := if h > 0 then h else 0)
  }

  /** `calc_max_scroll` as evidently intended: the same limits, and each offset pulled back
      into its new range, so that no redraw leaves the page scrolled past its end. */
  function CalcMaxScrollClamped(s: Scrollbar, cmds: seq<Draw.DrawCmd>, linespace: int): (r: Scrollbar)
    ensures InRange(r)
    ensures r.maxV == CalcMaxScroll(s, cmds, linespace).maxV && r.maxH == CalcMaxScroll(s, cmds, linespace).maxH
    ensures r == s.(maxV := r.maxV, maxH := r.maxH, vScroll := r.vScroll, hScroll := r.hScroll)
    ensures MinVScroll <= s.vScroll <= r.maxV ==> r.vScroll == s.vScroll
    ensures MinHScroll <= s.hScroll <= r.maxH ==> r.hScroll == s.hScroll
    ensures s.vScroll > r.maxV ==> r.vScroll == r.maxV
    ensures s.hScroll > r.maxH ==> r.hScroll == r.maxH
  {
    var c := CalcMaxScroll(s, cmds, linespace);
    c.(vScroll := Clamp(MinVScroll, c.maxV, c.vScroll), hScroll := Clamp(MinHScroll, c.maxH, c.hScroll))
  }

  /** A recomputation reads the screen size and the previous limits and nothing else, so
      limits a recomputation keeps are still kept after the offsets or the drag state
      change. */
  lemma SettledAfterMove(s: Scrollbar, r: Scrollbar, cmds: seq<Draw.DrawCmd>, linespace: int)
    requires CalcMaxScroll(s, cmds, linespace) == s
    requires r.screenWidth == s.screenWidth && r.screenHeight == s.screenHeight
    requires r.maxV == s.maxV && r.maxH == s.maxH
    ensures CalcMaxScroll(r, cmds, linespace) == r
  {
  }

  /** The vertical limit depends on the last command's `y` and on nothing else in the list. */
  lemma CalcMaxVUsesLastY(s: Scrollbar, a: seq<Draw.DrawCmd>, b: seq<Draw.DrawCmd>, linespace: int)
    requires a != [] && b != [] && a[|a| - 1].y == b[|b| - 1].y
    ensures CalcMaxScroll(s, a, linespace).maxV == CalcMaxScroll(s, b, linespace).maxV
  {
  }

  /** `(x, y, width, height)` */
  datatype Rect = Rect(x: int, y: int, width: int, height: int)

  datatype Bounds = Bounds(track: Rect, thumb: Rect)

  /** `get_v_scrollbar_bounds()`: none without vertical overflow; otherwise a track along the
      right edge, shortened when a horizontal bar is shown, and a thumb inside its column. */
  function VBounds(s: Scrollbar, f: FloatOps): (r: Option<Bounds>)
    ensures r.None? <==> s.maxV <= 0
    ensures r.Some? ==>
      r.value.track == Rect(s.screenWidth - ScrollbarWidth, 0, ScrollbarWidth,
                            s.screenHeight - (if s.maxH > 0 then ScrollbarWidth else 0))
      && r.value.thumb.x == r.value.track.x && r.value.thumb.width == ScrollbarWidth
      && r.value.thumb.height >= MinThumb
  {
    if s.maxV <= 0 then None
    else
      var trackX := s.screenWidth - ScrollbarWidth;
      var trackH := s.screenHeight - (if s.maxH > 0 then ScrollbarWidth else 0);
      var fit := f.scaled(s.screenHeight, s.maxV + s.screenHeight, trackH);
      var thumbH := if fit > MinThumb then fit else MinThumb;
      var thumbY := f.scaled(s.vScroll, s.maxV, trackH - thumbH);
      Some(Bounds(Rect(trackX, 0, ScrollbarWidth, trackH), Rect(trackX, thumbY, ScrollbarWidth, thumbH)))
  }

  /** `get_h_scrollbar_bounds()`: the same along the bottom edge. */
  function HBounds(s: Scrollbar, f: FloatOps): (r: Option<Bounds>)
    ensures r.None? <==> s.maxH <= 0
    ensures r.Some? ==>
      r.value.track == Rect(0, s.screenHeight - ScrollbarWidth,
                            s.screenWidth - (if s.maxV > 0 then ScrollbarWidth else 0), ScrollbarWidth)
      && r.value.thumb.y == r.value.track.y && r.value.thumb.height == ScrollbarWidth
      && r.value.thumb.width >= MinThumb
  {
    if s.maxH <= 0 then None
    else
      var trackY := s.screenHeight - ScrollbarWidth;
      var trackW := s.screenWidth - (if s.maxV > 0 then ScrollbarWidth else 0);
      var fit := f.scaled(s.screenWidth, s.maxH + s.screenWidth, trackW);
      var thumbW := if fit > MinThumb then fit else MinThumb;
      var thumbX := f.scaled(s.hScroll, s.maxH, trackW - thumbW);
      Some(Bounds(Rect(0, trackY, trackW, ScrollbarWidth), Rect(thumbX, trackY, thumbW, ScrollbarWidth)))
  }

  /** The page turned on its side: width and height, and the two axes, swap. */
  function Transpose(s: Scrollbar): Scrollbar
  {
    s.(screenWidth := s.screenHeight, screenHeight := s.screenWidth,
       vScroll := s.hScroll, hScroll := s.vScroll, maxV := s.maxH, maxH := s.maxV)
  }

  function FlipRect(r: Rect): Rect
  {
    Rect(r.y, r.x, r.height, r.width)
  }

  function FlipBounds(b: Option<Bounds>): Option<Bounds>
  {
    match b
    case None => None
    case Some(Bounds(track, thumb)) => Some(Bounds(FlipRect(track), FlipRect(thumb)))
  }

  /** The two bars are mirror images: the horizontal bar is the vertical bar of the page
      turned on its side, turned back. */
  lemma BarsAreSymmetric(s: Scrollbar, f: FloatOps)
    ensures HBounds(s, f) == FlipBounds(VBounds(Transpose(s), f))
  {
  }

  /** The content area and the bars' tracks share their edges exactly. */
  lemma TracksBorderContent(s: Scrollbar, f: FloatOps)
    ensures VBounds(s, f).Some? ==>
      VBounds(s, f).value.track.x == EffectiveWidth(s) && VBounds(s, f).value.track.height == EffectiveHeight(s)
    ensures HBounds(s, f).Some? ==>
      HBounds(s, f).value.track.y == EffectiveHeight(s) && HBounds(s, f).value.track.width == EffectiveWidth(s)
  {
  }

  /** `is_point_in_rect`: every edge counts as inside. */
  predicate IsPointInRect(x: int, y: int, r: Rect)
  {
    r.x <= x <= r.x + r.width && r.y <= y <= r.y + r.height
  }

  /** All four corners of a rectangle with non-negative sides are inside it, and a point
      one step beyond an edge is not. */
  lemma CornersInside(r: Rect)
    requires r.width >= 0 && r.height >= 0
    ensures IsPointInRect(r.x, r.y, r) && IsPointInRect(r.x + r.width, r.y, r)
    ensures IsPointInRect(r.x, r.y + r.height, r) && IsPointInRect(r.x + r.width, r.y + r.height, r)
    ensures !IsPointInRect(r.x - 1, r.y, r) && !IsPointInRect(r.x + r.width + 1, r.y, r)
    ensures !IsPointInRect(r.x, r.y - 1, r) && !IsPointInRect(r.x, r.y + r.height + 1, r)
  {
  }

  /** `max(MIN, min(MAX, n))`; when the range is empty the minimum wins. */
  function Clamp(lo: int, hi: int, n: int): (r: int)
    ensures lo <= hi ==> lo <= r <= hi
    ensures lo <= n <= hi ==> r == n
    ensures hi < lo ==> r == lo
  {
    var m := if n < hi then n else hi;
    if m < lo then lo else m
  }

  /** The point is on the bar's thumb. */
  predicate OnThumb(b: Option<Bounds>, x: int, y: int)
  {
    b.Some? && IsPointInRect(x, y, b.value.thumb)
  }

  /** The point is on the bar's track and not on its thumb. */
  predicate OnTrackOnly(b: Option<Bounds>, x: int, y: int)
  {
    b.Some? && !IsPointInRect(x, y, b.value.thumb) && IsPointInRect(x, y, b.value.track)
  }

  /** The bar's track, or an empty rectangle where there is no bar. */
  function Track(b: Option<Bounds>): Rect
  {
    if b.Some? then b.value.track else Rect(0, 0, 0, 0)
  }

  /** The point is anywhere on the bar. */
  predicate OnBar(b: Option<Bounds>, x: int, y: int)
  {
    OnThumb(b, x, y) || OnTrackOnly(b, x, y)
  }

  /** A press that calls the redraw callback: one on a track and not on its thumb, the
      vertical bar taking priority. A press on a thumb only starts a drag. */
  predicate ClickRedraws(s: Scrollbar, x: int, y: int, f: FloatOps)
  {
    OnTrackOnly(VBounds(s, f), x, y) || (!OnBar(VBounds(s, f), x, y) && OnTrackOnly(HBounds(s, f), x, y))
  }

  /** `scrollbar_click(x, y)`: a press on a thumb starts a drag; a press elsewhere on a
      track jumps the offset to the matching place; the vertical bar is tried first; a
      press anywhere else changes nothing. */
  function Click(s: Scrollbar, x: int, y: int, f: FloatOps): (r: Scrollbar)
    ensures s.vScroll <= s.maxV ==> r.vScroll <= r.maxV
    ensures MinVScroll <= s.vScroll ==> MinVScroll <= r.vScroll
    ensures s.hScroll <= s.maxH ==> r.hScroll <= r.maxH
    ensures MinHScroll <= s.hScroll ==> MinHScroll <= r.hScroll
    ensures r.maxV == s.maxV && r.maxH == s.maxH
    ensures r.screenWidth == s.screenWidth && r.screenHeight == s.screenHeight
    ensures r.draggingV && !s.draggingV ==>
      r == s.(draggingV := true, dragStartY := y, dragStartScroll := s.vScroll)
    ensures r.draggingH && !s.draggingH ==>
      r == s.(draggingH := true, dragStartX := x, dragStartScroll := s.hScroll)
    ensures r.vScroll != s.vScroll ==> r == s.(vScroll := r.vScroll)
    ensures r.hScroll != s.hScroll ==> r == s.(hScroll := r.hScroll)
    ensures VBounds(s, f).None? && HBounds(s, f).None? ==> r == s
    ensures OnThumb(VBounds(s, f), x, y) ==>
      r == s.(draggingV := true, dragStartY := y, dragStartScroll := s.vScroll)
    ensures OnTrackOnly(VBounds(s, f), x, y) ==>
      r == s.(vScroll := Clamp(MinVScroll, s.maxV, f.scaled(y - Track(VBounds(s, f)).y,
                                                          Track(VBounds(s, f)).height, s.maxV)))
    ensures !OnBar(VBounds(s, f), x, y) && OnThumb(HBounds(s, f), x, y) ==>
      r == s.(draggingH := true, dragStartX := x, dragStartScroll := s.hScroll)
    ensures !OnBar(VBounds(s, f), x, y) && OnTrackOnly(HBounds(s, f), x, y) ==>
      r == s.(hScroll := Clamp(MinHScroll, s.maxH, f.scaled(x - Track(HBounds(s, f)).x,
                                                          Track(HBounds(s, f)).width, s.maxH)))
    ensures !OnBar(VBounds(s, f), x, y) && !OnBar(HBounds(s, f), x, y) ==> r == s
  {
    var v := VBounds(s, f);
    if OnThumb(v, x, y) then
      s.(draggingV := true, dragStartY := y, dragStartScroll := s.vScroll)
    else if OnTrackOnly(v, x, y) then
      var track := Track(v);
      var jump := f.scaled(y - track.y, track.height, s.maxV);
      s.(vScroll := Clamp(MinVScroll, s.maxV, jump))
    else
      var h := HBounds(s, f);
      if OnThumb(h, x, y) then
        s.(draggingH := true, dragStartX := x, dragStartScroll := s.hScroll)
      else if OnTrackOnly(h, x, y) then
        var track := Track(h);
        var jump := f.scaled(x - track.x, track.width, s.maxH);
        s.(hScroll := Clamp(MinHScroll, s.maxH, jump))
      else s
  }

  /** `scrollbar_drag(x, y)`: while a thumb is held, the offset follows the mouse,
      clamped to its range; the vertical drag wins when both flags are set. */
  function Drag(s: Scrollbar, x: int, y: int, f: FloatOps): (r: Scrollbar)
    ensures r == s.(vScroll := r.vScroll, hScroll := r.hScroll)
    ensures r.vScroll != s.vScroll ==> s.draggingV && MinVScroll <= r.vScroll <= s.maxV && r.hScroll == s.hScroll
    ensures r.hScroll != s.hScroll ==> s.draggingH && !s.draggingV && MinHScroll <= r.hScroll <= s.maxH
    ensures InRange(s) ==> InRange(r)
    ensures !s.draggingV && !s.draggingH ==> r == s
  {
    if s.draggingV then
      var v := VBounds(s, f);
      if v.Some? then
        var usable := v.value.track.height - v.value.thumb.height;
        if usable > 0 then
          var moved := f.shifted(s.dragStartScroll, y - s.dragStartY, usable, s.maxV);
          s.(vScroll := Clamp(MinVScroll, s.maxV, moved))
        else s
      else s
    else if s.draggingH then
      var h := HBounds(s, f);
      if h.Some? then
        var usable := h.value.track.width - h.value.thumb.width;
        if usable > 0 then
          var moved := f.shifted(s.dragStartScroll, x - s.dragStartX, usable, s.maxH);
          s.(hScroll := Clamp(MinHScroll, s.maxH, moved))
        else s
      else s
    else s
  }

  /** A drag that calls the redraw callback: a thumb is held, its bar is shown and the
      track is longer than the thumb. */
  predicate DragRedraws(s: Scrollbar, f: FloatOps)
  {
    if s.draggingV then
      VBounds(s, f).Some? && VBounds(s, f).value.track.height - VBounds(s, f).value.thumb.height > 0
    else
      s.draggingH && HBounds(s, f).Some? && HBounds(s, f).value.track.width - HBounds(s, f).value.thumb.width > 0
  }

  /** `scrollbar_release()` */
  function Release(s: Scrollbar): (r: Scrollbar)
    ensures !r.draggingV && !r.draggingH
    ensures r == s.(draggingV := false, draggingH := false)
  {
    s.(draggingV := false, draggingH := false)
  }

  /** Released, a drag does nothing, whatever the mouse does. */
  lemma DragAfterRelease(s: Scrollbar, x: int, y: int, f: FloatOps)
    ensures Drag(Release(s), x, y, f) == Release(s)
  {
  }

  /** Clicks, drags and releases keep the offsets in range. */
  lemma MouseKeepsRange(s: Scrollbar, x: int, y: int, f: FloatOps)
    requires InRange(s)
    ensures InRange(Click(s, x, y, f)) && InRange(Drag(s, x, y, f)) && InRange(Release(s))
  {
  }
}

=== FILE: strings.dfy ===
/** The Python `str` operations the browser relies on, with Python's semantics written out. */
module Strings {

  /** `c.isspace()`: the characters Python treats as whitespace, which is also the set
      that `strip()`, `split()` and the regular expression class `\s` use. */
  predicate IsSpace(c: char)
  {
    var n := c as int;
    (9 <= n <= 13) || (28 <= n <= 32) || n == 0x85 || n == 0xA0 || n == 0x1680
    || (0x2000 <= n <= 0x200A) || n == 0x2028 || n == 0x2029 || n == 0x202F
    || n == 0x205F || n == 0x3000
  }

  predicate AllSpace(s: string)
  {
    forall k :: 0 <= k < |s| ==> IsSpace(s[k])
  }

  /** No whitespace at either end: what `strip()` guarantees. */
  predicate Stripped(s: string)
  {
    s == [] || (!IsSpace(s[0]) && !IsSpace(s[|s| - 1]))
  }

  predicate NoSpace(s: string)
  {
    forall k :: 0 <= k < |s| ==> !IsSpace(s[k])
  }

  /** The first index at or after `i` that does not hold whitespace. */
  function SpaceEnd(s: string, i: nat): (n: nat)
    requires i <= |s|
    ensures i <= n <= |s|
    ensures forall k :: i <= k < n ==> IsSpace(s[k])
    ensures n == |s| || !IsSpace(s[n])
    decreases |s| - i
  {
    if i < |s| && IsSpace(s[i]) then SpaceEnd(s, i + 1) else i
  }

  /** The last index at or before `j` after which everything up to `j` is whitespace. */
  function SpaceStart(s: string, j: nat): (n: nat)
    requires j <= |s|
    ensures n <= j
    ensures forall k :: n <= k < j ==> IsSpace(s[k])
    ensures n == 0 || !IsSpace(s[n - 1])
  {
    if j > 0 && IsSpace(s[j - 1]) then SpaceStart(s, j - 1) else j
  }

  /** `s.lstrip()` */
  function LStrip(s: string): (r: string)
    ensures |r| <= |s| && r == s[|s| - |r|..]
    ensures AllSpace(s[..|s| - |r|])
    ensures r == [] || !IsSpace(r[0])
  {
    s[SpaceEnd(s, 0)..]
  }

  /** `s.rstrip()` */
  function RStrip(s: string): (r: string)
    ensures |r| <= |s| && r == s[..|r|]
    ensures AllSpace(s[|r|..])
    ensures r == [] || !IsSpace(r[|r| - 1])
  {
    s[..SpaceStart(s, |s|)]
  }

  /** How much whitespace `strip()` cuts from the front of `s`. */
  function LeadingSpace(s: string): nat
  {
    |s| - |LStrip(s)|
  }

  /** `s.strip()`: the result is a contiguous piece of `s` with only whitespace cut away,
      and nothing but whitespace was cut. */
  function Strip(s: string): (r: string)
    ensures Stripped(r)
    ensures LeadingSpace(s) + |r| <= |s|
    ensures r == s[LeadingSpace(s)..LeadingSpace(s) + |r|]
    ensures AllSpace(s[..LeadingSpace(s)]) && AllSpace(s[LeadingSpace(s) + |r|..])
  {
    var l := LStrip(s);
    var r := RStrip(l);
    StripPieces(s, l, r);
    r
  }

  /** `s` is its leading whitespace, then `r`, then its trailing whitespace. */
  lemma StripPieces(s: string, l: string, r: string)
    requires |l| <= |s| && l == s[|s| - |l|..] && AllSpace(s[..|s| - |l|])
    requires l == [] || !IsSpace(l[0])
    requires |r| <= |l| && r == l[..|r|] && AllSpace(l[|r|..])
    requires r == [] || !IsSpace(r[|r| - 1])
    ensures Stripped(r)
    ensures r == s[|s| - |l|..|s| - |l| + |r|]
    ensures AllSpace(s[|s| - |l| + |r|..])
  {
    var a := |s| - |l|;
    assert s[a..][..|r|] == s[a..a + |r|];
    assert s[a..][|r|..] == s[a + |r|..];
    assert r == [] || r[0] == l[0];
  }

  lemma StripEmptyIffAllSpace(s: string)
    ensures Strip(s) == [] <==> AllSpace(s)
  {
    var a := LeadingSpace(s);
    var r := Strip(s);
    if r == [] {
      assert |LStrip(s)| == 0;
      forall k | 0 <= k < |s| ensures IsSpace(s[k]) {
        assert s[..a][k] == s[k];
      }
    } else {
      assert s[a] == r[0];
    }
  }

  lemma StripOfStripped(s: string)
    requires Stripped(s)
    ensures Strip(s) == s
  {
  }

  /** `s.startswith(p)` */
  predicate StartsWith(s: string, p: string)
  {
    |p| <= |s| && s[..|p|] == p
  }

  /** `s.endswith(p)` */
  predicate EndsWith(s: string, p: string)
  {
    |p| <= |s| && s[|s| - |p|..] == p
  }

  /** `sub` occurs in `s` at position `k`. */
  predicate MatchAt(s: string, sub: string, k: int)
  {
    0 <= k && k + |sub| <= |s| && s[k..k + |sub|] == sub
  }

  /** `s.find(sub, start)`: the first occurrence at or after `start`, or -1. */
  function Find(s: string, sub: string, start: nat): (r: int)
    ensures r == -1 || (start <= r && MatchAt(s, sub, r))
    ensures r == -1 ==> forall k :: start <= k ==> !MatchAt(s, sub, k)
    ensures r != -1 ==> forall k :: start <= k < r ==> !MatchAt(s, sub, k)
    decreases |s| - start
  {
    if start + |sub| > |s| then -1
    else if s[start..start + |sub|] == sub then start
    else Find(s, sub, start + 1)
  }

  /** `sub in s` */
  predicate Contains(s: string, sub: string)
  {
    Find(s, sub, 0) != -1
  }

  lemma ContainsIff(s: string, sub: string)
    ensures Contains(s, sub) <==> exists k :: MatchAt(s, sub, k)
  {
  }

  lemma ContainsChar(s: string, c: char)
    ensures Contains(s, [c]) <==> c in s
  {
    if c in s {
      var k :| 0 <= k < |s| && s[k] == c;
      assert MatchAt(s, [c], k);
    }
    if Contains(s, [c]) {
      var k := Find(s, [c], 0);
      assert s[k..k + 1] == [c];
      assert s[k] == c;
    }
  }

  /** `s.split(sep, 1)` unpacked into two names: `None` when the unpacking would raise
      because `sep` does not occur. */
  datatype Split = Split(before: string, after: string)

  function SplitOnce(s: string, sep: string): (r: Split)
    requires Contains(s, sep)
    ensures r.before + sep + r.after == s
    ensures !Contains(r.before, sep) || |sep| == 0
  {
    var k := Find(s, sep, 0);
    assert s == s[..k] + s[k..k + |sep|] + s[k + |sep|..];
    NoEarlierMatch(s, sep, k);
    Split(s[..k], s[k + |sep|..])
  }

  lemma NoEarlierMatch(s: string, sep: string, k: nat)
    requires k <= |s|
    requires forall m :: 0 <= m < k ==> !MatchAt(s, sep, m)
    ensures !Contains(s[..k], sep) || |sep| == 0
  {
    if |sep| > 0 && Contains(s[..k], sep) {
      var m := Find(s[..k], sep, 0);
      assert s[..k][m..m + |sep|] == s[m..m + |sep|];
      assert MatchAt(s, sep, m);
    }
  }

  /** A separator whose first character does not occur in `a` is first found right
      after `a`. */
  lemma SplitAfter(a: string, sep: string, b: string)
    requires |sep| > 0 && !(sep[0] in a)
    ensures Contains(a + sep + b, sep)
    ensures SplitOnce(a + sep + b, sep) == Split(a, b)
  {
    var s := a + sep + b;
    assert s[|a|..|a| + |sep|] == sep;
    assert MatchAt(s, sep, |a|);
    forall j | 0 <= j < |a|
      ensures !MatchAt(s, sep, j)
    {
      assert s[j] == a[j];
      if j + |sep| <= |s| {
        assert s[j..j + |sep|][0] == a[j];
      }
    }
    var k := Find(s, sep, 0);
    assert k == |a|;
    assert s[..k] == a;
    assert s[k + |sep|..] == b;
  }

  /** The maximal run of non-whitespace characters at the start of `s`. */
  function WordPrefix(s: string): (w: string)
    ensures |w| <= |s| && w == s[..|w|]
    ensures NoSpace(w)
    ensures |w| == |s| || IsSpace(s[|w|])
  {
    if |s| == 0 || IsSpace(s[0]) then [] else [s[0]] + WordPrefix(s[1..])
  }

  /** `s.split()`: the whitespace-separated words. */
  function Words(s: string): seq<string>
    decreases |s|
  {
    var t := LStrip(s);
    if t == [] then []
    else
      var w := WordPrefix(t);
      [w] + Words(t[|w|..])
  }

  /** No word is empty and no word holds whitespace. */
  lemma {:induction false} WordsAreWords(s: string)
    ensures forall k :: 0 <= k < |Words(s)| ==> Words(s)[k] != [] && NoSpace(Words(s)[k])
    decreases |s|
  {
    var t := LStrip(s);
    if t != [] {
      var w := WordPrefix(t);
      WordsAreWords(t[|w|..]);
      var ws := Words(s);
      assert ws == [w] + Words(t[|w|..]);
      forall k | 0 <= k < |ws| ensures ws[k] != [] && NoSpace(ws[k]) {
        if k > 0 { assert ws[k] == Words(t[|w|..])[k - 1]; }
      }
    }
  }

  /** `s` with every whitespace character removed. */
  function RemoveSpaces(s: string): string
  {
    if s == [] then [] else KeepNonSpace(s[0]) + RemoveSpaces(s[1..])
  }

  function KeepNonSpace(c: char): string
  {
    if IsSpace(c) then [] else [c]
  }

  function Concat(ws: seq<string>): string
  {
    if ws == [] then [] else ws[0] + Concat(ws[1..])
  }

  /** `sep.join(ws)` */
  function Join(ws: seq<string>, sep: string): string
  {
    if ws == [] then []
    else if |ws| == 1 then ws[0]
    else ws[0] + sep + Join(ws[1..], sep)
  }

  lemma RemoveSpacesAppend(a: string, b: string)
    ensures RemoveSpaces(a + b) == RemoveSpaces(a) + RemoveSpaces(b)
  {
    if a != [] {
      assert (a + b)[0] == a[0];
      assert (a + b)[1..] == a[1..] + b;
      RemoveSpacesAppend(a[1..], b);
      calc {
        RemoveSpaces(a + b);
        KeepNonSpace(a[0]) + RemoveSpaces(a[1..] + b);
        KeepNonSpace(a[0]) + (RemoveSpaces(a[1..]) + RemoveSpaces(b));
        (KeepNonSpace(a[0]) + RemoveSpaces(a[1..])) + RemoveSpaces(b);
      }
    } else {
      assert a + b == b;
    }
  }

  lemma RemoveSpacesAllSpace(s: string)
    requires AllSpace(s)
    ensures RemoveSpaces(s) == []
  {
    if s != [] { RemoveSpacesAllSpace(s[1..]); }
  }

  lemma RemoveSpacesNoSpace(s: string)
    requires NoSpace(s)
    ensures RemoveSpaces(s) == s
  {
    if s != [] { RemoveSpacesNoSpace(s[1..]); }
  }

  /** Leading whitespace contributes nothing once spaces are removed. */
  lemma RemoveLeadingSpace(s: string)
    ensures RemoveSpaces(s) == RemoveSpaces(LStrip(s))
  {
    var t := LStrip(s);
    var lead := s[..|s| - |t|];
    assert s == lead + t;
    RemoveSpacesAppend(lead, t);
    RemoveSpacesAllSpace(lead);
  }

  /** A text that starts with a word keeps that word whole once spaces are removed. */
  lemma RemoveFirstWord(t: string)
    ensures RemoveSpaces(t) == WordPrefix(t) + RemoveSpaces(t[|WordPrefix(t)|..])
  {
    var w := WordPrefix(t);
    assert t == w + t[|w|..];
    RemoveSpacesAppend(w, t[|w|..]);
    RemoveSpacesNoSpace(w);
  }

  /** The first word of `s`, then the words of what follows it. */
  lemma ConcatWordsStep(s: string)
    requires LStrip(s) != []
    ensures Concat(Words(s)) == WordPrefix(LStrip(s)) + Concat(Words(LStrip(s)[|WordPrefix(LStrip(s))|..]))
  {
    var t := LStrip(s);
    var w := WordPrefix(t);
    var rest := Words(t[|w|..]);
    assert Words(s) == [w] + rest;
    assert ([w] + rest)[1..] == rest;
  }

  /** The words of `s` are exactly its non-whitespace characters, in order. */
  lemma {:induction false} WordsCoverText(s: string)
    ensures Concat(Words(s)) == RemoveSpaces(s)
    decreases |s|
  {
    var t := LStrip(s);
    RemoveLeadingSpace(s);
    if t != [] {
      var w := WordPrefix(t);
      RemoveFirstWord(t);
      ConcatWordsStep(s);
      WordsCoverText(t[|w|..]);
    }
  }

  /** Text that is already free of whitespace is one word, or none if it is empty. */
  lemma WordsOfWord(s: string)
    requires NoSpace(s)
    ensures Words(s) == (if s == [] then [] else [s])
  {
    if s != [] {
      assert LStrip(s) == s;
      WordPrefixOfWord(s);
      assert s[|s|..] == [];
    }
  }

  lemma WordPrefixOfWord(s: string)
    requires NoSpace(s)
    ensures WordPrefix(s) == s
  {
    if s != [] { WordPrefixOfWord(s[1..]); }
  }

  function AsciiLower(c: char): char
  {
    if 'A' <= c <= 'Z' then (c as int + 32) as char else c
  }

  /** Case-insensitive equality of `s` with a lower-case ASCII word `lit`, as an
      IGNORECASE regular expression compares the letters of "doctype" and "html". */
  predicate EqualsIgnoreCase(s: string, lit: string)
  {
    |s| == |lit| && forall k :: 0 <= k < |s| ==> AsciiLower(s[k]) == lit[k]
  }

  /** `s.lstrip(c)` */
  function LStripChar(s: string, c: char): (r: string)
    ensures |r| <= |s| && r == s[|s| - |r|..]
    ensures r == [] || r[0] != c
    ensures forall k :: 0 <= k < |s| - |r| ==> s[k] == c
  {
    if |s| > 0 && s[0] == c then LStripChar(s[1..], c) else s
  }

  /** Concatenation regroups freely. */
  lemma ConcatAssoc<T>(a: seq<T>, b: seq<T>, c: seq<T>)
    ensures a + (b + c) == (a + b) + c
  {
  }

  /** A non-empty sequence is its head followed by its tail. */
  lemma HeadTail<T>(s: seq<T>)
    requires |s| > 0
    ensures [s[0]] + s[1..] == s
  {
  }
}

=== FILE: tab.dfy ===
/** One browser tab: what it loads, its history, which commands of its display list
    reach the canvas, how links found in a page are resolved, and which way `parse`
    sends the loaded content. */
module Tab {
  import opened Wrappers
  import opened Strings
  import opened Draw
  import HistoryManager
  import Scrollbar
  import Url
  import UrlParser
  import Layout

  /** The title a new tab starts with. */
  const NewTabTitle: string := "New Tab"

  /** The tab's state. `title` is `None` when the base of the address was used as the
      title and there was none. `width` and `height` are the tab's own copy of the screen
      size, which the scrollbar also keeps. */
  datatype Tab = Tab(
    title: Option<string>,
    url: string,
    content: string,
    mediaType: string,
    displayList: seq<DrawCmd>,
    history: HistoryManager.History,
    scroll: Scrollbar.Scrollbar,
    width: int,
    height: int)

  /** The tab and its scrollbar agree on the screen size and the history is in a state
      the history's own operations can reach. */
  predicate Valid(t: Tab)
  {
    t.width == t.scroll.screenWidth && t.height == t.scroll.screenHeight
    && HistoryManager.Reachable(t.history)
  }

  /** `Tab(screen_width, screen_height, canvas)`: nothing loaded, nothing to draw. */
  function NewTab(width: int, height: int): (t: Tab)
    ensures Valid(t)
    ensures t.title == Some(NewTabTitle) && t.url == [] && t.content == [] && t.mediaType == "text/plain"
    ensures t.displayList == [] && t.history == HistoryManager.Init()
    ensures Scrollbar.InRange(t.scroll) && t.scroll.maxV == 0 && t.scroll.maxH == 0
    ensures t.width == width && t.height == height
  {
    Tab(Some(NewTabTitle), "", "", "text/plain", [], HistoryManager.Init(),
        Scrollbar.NewScrollbar(width, height), width, height)
  }

  /** `_update_screen_dimensions`: the tab and its scrollbar take the new size together. */
  function UpdateScreenDimensions(t: Tab, width: int, height: int): (r: Tab)
    ensures r.width == width && r.height == height
    ensures Valid(t) ==> Valid(r)
    ensures r.(width := t.width, height := t.height, scroll := t.scroll) == t
    ensures r.scroll.(screenWidth := t.scroll.screenWidth, screenHeight := t.scroll.screenHeight) == t.scroll
  {
    t.(width := width, height := height,
       scroll := Scrollbar.UpdateScreenDimensions(t.scroll, width, height))
  }

  // ---------------------------------------------------------------- history

  /** `get_prev_history_url`: the entry before the current one, or `None` where the
      history raises. The index the history moved stays moved, even when the read that
      followed raised. */
  function PrevUrl(t: Tab): (r: (Option<string>, Tab))
    ensures r.1 == t.(history := r.1.history) && r.1.history.items == t.history.items
    ensures Valid(t) ==> Valid(r.1)
    ensures Valid(t) ==> (r.0.Some? <==> t.history.current > 0 && t.history.items != [])
    ensures Valid(t) && r.0.Some? ==> r.0.value == t.history.items[t.history.current - 1]
    ensures t.history.current > 0 ==> r.1.history.current == t.history.current - 1
    ensures t.history.current <= 0 ==> r == (None, t)
  {
    var (res, h) := HistoryManager.Back(t.history);
    (if res.Ok? then Some(res.value) else None, t.(history := h))
  }

  /** `get_next_history_url`: the entry after the current one, or `None`. */
  function NextUrl(t: Tab): (r: (Option<string>, Tab))
    ensures r.1 == t.(history := r.1.history)
    ensures Valid(t) ==> Valid(r.1)
    ensures Valid(t) ==> (r.0.Some? <==> t.history.current < |t.history.items| - 1)
    ensures Valid(t) && r.0.Some? ==>
      r.0.value == t.history.items[t.history.current + 1] && r.1.history.current == t.history.current + 1
    ensures Valid(t) && r.0.None? ==> r.1 == t
  {
    var (res, h) := HistoryManager.Forward(t.history);
    (if res.Ok? then Some(res.value) else None, t.(history := h))
  }

  /** A step back followed by a step forward returns to the same tab and names the
      address that was current. */
  lemma PrevThenNext(t: Tab)
    requires Valid(t) && PrevUrl(t).0.Some?
    ensures NextUrl(PrevUrl(t).1) == (Some(t.history.items[t.history.current]), t)
  {
    HistoryManager.ReachableValid(t.history);
    HistoryManager.BackThenForward(t.history);
  }

  /** `clear_history`: the history's `clear`, which empties the list and leaves the
      index where it was. */
  function ClearHistory(t: Tab): (r: Tab)
    ensures r == t.(history := r.history)
    ensures r.history.items == [] && r.history.current == t.history.current
    ensures Valid(t) ==> Valid(r)
  {
    t.(history := HistoryManager.Clear(t.history))
  }

  /** After clearing there is nothing to go back or forward to: both answer `None`, the
      list stays empty, and forward changes nothing. */
  lemma ClearHistoryForgets(t: Tab)
    requires Valid(t)
    ensures PrevUrl(ClearHistory(t)).0 == None && PrevUrl(ClearHistory(t)).1.history.items == []
    ensures NextUrl(ClearHistory(t)) == (None, ClearHistory(t))
  {
    HistoryManager.ClearedRaises(t.history);
  }

  /** The index `clear` leaves behind is forgotten by the next visit: the history is then
      the same as after a clear that also reset the index. */
  lemma ClearHistoryThenAdd(t: Tab, url: string)
    requires Valid(t)
    ensures HistoryManager.Add(ClearHistory(t).history, url)
         == HistoryManager.Add(HistoryManager.ClearReset(t.history), url)
         == HistoryManager.History([url], 0)
  {
    HistoryManager.AddAfterClear(t.history, url);
  }

  // ---------------------------------------------------------------- links

  /** How an optional base is written into an f-string: a missing one reads `None`. */
  function BaseText(base: Option<string>): (r: string)
    ensures base.Some? ==> r == base.value
    ensures base.None? ==> r == "None"
  {
    match base
    case None => "None"
    case Some(b) => b
  }

  /** The link resolution of `load_css` and `load_js`: a link that mentions `http` is cut
      to start at its first `http`; any other link is appended to the base after a `/`,
      its own leading slashes dropped. */
  function ResolveLink(link: string, base: Option<string>): (r: string)
    ensures Contains(link, "http") ==>
      StartsWith(r, "http") && |r| <= |link| && r == link[|link| - |r|..]
      && !Contains(link[..|link| - |r|], "http")
    ensures !Contains(link, "http") ==>
      StartsWith(r, BaseText(base) + "/") && (|r| == |BaseText(base)| + 1 || r[|BaseText(base)| + 1] != '/')
  {
    var idx := Find(link, "http", 0);
    if idx == -1 then BaseText(base) + "/" + LStripChar(link, '/')
    else
      NoEarlierMatch(link, "http", idx);
      assert link[idx..][..4] == link[idx..idx + 4];
      link[idx..]
  }

  /** A relative link: the slashes at its head are dropped and the rest follows the base. */
  lemma ResolveRelative(slashes: string, rest: string, base: Option<string>)
    requires forall k :: 0 <= k < |slashes| ==> slashes[k] == '/'
    requires rest == [] || rest[0] != '/'
    requires !Contains(slashes + rest, "http")
    ensures ResolveLink(slashes + rest, base) == BaseText(base) + "/" + rest
  {
    var s := slashes + rest;
    var r := LStripChar(s, '/');
    var p := |s| - |r|;
    assert forall k :: 0 <= k < |slashes| ==> s[k] == '/';
    assert forall k :: 0 <= k < |rest| ==> s[|slashes| + k] == rest[k];
    assert r == s[|slashes|..] == rest;
  }

  /** A resolved absolute link resolves to itself, against any base. */
  lemma ResolveAbsoluteStable(link: string, base: Option<string>, base': Option<string>)
    requires Contains(link, "http")
    ensures ResolveLink(ResolveLink(link, base), base') == ResolveLink(link, base)
  {
    var r := ResolveLink(link, base);
    assert MatchAt(r, "http", 0);
    assert Find(r, "http", 0) == 0;
  }

  /** Against a base that starts with `http`, resolving is idempotent: every result
      then mentions `http`. */
  lemma ResolveAgainstHttp(link: string, base: Option<string>)
    requires base.Some? && StartsWith(base.value, "http")
    ensures ResolveLink(ResolveLink(link, base), base) == ResolveLink(link, base)
  {
    var r := ResolveLink(link, base);
    if Contains(link, "http") {
      ResolveAbsoluteStable(link, base, base);
    } else {
      var b := base.value;
      assert r[..|b|] == b;
      assert r[..4] == b[..4];
      assert MatchAt(r, "http", 0);
      assert Find(r, "http", 0) == 0;
    }
  }

  /** The base the tab derives from an http(s) address starts with `http`, so links
      resolved against it resolve to themselves again. */
  lemma ResolveIdempotent(link: string, url: string)
    requires UrlParser.ExtractBaseUrl(url).Some?
    ensures var base := UrlParser.ExtractBaseUrl(url);
            ResolveLink(ResolveLink(link, base), base) == ResolveLink(link, base)
  {
    var b := UrlParser.ExtractBaseUrl(url).value;
    assert StartsWith(b, "http") by {
      assert StartsWith(b, "http://") || StartsWith(b, "https://");
      assert StartsWith(b, "http://") ==> b[..4] == b[..7][..4];
      assert StartsWith(b, "https://") ==> b[..4] == b[..8][..4];
    }
    ResolveAgainstHttp(link, UrlParser.ExtractBaseUrl(url));
  }

  /** A fetched resource handed on: the resolved link and the body it returned. */
  datatype Resource = Resource(link: string, content: string)

  /** The media types `load_js` runs. */
  predicate IsScript(mediaType: string)
  {
    Contains(mediaType, "text/javascript") || Contains(mediaType, "application/javascript")
  }

  /** The media types `load_css` hands to the style parser. */
  predicate IsStylesheet(mediaType: string)
  {
    Contains(mediaType, "text/css")
  }

  /** Every link resolved against the same base, in order. */
  function Resolved(links: seq<string>, base: Option<string>): seq<string>
  {
    seq(|links|, k requires 0 <= k < |links| => ResolveLink(links[k], base))
  }

  /** The loop of `load_js` (and the fetching half of `load_css`) over the resolved
      links: each is requested and kept when its media type is accepted. A request that
      answers nothing raises on unpacking; that error is caught and the link skipped. */
  function Accepted(targets: seq<string>, request: string -> Option<Url.Response>,
                    accept: string -> bool): (r: seq<Resource>)
    ensures |r| <= |targets|
    ensures forall k :: 0 <= k < |r| ==> r[k].link in targets
    ensures forall k :: 0 <= k < |r| ==>
      request(r[k].link).Some? && accept(request(r[k].link).value.mediaType)
      && r[k].content == request(r[k].link).value.content
  {
    if targets == [] then []
    else
      var rest := Accepted(targets[1..], request, accept);
      match request(targets[0])
      case None => rest
      case Some(resp) => if accept(resp.mediaType) then [Resource(targets[0], resp.content)] + rest else rest
  }

  /** What the first link contributes: its resource when it answers with an accepted type,
      nothing otherwise. */
  function AcceptedHead(target: string, request: string -> Option<Url.Response>,
                        accept: string -> bool): seq<Resource>
  {
    match request(target)
    case None => []
    case Some(resp) => if accept(resp.mediaType) then [Resource(target, resp.content)] else []
  }

  lemma AcceptedStep(targets: seq<string>, request: string -> Option<Url.Response>,
                     accept: string -> bool)
    requires targets != []
    ensures Accepted(targets, request, accept)
         == AcceptedHead(targets[0], request, accept) + Accepted(targets[1..], request, accept)
  {
  }

  lemma AcceptedStepAppend(a: seq<string>, b: seq<string>, request: string -> Option<Url.Response>,
                           accept: string -> bool)
    requires a != []
    ensures Accepted(a + b, request, accept)
         == AcceptedHead(a[0], request, accept) + Accepted(a[1..] + b, request, accept)
  {
    assert (a + b)[0] == a[0];
    assert (a + b)[1..] == a[1..] + b;
    AcceptedStep(a + b, request, accept);
  }

  lemma JoinPieces<T>(ab: seq<T>, aa: seq<T>, bb: seq<T>, head: seq<T>, tail: seq<T>, a1: seq<T>)
    requires ab == head + tail && aa == head + a1 && tail == a1 + bb
    ensures ab == aa + bb
  {
    ConcatAssoc(head, a1, bb);
  }

  /** Links are handled in order: the resources of a concatenation are those of each part. */
  lemma {:induction false} AcceptedAppend(a: seq<string>, b: seq<string>, request: string -> Option<Url.Response>,
                                          accept: string -> bool)
    ensures Accepted(a + b, request, accept) == Accepted(a, request, accept) + Accepted(b, request, accept)
    decreases |a|
  {
    if a == [] {
      AcceptedNil(a, b, request, accept);
    } else {
      AcceptedAppend(a[1..], b, request, accept);
      AcceptedAppendCons(a, b, request, accept);
    }
  }

  lemma AcceptedNil(a: seq<string>, b: seq<string>, request: string -> Option<Url.Response>,
                    accept: string -> bool)
    requires a == []
    ensures Accepted(a + b, request, accept) == Accepted(a, request, accept) + Accepted(b, request, accept)
  {
    assert a + b == b;
    assert Accepted(a, request, accept) == [];
    EmptyJoin(Accepted(a + b, request, accept), Accepted(a, request, accept), Accepted(b, request, accept));
  }

  lemma EmptyJoin<T>(ab: seq<T>, aa: seq<T>, bb: seq<T>)
    requires ab == bb && aa == []
    ensures ab == aa + bb
  {
  }

  /** The inductive step of `AcceptedAppend`. */
  lemma AcceptedAppendCons(a: seq<string>, b: seq<string>, request: string -> Option<Url.Response>,
                           accept: string -> bool)
    requires a != []
    requires Accepted(a[1..] + b, request, accept) == Accepted(a[1..], request, accept) + Accepted(b, request, accept)
    ensures Accepted(a + b, request, accept) == Accepted(a, request, accept) + Accepted(b, request, accept)
  {
    AcceptedStepAppend(a, b, request, accept);
    AcceptedStep(a, request, accept);
    JoinPieces(Accepted(a + b, request, accept), Accepted(a, request, accept), Accepted(b, request, accept),
               AcceptedHead(a[0], request, accept), Accepted(a[1..] + b, request, accept), Accepted(a[1..], request, accept));
  }

  /** When every link answers with an accepted type, nothing is skipped and each
      resource comes from the link at the same position. */
  lemma {:induction false} AcceptedKeepsAll(targets: seq<string>, request: string -> Option<Url.Response>,
                                            accept: string -> bool)
    requires forall j :: 0 <= j < |targets| ==>
      request(targets[j]).Some? && accept(request(targets[j]).value.mediaType)
    ensures |Accepted(targets, request, accept)| == |targets|
    ensures forall j :: 0 <= j < |targets| ==> Accepted(targets, request, accept)[j].link == targets[j]
  {
    if targets != [] {
      var rest := targets[1..];
      assert forall j :: 0 <= j < |rest| ==> rest[j] == targets[j + 1];
      AcceptedKeepsAll(rest, request, accept);
      AcceptedStep(targets, request, accept);
      var head := AcceptedHead(targets[0], request, accept);
      assert head == [Resource(targets[0], request(targets[0]).value.content)];
      LinksCons(targets, head, Accepted(rest, request, accept));
    }
  }

  lemma LinksCons(targets: seq<string>, head: seq<Resource>, rest: seq<Resource>)
    requires |targets| > 0 && |head| == 1 && head[0].link == targets[0]
    requires |rest| == |targets| - 1 && forall j :: 0 <= j < |rest| ==> rest[j].link == targets[j + 1]
    ensures |head + rest| == |targets|
    ensures forall j :: 0 <= j < |targets| ==> (head + rest)[j].link == targets[j]
  {
  }

  /** `load_js(links)`: the scripts run, in order, each with the link it came from. The
      links are resolved against the base of the tab's address. */
  function LoadJs(t: Tab, links: seq<string>, env: Url.Env): (r: seq<Resource>)
    ensures |r| <= |links|
    ensures forall k :: 0 <= k < |r| ==>
      r[k].link in Resolved(links, UrlParser.ExtractBaseUrl(t.url))
      && Url.Fetch(r[k].link, env).Some? && IsScript(Url.Fetch(r[k].link, env).value.mediaType)
  {
    Accepted(Resolved(links, UrlParser.ExtractBaseUrl(t.url)), url => Url.Fetch(url, env), IsScript)
  }

  /** The stylesheets `load_css` fetches and would hand to the style parser, in order. */
  function CssSheets(t: Tab, links: seq<string>, env: Url.Env): (r: seq<Resource>)
    ensures |r| <= |links|
    ensures forall k :: 0 <= k < |r| ==>
      r[k].link in Resolved(links, UrlParser.ExtractBaseUrl(t.url))
      && Url.Fetch(r[k].link, env).Some? && IsStylesheet(Url.Fetch(r[k].link, env).value.mediaType)
  {
    Accepted(Resolved(links, UrlParser.ExtractBaseUrl(t.url)), url => Url.Fetch(url, env), IsStylesheet)
  }

  // ---------------------------------------------------------------- drawing

  /** The width left for the page: the screen minus the vertical scrollbar, when the page
      can scroll vertically. */
  function EffectiveWidth(t: Tab): (w: int)
    ensures w == t.width - Scrollbar.ScrollbarWidth <==> t.scroll.maxV > 0
    ensures w == t.width <==> t.scroll.maxV <= 0
    ensures Valid(t) ==> w == Scrollbar.EffectiveWidth(t.scroll)
  {
    t.width - (if t.scroll.maxV > 0 then Scrollbar.ScrollbarWidth else 0)
  }

  /** The height left for the page: the screen minus the horizontal scrollbar, when the
      page can scroll horizontally. */
  function EffectiveHeight(t: Tab): (h: int)
    ensures h == t.height - Scrollbar.ScrollbarWidth <==> t.scroll.maxH > 0
    ensures h == t.height <==> t.scroll.maxH <= 0
    ensures Valid(t) ==> h == Scrollbar.EffectiveHeight(t.scroll)
  {
    t.height - (if t.scroll.maxH > 0 then Scrollbar.ScrollbarWidth else 0)
  }

  /** The culling test of `draw`: a command is skipped when it starts below the visible
      area or more than a line above it, or right of it or left of it. */
  function Shown(c: DrawCmd, hScroll: int, vScroll: int, effW: int, effH: int): (b: bool)
    ensures b <==> hScroll <= c.x <= hScroll + effW && vScroll - Layout.VStep <= c.y <= vScroll + effH
  {
    !(c.y > vScroll + effH || c.y + Layout.VStep < vScroll)
    && !(c.x > hScroll + effW || c.x < hScroll)
  }

  /** Where a canvas call starts, in screen coordinates. */
  function AnchorX(op: CanvasOp): int
  {
    if op.CreateText? then op.tx else op.x0
  }

  function AnchorY(op: CanvasOp): int
  {
    if op.CreateText? then op.ty else op.y0
  }

  /** A canvas call that starts inside the visible area, allowing one line above it. */
  predicate OnCanvas(op: CanvasOp, effW: int, effH: int)
  {
    0 <= AnchorX(op) <= effW && -Layout.VStep <= AnchorY(op) <= effH
  }

  /** The loop of `draw`: the commands that pass the test, executed at the scroll
      offsets, in display-list order. */
  function Cull(cmds: seq<DrawCmd>, hScroll: int, vScroll: int, effW: int, effH: int): (r: seq<CanvasOp>)
    ensures |r| <= |cmds|
    ensures forall k :: 0 <= k < |r| ==> OnCanvas(r[k], effW, effH)
    ensures (forall k :: 0 <= k < |cmds| ==> !Shown(cmds[k], hScroll, vScroll, effW, effH)) ==> r == []
  {
    if cmds == [] then []
    else
      var rest := Cull(cmds[1..], hScroll, vScroll, effW, effH);
      assert forall k :: 1 <= k < |cmds| ==> cmds[1..][k - 1] == cmds[k];
      if Shown(cmds[0], hScroll, vScroll, effW, effH) then [Execute(cmds[0], hScroll, vScroll)] + rest
      else rest
  }

  /** Culling keeps order: the calls for a concatenation are those of each part. */
  lemma {:induction false} CullAppend(a: seq<DrawCmd>, b: seq<DrawCmd>, hScroll: int, vScroll: int, effW: int, effH: int)
    ensures Cull(a + b, hScroll, vScroll, effW, effH)
         == Cull(a, hScroll, vScroll, effW, effH) + Cull(b, hScroll, vScroll, effW, effH)
  {
    if a != [] {
      assert (a + b)[0] == a[0];
      assert (a + b)[1..] == a[1..] + b;
      CullAppend(a[1..], b, hScroll, vScroll, effW, effH);
    } else {
      assert a + b == b;
    }
  }

  /** When every command is in view, each is executed exactly once and in place. */
  lemma {:induction false} CullAllShown(cmds: seq<DrawCmd>, hScroll: int, vScroll: int, effW: int, effH: int)
    requires forall k :: 0 <= k < |cmds| ==> Shown(cmds[k], hScroll, vScroll, effW, effH)
    ensures |Cull(cmds, hScroll, vScroll, effW, effH)| == |cmds|
    ensures forall k :: 0 <= k < |cmds| ==> Cull(cmds, hScroll, vScroll, effW, effH)[k] == Execute(cmds[k], hScroll, vScroll)
  {
    if cmds != [] {
      assert forall k :: 1 <= k < |cmds| ==> cmds[1..][k - 1] == cmds[k];
      CullAllShown(cmds[1..], hScroll, vScroll, effW, effH);
    }
  }

  /** `draw()`: the scroll limits are recomputed from the display list, then the
      commands in view are executed. The scrollbars painted on top are not modelled. */
  function DrawTab(t: Tab, linespace: int): (r: (Tab, seq<CanvasOp>))
    ensures r.0 == t.(scroll := Scrollbar.CalcMaxScroll(t.scroll, t.displayList, linespace))
    ensures Valid(t) ==> Valid(r.0)
    ensures |r.1| <= |t.displayList|
    ensures forall k :: 0 <= k < |r.1| ==> OnCanvas(r.1[k], EffectiveWidth(r.0), EffectiveHeight(r.0))
  {
    var t1 := t.(scroll := Scrollbar.CalcMaxScroll(t.scroll, t.displayList, linespace));
    (t1, Cull(t.displayList, t1.scroll.hScroll, t1.scroll.vScroll, EffectiveWidth(t1), EffectiveHeight(t1)))
  }

  // ---------------------------------------------------------------- scrolling

  /** A redraw would compute the limits the tab already has. */
  predicate Settled(t: Tab, linespace: int)
  {
    Scrollbar.CalcMaxScroll(t.scroll, t.displayList, linespace) == t.scroll
  }

  /** A scroll key on the tab (window.py binds the arrows and the wheel to these): the
      scrollbar's step, then its callback, the tab's `draw`, which recomputes the limits
      from the stepped state. On a settled tab the limits stay, and so does the range. */
  function ScrollKey(t: Tab, k: Scrollbar.Key, linespace: int): (r: (Tab, seq<CanvasOp>))
    ensures r.0 == t.(scroll := r.0.scroll)
    ensures r.0.scroll.vScroll == Scrollbar.Press(t.scroll, k).vScroll
    ensures r.0.scroll.hScroll == Scrollbar.Press(t.scroll, k).hScroll
    ensures Valid(t) ==> Valid(r.0)
    ensures Settled(t, linespace) ==> Settled(r.0, linespace) && r.0.scroll == Scrollbar.Press(t.scroll, k)
    ensures Settled(t, linespace) && Scrollbar.InRange(t.scroll) ==> Scrollbar.InRange(r.0.scroll)
  {
    var pressed := t.(scroll := Scrollbar.Press(t.scroll, k));
    if Settled(t, linespace) then
      Scrollbar.SettledAfterMove(t.scroll, pressed.scroll, t.displayList, linespace);
      DrawTab(pressed, linespace)
    else DrawTab(pressed, linespace)
  }

  /** A mouse press on the tab: the scrollbar's click, and the redraw only when the press
      landed on a track. On a settled tab the limits stay, and so does the range. */
  function MouseDown(t: Tab, x: int, y: int, f: Scrollbar.FloatOps, linespace: int): (r: (Tab, Canvas))
    ensures r.0 == t.(scroll := r.0.scroll)
    ensures r.1.Showing? <==> Scrollbar.ClickRedraws(t.scroll, x, y, f)
    ensures !Scrollbar.ClickRedraws(t.scroll, x, y, f) ==> r.0.scroll == Scrollbar.Click(t.scroll, x, y, f)
    ensures Valid(t) ==> Valid(r.0)
    ensures Settled(t, linespace) ==> Settled(r.0, linespace) && r.0.scroll == Scrollbar.Click(t.scroll, x, y, f)
    ensures Settled(t, linespace) && Scrollbar.InRange(t.scroll) ==> Scrollbar.InRange(r.0.scroll)
  {
    var clicked := t.(scroll := Scrollbar.Click(t.scroll, x, y, f));
    if Settled(t, linespace) then
      Scrollbar.SettledAfterMove(t.scroll, clicked.scroll, t.displayList, linespace);
      Redrawn(clicked, Scrollbar.ClickRedraws(t.scroll, x, y, f), linespace)
    else Redrawn(clicked, Scrollbar.ClickRedraws(t.scroll, x, y, f), linespace)
  }

  /** The tab after a mouse step, redrawn when the step called the callback. */
  function Redrawn(t: Tab, redraw: bool, linespace: int): (r: (Tab, Canvas))
    ensures r.1.Showing? <==> redraw
    ensures !redraw ==> r.0 == t
    ensures r.0 == t.(scroll := r.0.scroll)
    ensures redraw ==> r.0.scroll == Scrollbar.CalcMaxScroll(t.scroll, t.displayList, linespace)
  {
    if redraw then
      var (t2, ops) := DrawTab(t, linespace);
      (t2, Showing(ops))
    else (t, Untouched)
  }


  /** Moving the held mouse on the tab: the scrollbar's drag, and the redraw only when a
      thumb with room to move is held. On a settled tab the limits stay, and so does the
      range. */
  function MouseDrag(t: Tab, x: int, y: int, f: Scrollbar.FloatOps, linespace: int): (r: (Tab, Canvas))
    ensures r.0 == t.(scroll := r.0.scroll)
    ensures r.1.Showing? <==> Scrollbar.DragRedraws(t.scroll, f)
    ensures !Scrollbar.DragRedraws(t.scroll, f) ==> r.0.scroll == Scrollbar.Drag(t.scroll, x, y, f)
    ensures Valid(t) ==> Valid(r.0)
    ensures Settled(t, linespace) ==> Settled(r.0, linespace) && r.0.scroll == Scrollbar.Drag(t.scroll, x, y, f)
    ensures Settled(t, linespace) && Scrollbar.InRange(t.scroll) ==> Scrollbar.InRange(r.0.scroll)
  {
    var dragged := t.(scroll := Scrollbar.Drag(t.scroll, x, y, f));
    if Settled(t, linespace) then
      Scrollbar.SettledAfterMove(t.scroll, dragged.scroll, t.displayList, linespace);
      Redrawn(dragged, Scrollbar.DragRedraws(t.scroll, f), linespace)
    else Redrawn(dragged, Scrollbar.DragRedraws(t.scroll, f), linespace)
  }

  /** The page one text command long, at (x, 480). */
  function OneLine(width: int, height: int, x: int): Tab
  {
    NewTab(width, height).(displayList := [DrawText(x, 480, "a", TextFont, "white")])
  }

  /** Redrawing never pulls an offset back into its range. Scrolled to the bottom of a
      page in a 900x400 window, a tab made 900x500 is redrawn with the limit 0 and the
      offset still 95. */
  lemma GrowAfterScrollLeavesRange()
    ensures var t1 := DrawTab(OneLine(900, 400, 0), 15).0;
            var t2 := ScrollKey(t1, Scrollbar.Down, 15).0;
            var t3 := DrawTab(UpdateScreenDimensions(t2, 900, 500), 15).0;
            Scrollbar.InRange(t2.scroll) && t3.scroll.vScroll == 95 && t3.scroll.maxV == 0
            && !Scrollbar.InRange(t3.scroll)
  {
  }

  /** Each limit is measured against the space the other bar left before the call, so
      after a resize the limits can alternate from one redraw to the next; a scroll key
      taken at the larger limit is then left past the smaller one by its own redraw. */
  lemma ScrollKeyLeavesRange()
    ensures var t1 := DrawTab(OneLine(900, 400, 790), 15).0;
            var t2 := DrawTab(UpdateScreenDimensions(t1, 800, 500), 15).0;
            var t3 := DrawTab(t2, 15).0;
            var t4 := ScrollKey(t3, Scrollbar.Down, 15).0;
            t2.scroll.maxV == 0 && t2.scroll.maxH == 5 && t3.scroll.maxV == 10 && t3.scroll.maxH == 0
            && Scrollbar.InRange(t3.scroll) && t4.scroll.vScroll == 10 && t4.scroll.maxV == 0
            && !Scrollbar.InRange(t4.scroll)
  {
  }

  // ---------------------------------------------------------------- parse and load

  /** Where `parse` sends the loaded content. */
  datatype Mode =
    | Cleared      // nothing loaded: the display list is emptied and nothing is drawn
    | SourceMode   // the markup shown as source text
    | PageMode     // laid out and rendered
    | FileMode     // shown character by character

  /** The dispatch of `parse`. */
  function ModeOf(content: string, url: string, mediaType: string): (m: Mode)
    ensures m == Cleared <==> content == [] || url == []
    ensures m == SourceMode <==>
      content != [] && url != [] && Contains(mediaType, "text/html") && StartsWith(url, "view-source:")
    ensures m == PageMode <==>
      content != [] && url != [] && Contains(mediaType, "text/html") && !StartsWith(url, "view-source:")
    ensures m == FileMode <==> content != [] && url != [] && !Contains(mediaType, "text/html")
  {
    if content == [] || url == [] then Cleared
    else if Contains(mediaType, "text/html") then
      if StartsWith(url, "view-source:") then SourceMode else PageMode
    else FileMode
  }

  /** The title `parse` leaves: the address itself for source and file views and for an
      inline `data:text/html` page, otherwise the page's own title, failing which the
      base of the address (which may be missing). `pageTitle` is what the title lookup
      found. */
  function TitleOf(t: Tab, pageTitle: Option<string>): (r: Option<string>)
    ensures ModeOf(t.content, t.url, t.mediaType) == Cleared ==> r == t.title
    ensures ModeOf(t.content, t.url, t.mediaType) in {SourceMode, FileMode} ==> r == Some(t.url)
    ensures ModeOf(t.content, t.url, t.mediaType) == PageMode ==>
      r == (if StartsWith(t.url, "data:text/html") then Some(t.url)
            else if pageTitle.Some? then pageTitle
            else UrlParser.ExtractBaseUrl(t.url))
  {
    match ModeOf(t.content, t.url, t.mediaType)
    case Cleared => t.title
    case SourceMode => Some(t.url)
    case FileMode => Some(t.url)
    case PageMode =>
      if StartsWith(t.url, "data:text/html") then Some(t.url)
      else if pageTitle.None? then UrlParser.ExtractBaseUrl(t.url)
      else pageTitle
  }

  /** What the canvas shows after a step: untouched, or cleared and then drawn on. */
  datatype Canvas = Untouched | Showing(ops: seq<CanvasOp>)

  /** `parse()`. The display list is emptied; with nothing loaded that is all. Otherwise
      the title is set for the mode, the list becomes `drawn` (what the layout object
      built for that mode) and the tab is drawn. */
  function Parse(t: Tab, pageTitle: Option<string>, drawn: seq<DrawCmd>, linespace: int): (r: (Tab, Canvas))
    ensures ModeOf(t.content, t.url, t.mediaType) == Cleared ==> r == (t.(displayList := []), Untouched)
    ensures ModeOf(t.content, t.url, t.mediaType) != Cleared ==>
      r.0.displayList == drawn && r.0.title == TitleOf(t, pageTitle) && r.1.Showing?
      && r.0 == t.(title := r.0.title, displayList := drawn, scroll := r.0.scroll)
    ensures Valid(t) ==> Valid(r.0)
  {
    if ModeOf(t.content, t.url, t.mediaType) == Cleared then (t.(displayList := []), Untouched)
    else
      var (t1, ops) := DrawTab(t.(title := TitleOf(t, pageTitle), displayList := drawn), linespace);
      (t1, Showing(ops))
  }

  /** The outcome of `load`: the tab afterwards, the error it raised, and the canvas. */
  datatype Loaded = Loaded(tab: Tab, error: Option<Error>, canvas: Canvas)

  /** `load(url, update_history)`. An empty address does nothing. Otherwise the address is
      taken and requested; a request that answers nothing cannot be unpacked and the call
      raises with only the address changed. An answer is stored, the address recorded in
      the history when asked, and the tab parsed and drawn once more. */
  function Load(t: Tab, url: string, updateHistory: bool, env: Url.Env,
                pageTitle: Option<string>, drawn: seq<DrawCmd>, linespace: int): (r: Loaded)
    ensures url == [] ==> r == Loaded(t, None, Untouched)
    ensures url != [] ==> r.tab.url == url && r.tab.width == t.width && r.tab.height == t.height
    ensures r.error.Some? <==> url != [] && Url.Fetch(url, env).None?
    ensures r.error.Some? ==> r.error.value == TypeError && r.tab == t.(url := url) && r.canvas.Untouched?
    ensures url != [] && Url.Fetch(url, env).Some? ==>
      r.tab.content == Url.Fetch(url, env).value.content
      && r.tab.mediaType == Url.Fetch(url, env).value.mediaType
      && r.tab.history == (if updateHistory then HistoryManager.Add(t.history, url) else t.history)
      && r.tab.displayList == (if r.tab.content == [] then [] else drawn)
      && r.canvas.Showing?
    ensures Valid(t) ==> Valid(r.tab)
  {
    if url == [] then Loaded(t, None, Untouched)
    else
      match Url.Fetch(url, env)
      case None => Loaded(t.(url := url), Some(TypeError), Untouched)
      case Some(resp) =>
        var t1 := t.(url := url, content := resp.content, mediaType := resp.mediaType,
                     history := if updateHistory then HistoryManager.Add(t.history, url) else t.history);
        var (t2, _) := Parse(t1, pageTitle, drawn, linespace);
        var (t3, ops) := DrawTab(t2, linespace);
        Loaded(t3, None, Showing(ops))
  }

  /** Loading fails exactly when the address, once any `view-source:` layers are peeled
      off, names a scheme the request has no branch for. */
  lemma LoadFailsIffUnsupported(t: Tab, url: string, updateHistory: bool, env: Url.Env,
                                pageTitle: Option<string>, drawn: seq<DrawCmd>, linespace: int)
    requires url != []
    ensures Load(t, url, updateHistory, env, pageTitle, drawn, linespace).error.Some?
        <==> Url.InnermostUnsupported(Url.Parse(url, env.fileExists), env.fileExists)
  {
    Url.FetchNoneIffUnsupported(url, env);
  }

  /** Reloading the address just loaded leaves the history as the first load left it. */
  lemma ReloadKeepsHistory(t: Tab, url: string, env: Url.Env,
                           pageTitle: Option<string>, drawn: seq<DrawCmd>, linespace: int)
    requires url != [] && Url.Fetch(url, env).Some?
    ensures var once := Load(t, url, true, env, pageTitle, drawn, linespace).tab;
            Load(once, url, true, env, pageTitle, drawn, linespace).tab.history == once.history
  {
  }

  /** A visit after `clear_history` records the same history as a visit after the
      corrected clear: the one address just loaded, and current. */
  lemma ClearHistoryThenLoad(t: Tab, url: string, env: Url.Env,
                             pageTitle: Option<string>, drawn: seq<DrawCmd>, linespace: int)
    requires Valid(t) && url != [] && Url.Fetch(url, env).Some?
    ensures Load(ClearHistory(t), url, true, env, pageTitle, drawn, linespace).tab.history
         == Load(t.(history := HistoryManager.ClearReset(t.history)), url, true, env, pageTitle, drawn, linespace).tab.history
         == HistoryManager.History([url], 0)
  {
  }
}

=== FILE: url.dfy ===
/** Address parsing, the requests that need no network, and the tag-stripping lexer. */
module Url {
  import opened Wrappers
  import opened Strings

  const SupportedSchemes: seq<string> := ["http", "https", "file", "data", "view-source", "about"]

  /** What `URL(url)` holds once its constructor returns. The constructor catches its own
      exceptions, so a failure is a state too: `Unsupported` when the scheme was read but
      is not supported, `Failed` when the constructor stopped before storing what
      `request` reads. */
  datatype Url =
    | Http(scheme: string, host: string, port: int, path: string)
    | File(path: string)
    | Data(mediaType: string, content: string)
    | ViewSource(inner: string)
    | About(path: string)
    | Unsupported(scheme: string)
    | Failed(error: Error)

  /** `(content, media type)` as `request` returns it. */
  datatype Response = Response(content: string, mediaType: string)

  /** Opening and reading a file as UTF-8 text: its text, `FileNotFoundError`, or any
      other failure (a directory, a permission, bytes that are not UTF-8). */
  datatype FileRead = Read(text: string) | NotFound | Unreadable

  /** What `request` reaches outside the process. `network` stands for the whole HTTP
      exchange (socket, TLS, headers, decoding, redirects, cache) and yields `None` where
      that code raises; `fileExists` is the existence test the constructor makes and
      `readFile` the read `request` makes later. */
  datatype Env = Env(network: (string, string, int, string) -> Option<Response>,
                     fileExists: string -> bool, readFile: string -> FileRead)

  predicate IsDigit(c: char)
  {
    '0' <= c <= '9'
  }

  predicate AllDigits(s: string)
  {
    forall k :: 0 <= k < |s| ==> IsDigit(s[k])
  }

  /** The value of a string of decimal digits. */
  function DigitsValue(s: string): nat
    requires AllDigits(s)
  {
    if s == [] then 0 else DigitsValue(s[..|s| - 1]) * 10 + (s[|s| - 1] as int - '0' as int)
  }

  /** `int(s)` on text: surrounding whitespace, an optional sign and at least one decimal
      digit, single underscores allowed between digits; anything else raises `ValueError`. */
  function PyInt(s: string): (r: Result<int>)
    ensures r.Err? ==> r.error == ValueError
  {
    var t := Strip(s);
    var neg := |t| > 0 && t[0] == '-';
    var digits := if |t| > 0 && (t[0] == '-' || t[0] == '+') then t[1..] else t;
    if !DigitGroups(digits) then Err(ValueError)
    else
      GroupsDrop(digits);
      var v: int := DigitsValue(DropUnderscores(digits));
      if neg then Ok(-v) else Ok(v)
  }

  /** Plain decimal digits read as their value. */
  lemma PyIntDigits(s: string)
    requires AllDigits(s) && s != []
    ensures PyInt(s) == Ok(DigitsValue(s))
  {
    StripOfDigits(s);
    DigitsGrouped(s);
    PyIntOfGroups(s);
    DropUnderscoresOfDigits(s);
  }

  lemma DigitsGrouped(s: string)
    requires AllDigits(s) && s != []
    ensures DigitGroups(s)
  {
  }

  lemma GroupsDrop(d: string)
    requires DigitGroups(d)
    ensures AllDigits(DropUnderscores(d))
  {
  }

  /** Decimal digits in groups: a digit first and last, and no two underscores in a row,
      so that every underscore stands between two digits. */
  predicate DigitGroups(s: string)
  {
    |s| > 0 && IsDigit(s[0]) && IsDigit(s[|s| - 1])
    && (forall k :: 0 <= k < |s| ==> IsDigit(s[k]) || s[k] == '_')
    && (forall k :: 0 < k < |s| && s[k] == '_' ==> s[k - 1] != '_')
  }

  /** The digits of a grouped number, underscores taken out. */
  function DropUnderscores(s: string): (r: string)
    ensures |r| <= |s|
    ensures (forall k :: 0 <= k < |s| ==> IsDigit(s[k]) || s[k] == '_') ==> AllDigits(r)
  {
    if s == [] then [] else (if s[0] == '_' then [] else [s[0]]) + DropUnderscores(s[1..])
  }

  lemma {:induction false} DropUnderscoresOfDigits(s: string)
    requires AllDigits(s)
    ensures DropUnderscores(s) == s
  {
    if s != [] {
      DropUnderscoresOfDigits(s[1..]);
      assert [s[0]] + s[1..] == s;
    }
  }

  lemma {:induction false} DropUnderscoresAppend(a: string, b: string)
    ensures DropUnderscores(a + b) == DropUnderscores(a) + DropUnderscores(b)
  {
    if a == [] {
      assert a + b == b;
    } else {
      var head := if a[0] == '_' then [] else [a[0]];
      DropCons(a, b);
      DropUnderscoresAppend(a[1..], b);
      ConcatAssoc(head, DropUnderscores(a[1..]), DropUnderscores(b));
    }
  }

  lemma DropCons(a: string, b: string)
    requires a != []
    ensures DropUnderscores(a + b) == (if a[0] == '_' then [] else [a[0]]) + DropUnderscores(a[1..] + b)
  {
    assert (a + b)[0] == a[0];
    assert (a + b)[1..] == a[1..] + b;
  }

  /** A run of digits has no surrounding whitespace to strip. */
  lemma StripOfDigits(s: string)
    requires AllDigits(s)
    ensures Strip(s) == s
  {
    if s != [] {
      assert !IsSpace(s[0]) && !IsSpace(s[|s| - 1]);
    }
    StripOfStripped(s);
  }

  /** An underscore between two groups of digits is read as if it were not there. */
  lemma PyIntGrouped(a: string, b: string)
    requires a != [] && b != [] && AllDigits(a) && AllDigits(b)
    ensures AllDigits(a + b)
    ensures PyInt(a + "_" + b) == Ok(DigitsValue(a + b))
  {
    var s := a + "_" + b;
    GroupedShape(a, b);
    DropGrouped(a, b);
    PyIntOfGroups(s);
  }

  /** A grouped number with nothing around it reads as its digits. */
  lemma PyIntOfGroups(s: string)
    requires DigitGroups(s) && Strip(s) == s
    ensures AllDigits(DropUnderscores(s))
    ensures PyInt(s) == Ok(DigitsValue(DropUnderscores(s)))
  {
    GroupsDrop(s);
    assert s[0] != '-' && s[0] != '+';
  }

  lemma GroupedShape(a: string, b: string)
    requires a != [] && b != [] && AllDigits(a) && AllDigits(b)
    ensures DigitGroups(a + "_" + b) && Strip(a + "_" + b) == a + "_" + b
  {
    var s := a + "_" + b;
    assert s[0] == a[0] && s[|s| - 1] == b[|b| - 1];
    assert !IsSpace(s[0]) && !IsSpace(s[|s| - 1]);
    StripOfStripped(s);
    forall k | 0 <= k < |s|
      ensures (IsDigit(s[k]) || s[k] == '_') && (0 < k && s[k] == '_' ==> s[k - 1] != '_')
    {
      if k < |a| {
        assert s[k] == a[k];
      } else if k > |a| {
        assert s[k] == b[k - |a| - 1];
      } else {
        assert s[k - 1] == a[|a| - 1];
      }
    }
  }

  lemma DropGrouped(a: string, b: string)
    requires AllDigits(a) && AllDigits(b)
    ensures AllDigits(a + b)
    ensures DropUnderscores(a + "_" + b) == a + b
  {
    AllDigitsConcat(a, b);
    DropUnderscoresAppend(a + "_", b);
    DropUnderscoresAppend(a, "_");
    DropUnderscoresOfDigits(a);
    DropUnderscoresOfDigits(b);
    DropUnderscore();
    assert a + [] == a;
  }

  lemma DropUnderscore()
    ensures DropUnderscores("_") == []
  {
    assert "_"[0] == '_' && "_"[1..] == [];
  }

  lemma AllDigitsConcat(a: string, b: string)
    requires AllDigits(a) && AllDigits(b)
    ensures AllDigits(a + b)
  {
    assert forall k :: 0 <= k < |a + b| ==> (a + b)[k] == if k < |a| then a[k] else b[k - |a|];
  }

  /** Decimal notation of a natural number, as `str(n)` writes it. */
  function ShowNat(n: nat): (s: string)
    ensures s != [] && AllDigits(s)
  {
    if n < 10 then [('0' as int + n) as char]
    else ShowNat(n / 10) + [('0' as int + n % 10) as char]
  }

  lemma {:induction false} DigitsOfShowNat(n: nat)
    ensures DigitsValue(ShowNat(n)) == n
  {
    var s := ShowNat(n);
    if n >= 10 {
      DigitsOfShowNat(n / 10);
      assert s[..|s| - 1] == ShowNat(n / 10);
    } else {
      assert s[..|s| - 1] == [];
    }
  }

  /** `int(str(n))` gives `n` back. */
  lemma PyIntShowNat(n: nat)
    ensures PyInt(ShowNat(n)) == Ok(n)
  {
    DigitsOfShowNat(n);
    PyIntDigits(ShowNat(n));
  }

  /** `s.split(sep, 1)[-1]`: what follows the first `sep`, or all of `s` when there is none. */
  function AfterFirst(s: string, sep: string): (r: string)
    ensures |r| <= |s|
    ensures !Contains(s, sep) ==> r == s
    ensures Contains(s, sep) ==> exists p :: s == p + sep + r && (|sep| == 0 || !Contains(p, sep))
  {
    if Contains(s, sep) then SplitOnce(s, sep).after else s
  }

  /** Does the text start with one of the three prefixes for which the scheme ends at the
      first `://`? A bare "http" also covers "https". */
  predicate SlashedScheme(url: string)
  {
    StartsWith(url, "http") || StartsWith(url, "https") || StartsWith(url, "file")
  }

  /** The scheme and the remainder, or `None` where unpacking the split raises. */
  function SplitScheme(url: string): (r: Option<Split>)
    ensures r.Some? ==> |r.value.after| < |url|
    ensures r.None? <==> !Contains(url, if SlashedScheme(url) then "://" else ":")
    ensures r.Some? ==> r.value.before + (if SlashedScheme(url) then "://" else ":") + r.value.after == url
    ensures r.Some? ==> !Contains(r.value.before, if SlashedScheme(url) then "://" else ":")
  {
    var sep := if SlashedScheme(url) then "://" else ":";
    if Contains(url, sep) then Some(SplitOnce(url, sep)) else None
  }

  /** The host and port part of an http(s) address and what follows its first `/`, after
      a `/` is appended to an address that has none. */
  function HostAndPath(rest: string): (r: Split)
    ensures !('/' in r.before)
    ensures r.before + "/" + r.after == if Contains(rest, "/") then rest else rest + "/"
  {
    var full := if Contains(rest, "/") then rest else rest + "/";
    assert MatchAt(rest + "/", "/", |rest|);
    var hp := SplitOnce(full, "/");
    ContainsChar(hp.before, '/');
    hp
  }

  /** Without a `/` the whole rest is the host part and the path after it is empty. */
  lemma HostAndPathNoSlash(rest: string)
    requires !('/' in rest)
    ensures HostAndPath(rest) == Split(rest, [])
  {
    ContainsChar(rest, '/');
    SplitAfter(rest, "/", []);
    assert rest + "/" + [] == rest + "/";
  }

  /** The http and https branch of the constructor, given what follows `://`. */
  function ParseHttp(scheme: string, rest: string): (r: Url)
    ensures r.Http? || r == Failed(ValueError)
    ensures r.Http? ==> r.scheme == scheme && !('/' in r.host) && |r.path| > 0 && r.path[0] == '/'
  {
    ReadHost(scheme, HostAndPath(rest))
  }

  /** The host part and the path once split at the first `/`. A host with a `:` names its
      port, which must read as an integer; otherwise the scheme's default port applies. */
  function ReadHost(scheme: string, hp: Split): (r: Url)
    ensures r.Http? || r == Failed(ValueError)
    ensures r.Http? ==> r.scheme == scheme && r.path == "/" + hp.after
    ensures r.Http? && !('/' in hp.before) ==> !('/' in r.host)
  {
    var port := if scheme == "http" then 80 else 443;
    if Contains(hp.before, ":") then
      var h := SplitOnce(hp.before, ":");
      assert forall c :: c in h.before ==> c in hp.before by {
        assert hp.before == h.before + ":" + h.after;
      }
      match PyInt(h.after)
      case Ok(p) => Http(scheme, h.before, p, "/" + hp.after)
      case Err(_) => Failed(ValueError)
    else
      Http(scheme, hp.before, port, "/" + hp.after)
  }

  /** A host part without `:` is the host itself, on the scheme's default port. */
  lemma ReadHostDefault(scheme: string, host: string, after: string)
    requires !(':' in host)
    ensures ReadHost(scheme, Split(host, after)) == Http(scheme, host, if scheme == "http" then 80 else 443, "/" + after)
  {
    ContainsChar(host, ':');
  }

  /** A host part `host:digits` gives that host and the port the digits spell. */
  lemma ReadHostPort(scheme: string, host: string, digits: string, port: int, after: string)
    requires !(':' in host) && PyInt(digits) == Ok(port)
    ensures ReadHost(scheme, Split(host + ":" + digits, after)) == Http(scheme, host, port, "/" + after)
  {
    ContainsChar(host, ':');
    SplitAfter(host, ":", digits);
  }

  /** The constructor once the scheme is split off. */
  function ParseRest(scheme: string, rest: string, fileExists: string -> bool): (r: Url)
    ensures r.ViewSource? ==> r.inner == rest
    ensures r.Unsupported? <==> !(scheme in SupportedSchemes)
    ensures r.Unsupported? ==> r.scheme == scheme
    ensures r.Failed? ==> r.error in {ValueError, AssertionError}
    ensures r.Http? ==> r.scheme in {"http", "https"} && !('/' in r.host) && |r.path| > 0 && r.path[0] == '/'
  {
    if !(scheme in SupportedSchemes) then Unsupported(scheme)
    else if scheme == "http" || scheme == "https" then ParseHttp(scheme, rest)
    else if scheme == "file" then
      var path := AfterFirst(rest, "/");
      if fileExists(path) then File(path) else Failed(AssertionError)
    else if scheme == "data" then
      if Contains(rest, ",") then
        var d := SplitOnce(rest, ",");
        Data(d.before, d.after)
      else Failed(ValueError)
    else if scheme == "view-source" then ViewSource(rest)
    else About(rest)
  }

  /** `URL(url)`: split off the scheme, check it, then read the rest by scheme. */
  function Parse(url: string, fileExists: string -> bool): (r: Url)
    ensures r.ViewSource? ==> |r.inner| < |url|
    ensures r.Failed? ==> r.error in {ValueError, AssertionError}
    ensures r.Unsupported? ==> !(r.scheme in SupportedSchemes)
    ensures r.Http? ==> r.scheme in {"http", "https"} && !('/' in r.host) && |r.path| > 0 && r.path[0] == '/'
  {
    match SplitScheme(url)
    case None => Failed(ValueError)
    case Some(sp) => ParseRest(sp.before, sp.after, fileExists)
  }

  const BlankPage: Response := Response("<html><body></body></html>", "text/html")
  const AboutPage: Response := Response("<html><body><h1>About Page</h1></body></html>", "text/html")

  /** `URL(url).request()` for every scheme. A constructor failure surfaces as an
      attribute error that is caught and answered with `about:blank`; an unsupported
      scheme matches no branch and the call returns `None`. */
  function Fetch(url: string, env: Env): (r: Option<Response>)
  {
    Answer(Parse(url, env.fileExists), env)
  }

  /** How many `view-source:` layers can still be peeled off. */
  function Depth(u: Url): nat
  {
    if u.ViewSource? then |u.inner| + 1 else 0
  }

  /** `request()` on a constructed address. */
  function Answer(u: Url, env: Env): (r: Option<Response>)
    decreases Depth(u)
  {
    match u
    case Http(scheme, host, port, path) => Some(env.network(scheme, host, port, path).GetOr(BlankPage))
    case File(path) =>
      Some(match env.readFile(path)
           case Read(text) => Response(text, "text/plain")
           case NotFound => Response("", "text/plain")
           case Unreadable => BlankPage)
    case Data(mediaType, content) => Some(Response(content, mediaType))
    case ViewSource(inner) => Answer(Parse(inner, env.fileExists), env)
    case About(path) => Some(if path == "blank" then BlankPage else AboutPage)
    case Unsupported(_) => None
    case Failed(_) => Some(BlankPage)
  }

  /** The scheme is the text before the first `://` for the three slashed prefixes and
      before the first `:` otherwise; without that separator the constructor fails, and
      with it the scheme alone decides whether the address is supported. */
  lemma SchemeSplit(url: string, fileExists: string -> bool)
    ensures SplitScheme(url).None? ==> Parse(url, fileExists) == Failed(ValueError)
    ensures SplitScheme(url).Some? ==>
      (Parse(url, fileExists).Unsupported? <==> !(SplitScheme(url).value.before in SupportedSchemes))
  {
  }

  /** Where the split lands for an address built from a scheme, its separator and a rest. */
  lemma SplitSchemeOf(scheme: string, sep: string, rest: string)
    requires sep == (if SlashedScheme(scheme + sep + rest) then "://" else ":")
    requires !(':' in scheme)
    ensures SplitScheme(scheme + sep + rest) == Some(Split(scheme, rest))
  {
    SplitAfter(scheme, sep, rest);
  }

  lemma ParseOf(url: string, scheme: string, rest: string, fileExists: string -> bool)
    requires SplitScheme(url) == Some(Split(scheme, rest))
    ensures Parse(url, fileExists) == ParseRest(scheme, rest, fileExists)
  {
  }

  /** A scheme not starting with `h` or `f` ends at the first `:`. */
  lemma ParseColon(scheme: string, rest: string, fileExists: string -> bool)
    requires |scheme| > 0 && scheme[0] != 'h' && scheme[0] != 'f' && !(':' in scheme)
    ensures Parse(scheme + ":" + rest, fileExists) == ParseRest(scheme, rest, fileExists)
  {
    var url := scheme + ":" + rest;
    assert url[0] == scheme[0];
    NotSlashed(url);
    SplitSchemeOf(scheme, ":", rest);
    ParseOf(url, scheme, rest, fileExists);
  }

  lemma HttpIsSlashed(scheme: string, rest: string)
    requires scheme == "http" || scheme == "https"
    ensures SlashedScheme(scheme + "://" + rest)
  {
    assert (scheme + "://" + rest)[..4] == "http";
  }

  /** An address whose first character is not `h` or `f` splits at its first `:`. */
  lemma NotSlashed(url: string)
    requires |url| > 0 && url[0] != 'h' && url[0] != 'f'
    ensures !SlashedScheme(url)
  {
    forall n | 1 <= n <= |url|
      ensures url[..n][0] == url[0]
    {
    }
  }

  lemma SlashRest(path: string)
    requires |path| > 0 && path[0] == '/'
    ensures "/" + path[1..] == path
  {
    assert ("/" + path[1..])[0] == path[0];
  }

  /** `host/path` splits at the slash after the host. */
  lemma HostAndPathOf(host: string, path: string)
    requires !('/' in host) && |path| > 0 && path[0] == '/'
    ensures HostAndPath(host + path) == Split(host, path[1..])
  {
    SlashRest(path);
    assert host + path == host + "/" + path[1..];
    SplitAfter(host, "/", path[1..]);
  }

  /** The http(s) branch on `host/path` with no port in the host. */
  lemma ParseHttpDefault(scheme: string, host: string, path: string)
    requires !(':' in host) && !('/' in host) && |path| > 0 && path[0] == '/'
    ensures ParseHttp(scheme, host + path) == Http(scheme, host, if scheme == "http" then 80 else 443, path)
  {
    HostAndPathOf(host, path);
    ContainsChar(host, ':');
    SlashRest(path);
  }

  lemma NoSlashInHostPort(host: string, digits: string)
    requires !('/' in host) && AllDigits(digits)
    ensures !('/' in host + ":" + digits)
  {
    assert forall k :: 0 <= k < |digits| ==> IsDigit(digits[k]);
  }

  /** The http(s) branch on `host:digits/path`. */
  lemma ParseHttpPort(scheme: string, host: string, digits: string, port: int, path: string)
    requires !(':' in host) && !('/' in host) && AllDigits(digits) && PyInt(digits) == Ok(port)
    requires |path| > 0 && path[0] == '/'
    ensures ParseHttp(scheme, host + ":" + digits + path) == Http(scheme, host, port, path)
  {
    var hostPart := host + ":" + digits;
    NoSlashInHostPort(host, digits);
    assert host + ":" + digits + path == hostPart + path;
    HostAndPathOf(hostPart, path);
    ReadHostPort(scheme, host, digits, port, path[1..]);
    SlashRest(path);
  }

  /** `scheme://host/path` with no port reads back as that host, the scheme's default port
      and the path. */
  lemma ParseHttpDefaultPort(scheme: string, host: string, path: string, fileExists: string -> bool)
    requires scheme == "http" || scheme == "https"
    requires !(':' in host) && !('/' in host)
    requires |path| > 0 && path[0] == '/'
    ensures Parse(scheme + "://" + host + path, fileExists) == Http(scheme, host, if scheme == "http" then 80 else 443, path)
  {
    var rest := host + path;
    assert scheme + "://" + host + path == scheme + "://" + rest;
    ParseHttpUrl(scheme, rest, fileExists);
    ParseHttpDefault(scheme, host, path);
  }

  /** An http(s) address is read by the http branch on everything after `://`. */
  lemma ParseHttpUrl(scheme: string, rest: string, fileExists: string -> bool)
    requires scheme == "http" || scheme == "https"
    ensures Parse(scheme + "://" + rest, fileExists) == ParseHttp(scheme, rest)
  {
    HttpIsSlashed(scheme, rest);
    assert !(':' in scheme) by {
      assert scheme[..] == scheme;
    }
    SplitSchemeOf(scheme, "://", rest);
    ParseOf(scheme + "://" + rest, scheme, rest, fileExists);
    assert scheme in SupportedSchemes;
  }

  /** An explicit port is read from the host part and removed from it. */
  lemma ParseHttpExplicitPort(scheme: string, host: string, port: nat, path: string, fileExists: string -> bool)
    requires scheme == "http" || scheme == "https"
    requires !(':' in host) && !('/' in host)
    requires |path| > 0 && path[0] == '/'
    ensures Parse(scheme + "://" + host + ":" + ShowNat(port) + path, fileExists) == Http(scheme, host, port, path)
  {
    var rest := host + ":" + ShowNat(port) + path;
    assert scheme + "://" + host + ":" + ShowNat(port) + path == scheme + "://" + rest;
    ParseHttpUrl(scheme, rest, fileExists);
    PyIntShowNat(port);
    ParseHttpPort(scheme, host, ShowNat(port), port, path);
  }

  /** "http://a" gets the path "/". */
  lemma ParseBareHost(fileExists: string -> bool)
    ensures Parse("http://a", fileExists) == Http("http", "a", 80, "/")
  {
    assert "http://a" == "http" + "://" + "a";
    HttpIsSlashed("http", "a");
    SplitSchemeOf("http", "://", "a");
    ParseOf("http://a", "http", "a", fileExists);
    HostAndPathNoSlash("a");
    ReadHostDefault("http", "a", []);
    assert "/" + [] == "/";
  }

  /** `file://p/q` with no `/` in `p` names the file `q`, which must exist when the
      address is parsed. For `file:///E:/dir/f` the path is `E:/dir/f`. */
  lemma ParseFile(p: string, q: string, fileExists: string -> bool)
    requires !('/' in p)
    ensures Parse("file://" + p + "/" + q, fileExists)
         == if fileExists(q) then File(q) else Failed(AssertionError)
  {
    var rest := p + "/" + q;
    assert "file://" + p + "/" + q == "file" + "://" + rest;
    assert ("file" + "://" + rest)[..4] == "file";
    assert !(':' in "file") by {
      assert "file"[..] == "file";
    }
    SplitSchemeOf("file", "://", rest);
    ParseOf("file" + "://" + rest, "file", rest, fileExists);
    SplitAfter(p, "/", q);
    assert "file" in SupportedSchemes;
  }

  /** What requesting `file://p/q` answers: the file's text, an empty page when it has
      gone by the time it is opened, and the blank page when it did not exist when parsed
      or cannot be read as text. */
  lemma FetchFile(p: string, q: string, env: Env)
    requires !('/' in p)
    ensures !env.fileExists(q) ==> Fetch("file://" + p + "/" + q, env) == Some(BlankPage)
    ensures env.fileExists(q) && env.readFile(q).Read? ==>
      Fetch("file://" + p + "/" + q, env) == Some(Response(env.readFile(q).text, "text/plain"))
    ensures env.fileExists(q) && env.readFile(q).NotFound? ==>
      Fetch("file://" + p + "/" + q, env) == Some(Response("", "text/plain"))
    ensures env.fileExists(q) && env.readFile(q).Unreadable? ==>
      Fetch("file://" + p + "/" + q, env) == Some(BlankPage)
  {
    ParseFile(p, q, env.fileExists);
  }

  /** A `data:` address is split at its first comma into media type and content. */
  lemma ParseData(mediaType: string, content: string, fileExists: string -> bool)
    requires !(',' in mediaType)
    ensures Parse("data:" + mediaType + "," + content, fileExists) == Data(mediaType, content)
  {
    var rest := mediaType + "," + content;
    assert "data:" + mediaType + "," + content == "data" + ":" + rest;
    ParseColon("data", rest, fileExists);
    SplitAfter(mediaType, ",", content);
    ParseRestData(rest, fileExists);
  }

  /** The `data` branch of the constructor once the scheme is known. */
  lemma ParseRestData(rest: string, fileExists: string -> bool)
    requires Contains(rest, ",")
    ensures ParseRest("data", rest, fileExists) == Data(SplitOnce(rest, ",").before, SplitOnce(rest, ",").after)
  {
    assert "data" in SupportedSchemes;
    assert "data"[0] == 'd';
  }

  /** A `data:` address answers with the text after the first comma, typed by the text
      before it. */
  lemma FetchData(mediaType: string, content: string, env: Env)
    requires !(',' in mediaType)
    ensures Fetch("data:" + mediaType + "," + content, env) == Some(Response(content, mediaType))
  {
    ParseData(mediaType, content, env.fileExists);
  }

  /** An `about:` address answers with the blank page exactly for `about:blank`. */
  lemma FetchAbout(path: string, env: Env)
    ensures Fetch("about:" + path, env) == Some(if path == "blank" then BlankPage else AboutPage)
  {
    assert "about:" + path == "about" + ":" + path;
    ParseColon("about", path, env.fileExists);
  }

  /** A `view-source:` address answers exactly as the address it wraps. */
  lemma FetchViewSource(inner: string, env: Env)
    ensures Fetch("view-source:" + inner, env) == Fetch(inner, env)
  {
    ParseViewSource(inner, env.fileExists);
  }

  /** A `view-source:` address wraps everything after its first colon. */
  lemma ParseViewSource(inner: string, fileExists: string -> bool)
    ensures Parse("view-source:" + inner, fileExists) == ViewSource(inner)
  {
    assert "view-source:" + inner == "view-source" + ":" + inner;
    ParseColon("view-source", inner, fileExists);
  }

  /** Following `view-source:` wrappers inward, the address finally named has an
      unsupported scheme. */
  predicate InnermostUnsupported(u: Url, fileExists: string -> bool)
    decreases Depth(u)
  {
    match u
    case ViewSource(inner) => InnermostUnsupported(Parse(inner, fileExists), fileExists)
    case Unsupported(_) => true
    case _ => false
  }

  /** A request only comes back empty-handed for an unsupported scheme; every failure of
      the constructor ends on the blank page. */
  lemma {:induction false} AnswerNoneIffUnsupported(u: Url, env: Env)
    ensures Answer(u, env).None? <==> InnermostUnsupported(u, env.fileExists)
    decreases Depth(u)
  {
    if u.ViewSource? {
      AnswerNoneIffUnsupported(Parse(u.inner, env.fileExists), env);
    }
  }

  lemma FetchNoneIffUnsupported(url: string, env: Env)
    ensures Fetch(url, env).None? <==> InnermostUnsupported(Parse(url, env.fileExists), env.fileExists)
  {
    AnswerNoneIffUnsupported(Parse(url, env.fileExists), env);
  }

  /** `lex(body)`: the characters outside `<...>`, with the state carried across. */
  function LexFrom(s: string, inTag: bool): string
    decreases |s|
  {
    if s == [] then []
    else if s[0] == '<' then LexFrom(s[1..], true)
    else if s[0] == '>' then LexFrom(s[1..], false)
    else if !inTag then [s[0]] + LexFrom(s[1..], inTag)
    else LexFrom(s[1..], inTag)
  }

  function Lex(body: string): string
  {
    LexFrom(body, false)
  }

  predicate NoBrackets(s: string)
  {
    forall k :: 0 <= k < |s| ==> s[k] != '<' && s[k] != '>'
  }

  /** `a` can be obtained from `b` by deleting characters. */
  predicate IsSubsequence(a: string, b: string)
    decreases |b|
  {
    if a == [] then true
    else if b == [] then false
    else (a[0] == b[0] && IsSubsequence(a[1..], b[1..])) || IsSubsequence(a, b[1..])
  }

  /** The lexer's output has no angle brackets and keeps the input's order. */
  lemma {:induction false} LexShape(s: string, inTag: bool)
    ensures NoBrackets(LexFrom(s, inTag))
    ensures IsSubsequence(LexFrom(s, inTag), s)
    decreases |s|
  {
    if s != [] {
      var r := LexFrom(s, inTag);
      if s[0] == '<' {
        LexShape(s[1..], true);
      } else if s[0] == '>' {
        LexShape(s[1..], false);
      } else if !inTag {
        LexShape(s[1..], inTag);
        assert r[1..] == LexFrom(s[1..], inTag);
        assert forall k :: 1 <= k < |r| ==> r[k] == LexFrom(s[1..], inTag)[k - 1];
      } else {
        LexShape(s[1..], inTag);
        var t := LexFrom(s[1..], inTag);
        if t != [] {
          assert IsSubsequence(t, s[1..]);
        }
      }
    }
  }

  /** Text with no angle brackets passes through the lexer unchanged. */
  lemma {:induction false} LexPlain(s: string)
    requires NoBrackets(s)
    ensures Lex(s) == s
    decreases |s|
  {
    if s != [] {
      assert NoBrackets(s[1..]);
      LexPlain(s[1..]);
      assert [s[0]] + s[1..] == s;
    }
  }
}

=== FILE: url_parser.dfy ===
/** The base of an http(s) address: scheme, `://` and host, matched as `^(https?://[^/]+)`. */
module UrlParser {
  import opened Wrappers
  import opened Strings

  /** No `/` anywhere in `s`. */
  predicate NoSlash(s: string)
  {
    forall k :: 0 <= k < |s| ==> s[k] != '/'
  }

  /** What the pattern accepts as a whole: `http://` or `https://` followed by at least
      one character other than `/`. This is the reference the extraction is checked
      against. */
  predicate BaseShaped(t: string)
  {
    (StartsWith(t, "http://") && |t| > 7 && NoSlash(t[7..]))
    || (StartsWith(t, "https://") && |t| > 8 && NoSlash(t[8..]))
  }

  /** The length of the scheme prefix the pattern reads, or 0 when neither is there. */
  function SchemeLength(url: string): (n: nat)
    ensures n == 7 <==> StartsWith(url, "http://")
    ensures n == 8 <==> StartsWith(url, "https://")
    ensures n == 0 <==> !StartsWith(url, "http://") && !StartsWith(url, "https://")
  {
    SchemesExclusive(url);
    if StartsWith(url, "http://") then 7
    else if StartsWith(url, "https://") then 8
    else 0
  }

  /** The longest run at the start of `s` without a `/`: what the greedy `[^/]+` takes. */
  function HostRun(s: string): (n: nat)
    ensures n <= |s| && NoSlash(s[..n])
    ensures n == |s| || s[n] == '/'
  {
    if s == [] || s[0] == '/' then 0
    else
      var m := HostRun(s[1..]);
      assert s[..m + 1] == [s[0]] + s[1..][..m];
      m + 1
  }

  /** `extract_base_url(url)`: the match of the pattern, or `None`. */
  function ExtractBaseUrl(url: string): (r: Option<string>)
    ensures r.Some? ==> BaseShaped(r.value) && |r.value| <= |url| && url[..|r.value|] == r.value
    ensures r.Some? ==> |r.value| == |url| || url[|r.value|] == '/'
  {
    var n := SchemeLength(url);
    if n == 0 then None
    else
      var h := HostRun(url[n..]);
      if h == 0 then None
      else
        assert n + h <= |url|;
        BasePieces(url, n, h);
        Some(url[..n + h])
  }

  /** The match splits into the scheme prefix and the host run. */
  lemma BasePieces(url: string, n: nat, h: nat)
    requires n + h <= |url|
    ensures url[..n + h][n..] == url[n..][..h]
    ensures url[..n + h][..n] == url[..n]
  {
  }

  /** The two schemes are told apart by their fifth character. */
  lemma SchemesExclusive(t: string)
    ensures !(StartsWith(t, "http://") && StartsWith(t, "https://"))
  {
    assert StartsWith(t, "http://") ==> t[..7][4] == ':';
    assert StartsWith(t, "https://") ==> t[..8][4] == 's';
  }

  /** A prefix of a matching text starts with the same scheme. */
  lemma PrefixKeepsScheme(url: string, k: nat, p: string)
    requires k <= |url| && |p| <= k && StartsWith(url[..k], p)
    ensures StartsWith(url, p)
  {
    assert url[..k][..|p|] == url[..|p|];
  }

  /** The extraction is the longest prefix the pattern accepts: it answers exactly when
      some prefix is accepted, the prefix it gives is accepted, and no longer prefix is. */
  lemma ExtractIsLongestMatch(url: string)
    ensures ExtractBaseUrl(url).Some? <==> exists k :: 0 <= k <= |url| && BaseShaped(url[..k])
    ensures ExtractBaseUrl(url).Some? ==>
      forall k :: |ExtractBaseUrl(url).value| < k <= |url| ==> !BaseShaped(url[..k])
  {
    var r := ExtractBaseUrl(url);
    if r.Some? {
      assert url[..|r.value|] == r.value;
      forall k | |r.value| < k <= |url|
        ensures !BaseShaped(url[..k])
      {
        var j := |r.value|;
        assert url[..k][j] == url[j] == '/';
        assert j >= 8 || !StartsWith(url, "https://");
        if StartsWith(url[..k], "http://") {
          PrefixKeepsScheme(url, k, "http://");
          SchemesExclusive(url);
          assert url[..k][7..][j - 7] == '/';
        }
        if StartsWith(url[..k], "https://") {
          PrefixKeepsScheme(url, k, "https://");
          SchemesExclusive(url);
          assert url[..k][8..][j - 8] == '/';
        }
      }
    } else {
      forall k | 0 <= k <= |url|
        ensures !BaseShaped(url[..k])
      {
        if StartsWith(url[..k], "http://") && |url[..k]| > 7 {
          PrefixKeepsScheme(url, k, "http://");
          assert url[..k][7] == url[7];
        }
        if StartsWith(url[..k], "https://") && |url[..k]| > 8 {
          PrefixKeepsScheme(url, k, "https://");
          SchemesExclusive(url);
          assert url[..k][8] == url[8];
        }
      }
    }
  }

  /** The base of a base is itself. */
  lemma ExtractIdempotent(url: string)
    requires ExtractBaseUrl(url).Some?
    ensures ExtractBaseUrl(ExtractBaseUrl(url).value) == ExtractBaseUrl(url)
  {
    var b := ExtractBaseUrl(url).value;
    var n := SchemeLength(url);
    assert b[..n] == url[..n];
    assert SchemeLength(b) == n by {
      SchemesExclusive(url);
      SchemesExclusive(b);
      if n == 7 {
        assert b[..8][4] == url[4];
      } else {
        assert b[..7][4] == url[4];
      }
    }
    assert HostRun(b[n..]) == |b| - n by {
      HostRunAll(b[n..]);
    }
    assert b[..|b|] == b;
  }

  /** A run without `/` is taken whole. */
  lemma {:induction false} HostRunAll(s: string)
    requires NoSlash(s)
    ensures HostRun(s) == |s|
  {
    if s != [] {
      HostRunAll(s[1..]);
    }
  }

  /** The scheme is matched case-sensitively and a bare scheme has no host. */
  lemma ExtractExamples()
    ensures ExtractBaseUrl("HTTP://a") == None
    ensures ExtractBaseUrl("http://") == None
    ensures ExtractBaseUrl("http:///a") == None
    ensures ExtractBaseUrl("https://a/b/c") == Some("https://a")
  {
    assert !StartsWith("HTTP://a", "http://");
    assert !StartsWith("HTTP://a", "https://");
    assert StartsWith("https://a/b/c", "https://");
    SchemesExclusive("https://a/b/c");
    assert "https://a/b/c"[8..] == "a/b/c";
    assert HostRun("/b/c") == 0;
    assert HostRun("a/b/c") == 1;
    assert "https://a/b/c"[..9] == "https://a";
    assert StartsWith("http:///a", "http://");
    assert "http:///a"[7..] == "/a";
    assert "http://"[7..] == [];
  }
}

=== FILE: window.dfy ===
/** The browser window's tab bar: the list of tabs, the button, close button and frame
    each one owns, and the index of the tab on screen. Widgets are opaque tokens that
    keep only what the bookkeeping sets on them. */
module Window {
  import opened Wrappers
  import Draw
  import Url
  import Tab

  /** The window's initial size. */
  const InitialWidth: int := 800
  const InitialHeight: int := 500

  const TabStyle: string := "Tab.TButton"
  const ActiveTabStyle: string := "ActiveTab.TButton"

  /** How many characters of a title the tab button shows before `...`. */
  const TitleLimit: nat := 10

  /** A tab's title button: its text, its style and the index its command switches to. */
  datatype TabButton = TabButton(text: string, style: string, target: int)

  /** A tab's close button: the index its command closes. */
  datatype CloseButton = CloseButton(target: int)

  /** The window's tab bookkeeping. A frame is identified by a number handed out once;
      `entry` is the text of the address bar. */
  datatype Window = Window(
    tabs: seq<Tab.Tab>,
    buttons: seq<TabButton>,
    closers: seq<CloseButton>,
    frames: seq<nat>,
    current: int,
    entry: string,
    width: int,
    height: int,
    nextFrame: nat)

  /** The four parallel lists have one entry per tab. */
  predicate Parallel(w: Window)
  {
    |w.buttons| == |w.tabs| && |w.closers| == |w.tabs| && |w.frames| == |w.tabs|
  }

  /** Every button's command targets its own position. */
  predicate Targeted(w: Window)
  {
    (forall i :: 0 <= i < |w.buttons| ==> w.buttons[i].target == i)
    && (forall i :: 0 <= i < |w.closers| ==> w.closers[i].target == i)
  }

  /** Exactly the current tab's button has the active style. */
  predicate Styled(w: Window)
  {
    forall i :: 0 <= i < |w.buttons| ==> w.buttons[i].style == (if i == w.current then ActiveTabStyle else TabStyle)
  }

  /** Frames are distinct and were all handed out before `nextFrame`. */
  predicate FramesFresh(w: Window)
  {
    (forall i :: 0 <= i < |w.frames| ==> w.frames[i] < w.nextFrame)
    && (forall i, j :: 0 <= i < j < |w.frames| ==> w.frames[i] != w.frames[j])
  }

  /** What every reachable window keeps: parallel lists, at least one tab, the current index
      on a tab, consistent buttons, fresh frames and valid tabs. */
  predicate Valid(w: Window)
  {
    Parallel(w) && |w.tabs| >= 1 && 0 <= w.current < |w.tabs|
    && Targeted(w) && Styled(w) && FramesFresh(w)
    && (forall i :: 0 <= i < |w.tabs| ==> Tab.Valid(w.tabs[i]))
  }

  /** `s` without its `i`-th element: `list.pop(i)`. */
  function Remove<T>(s: seq<T>, i: int): (r: seq<T>)
    requires 0 <= i < |s|
    ensures |r| == |s| - 1
    ensures forall k :: 0 <= k < i ==> r[k] == s[k]
    ensures forall k :: i <= k < |r| ==> r[k] == s[k + 1]
  {
    s[..i] + s[i + 1..]
  }

  /** `_update_tab_styles`: the current tab's button active, every other one plain. */
  function UpdateTabStyles(w: Window): (r: Window)
    ensures Styled(r)
    ensures r == w.(buttons := r.buttons) && |r.buttons| == |w.buttons|
    ensures forall i :: 0 <= i < |w.buttons| ==>
      r.buttons[i].text == w.buttons[i].text && r.buttons[i].target == w.buttons[i].target
  {
    w.(buttons := seq(|w.buttons|, i requires 0 <= i < |w.buttons| =>
         w.buttons[i].(style := if i == w.current then ActiveTabStyle else TabStyle)))
  }

  /** `_update_tab_commands`: the buttons of each zipped pair retargeted to their position. */
  function UpdateTabCommands(w: Window): (r: Window)
    requires |w.buttons| == |w.closers|
    ensures Targeted(r)
    ensures r == w.(buttons := r.buttons, closers := r.closers)
    ensures |r.buttons| == |w.buttons| && |r.closers| == |w.closers|
    ensures forall i :: 0 <= i < |w.buttons| ==>
      r.buttons[i].text == w.buttons[i].text && r.buttons[i].style == w.buttons[i].style
  {
    w.(buttons := seq(|w.buttons|, i requires 0 <= i < |w.buttons| => w.buttons[i].(target := i)),
       closers := seq(|w.closers|, i requires 0 <= i < |w.closers| => CloseButton(i)))
  }

  /** `_update_url_entry`: the address bar shows the current tab's address. */
  function UpdateUrlEntry(w: Window): (r: Window)
    requires 0 <= w.current < |w.tabs|
    ensures r == w.(entry := w.tabs[w.current].url)
  {
    w.(entry := w.tabs[w.current].url)
  }

  /** How a tab's page is laid out, which this module takes as given: the title the page
      declares, if any, and the display list it draws; and the height of a text line. */
  datatype Page = Page(paint: Tab.Tab -> (Option<string>, seq<Draw.DrawCmd>), linespace: int)

  /** `_update_canvas`: the current tab parses its content again and is drawn, which
      recomputes its scroll limits. The tab keeps its address, history and size. */
  function Redraw(w: Window, page: Page): (r: Window)
    requires 0 <= w.current < |w.tabs|
    ensures r == w.(tabs := r.tabs) && |r.tabs| == |w.tabs|
    ensures forall k :: 0 <= k < |w.tabs| && k != w.current ==> r.tabs[k] == w.tabs[k]
    ensures var t := w.tabs[w.current];
      r.tabs[w.current] == Tab.DrawTab(Tab.Parse(t, page.paint(t).0, page.paint(t).1, page.linespace).0, page.linespace).0
    ensures var t, t' := w.tabs[w.current], r.tabs[w.current];
      t'.url == t.url && t'.history == t.history && t'.width == t.width && t'.height == t.height
    ensures Tab.Valid(w.tabs[w.current]) ==> Tab.Valid(r.tabs[w.current])
  {
    var t := w.tabs[w.current];
    var (title, drawn) := page.paint(t);
    var parsed := Tab.Parse(t, title, drawn, page.linespace).0;
    w.(tabs := w.tabs[w.current := Tab.DrawTab(parsed, page.linespace).0])
  }

  /** `_add_tab`: a new tab goes last with its frame and buttons, and becomes current. */
  function AddTab(w: Window): (r: Window)
    ensures |r.tabs| == |w.tabs| + 1 && r.tabs[..|w.tabs|] == w.tabs
    ensures r.tabs[|w.tabs|] == Tab.NewTab(w.width, w.height)
    ensures r.current == |r.tabs| - 1
    ensures r.entry == []
    ensures r.width == w.width && r.height == w.height
    ensures Parallel(w) ==> Parallel(r)
    ensures Valid(w) ==> Valid(r)
  {
    var i := |w.tabs|;
    var w1 := w.(tabs := w.tabs + [Tab.NewTab(w.width, w.height)],
                 frames := w.frames + [w.nextFrame],
                 nextFrame := w.nextFrame + 1,
                 buttons := w.buttons + [TabButton(Tab.NewTabTitle, TabStyle, i)],
                 closers := w.closers + [CloseButton(i)],
                 current := i);
    UpdateUrlEntry(UpdateTabStyles(w1))
  }

  /** `Browser()` as far as the tabs go: no tab, then one added. */
  function NewWindow(): (w: Window)
    ensures Valid(w) && |w.tabs| == 1 && w.current == 0
    ensures w.tabs[0] == Tab.NewTab(InitialWidth, InitialHeight)
  {
    AddTab(Window([], [], [], [], 0, "", InitialWidth, InitialHeight, 0))
  }

  /** The current index after closing tab `i`: one back when the closed tab was at or before it,
      but never below the first tab. */
  function CurrentAfterClose(current: int, i: int): (p: int)
    ensures i <= current && current > 0 ==> p == current - 1
    ensures i <= current && current <= 0 ==> p == 0
    ensures i > current ==> p == current
  {
    if i <= current then (if current > 0 then current - 1 else 0) else current
  }

  /** `_close_tab(i)`. Closing the only tab first opens a fresh one. A valid index then
      removes that tab with its buttons and frame, moves the current index, retargets the
      buttons and shows the new current tab. Any other index changes nothing more. */
  function CloseTab(w: Window, i: int, page: Page): (r: Window)
    requires Valid(w)
    ensures Valid(r)
    ensures var w1 := if |w.tabs| <= 1 then AddTab(w) else w;
      if 0 <= i < |w1.tabs| then
        |r.tabs| == |w1.tabs| - 1 && r.current == CurrentAfterClose(w1.current, i)
        && r.frames == Remove(w1.frames, i)
        && (forall k :: 0 <= k < |r.tabs| && k != r.current ==> r.tabs[k] == Remove(w1.tabs, i)[k])
        && r.entry == r.tabs[r.current].url
      else r == w1
  {
    var w1 := if |w.tabs| <= 1 then AddTab(w) else w;
    if 0 <= i < |w1.tabs| then CloseAt(w1, i, page) else w1
  }

  /** The removal itself, on a window with a tab to spare. */
  function CloseAt(w: Window, i: int, page: Page): (r: Window)
    requires Valid(w) && |w.tabs| >= 2 && 0 <= i < |w.tabs|
    ensures Valid(r)
    ensures |r.tabs| == |w.tabs| - 1 && r.current == CurrentAfterClose(w.current, i)
    ensures r.frames == Remove(w.frames, i)
    ensures forall k :: 0 <= k < |r.tabs| && k != r.current ==> r.tabs[k] == Remove(w.tabs, i)[k]
    ensures r.entry == r.tabs[r.current].url
  {
    var w2 := Removed(w, i);
    var w3 := Redraw(UpdateTabStyles(UpdateTabCommands(w2)), page);
    assert Tab.Valid(w3.tabs[w3.current]);
    UpdateUrlEntry(w3)
  }

  /** Tab `i` gone from the four lists, and the current index moved. */
  function Removed(w: Window, i: int): (r: Window)
    requires Valid(w) && |w.tabs| >= 2 && 0 <= i < |w.tabs|
    ensures Parallel(r) && |r.tabs| == |w.tabs| - 1 && 0 <= r.current < |r.tabs|
    ensures r.current == CurrentAfterClose(w.current, i)
    ensures FramesFresh(r) && r.frames == Remove(w.frames, i) && r.tabs == Remove(w.tabs, i)
    ensures forall k :: 0 <= k < |r.tabs| ==> Tab.Valid(r.tabs[k])
  {
    RemoveFramesFresh(w.frames, w.nextFrame, i);
    w.(tabs := Remove(w.tabs, i), buttons := Remove(w.buttons, i),
       closers := Remove(w.closers, i), frames := Remove(w.frames, i),
       current := CurrentAfterClose(w.current, i))
  }

  /** Removing a frame keeps the others distinct and handed out. */
  lemma RemoveFramesFresh(frames: seq<nat>, next: nat, i: int)
    requires 0 <= i < |frames|
    requires forall k :: 0 <= k < |frames| ==> frames[k] < next
    requires forall j, k :: 0 <= j < k < |frames| ==> frames[j] != frames[k]
    ensures var r := Remove(frames, i);
      (forall k :: 0 <= k < |r| ==> r[k] < next)
      && (forall j, k :: 0 <= j < k < |r| ==> r[j] != r[k])
  {
    var r := Remove(frames, i);
    forall j, k | 0 <= j < k < |r|
      ensures r[j] != r[k]
    {
      var j' := if j < i then j else j + 1;
      var k' := if k < i then k else k + 1;
      assert r[j] == frames[j'] && r[k] == frames[k'];
    }
  }

  /** `_switch_tab(i)`: a valid index becomes current and is shown; any other index
      changes nothing. */
  function SwitchTab(w: Window, i: int, page: Page): (r: Window)
    ensures !(0 <= i < |w.tabs|) ==> r == w
    ensures 0 <= i < |w.tabs| ==>
      r.current == i && |r.tabs| == |w.tabs| && r.entry == w.tabs[i].url
      && r.frames == w.frames && r.closers == w.closers
      && (forall k :: 0 <= k < |w.tabs| && k != i ==> r.tabs[k] == w.tabs[k])
    ensures Valid(w) ==> Valid(r)
  {
    if 0 <= i < |w.tabs| then
      var w1 := Redraw(UpdateTabStyles(w.(current := i)), page);
      assert w1.tabs[i].url == w.tabs[i].url;
      UpdateUrlEntry(w1)
    else w
  }

  /** Ctrl-Tab: the next tab, wrapping to the first. */
  function CtrlTab(w: Window, page: Page): (r: Window)
    requires |w.tabs| > 0
    ensures Valid(w) ==> Valid(r) && r.current == (w.current + 1) % |w.tabs| && |r.tabs| == |w.tabs|
  {
    SwitchTab(w, (w.current + 1) % |w.tabs|, page)
  }

  /** Ctrl-Shift-Tab: the previous tab, wrapping to the last. The modulus is positive, so
      Python's `%` and this one agree. */
  function CtrlShiftTab(w: Window, page: Page): (r: Window)
    requires |w.tabs| > 0
    ensures Valid(w) ==> Valid(r) && r.current == (w.current - 1) % |w.tabs| && |r.tabs| == |w.tabs|
  {
    SwitchTab(w, (w.current - 1) % |w.tabs|, page)
  }

  /** The index after `c`, wrapping: what `(c + 1) % n` is on a valid index. */
  lemma NextIndex(c: int, n: int)
    requires 0 <= c < n
    ensures (c + 1) % n == if c + 1 < n then c + 1 else 0
  {
  }

  /** The index before `c`, wrapping: what `(c - 1) % n` is on a valid index. */
  lemma PrevIndex(c: int, n: int)
    requires 0 <= c < n
    ensures (c - 1) % n == if c > 0 then c - 1 else n - 1
  {
  }

  /** Ctrl-Shift-Tab goes back to the tab Ctrl-Tab left. */
  lemma CtrlShiftTabUndoesCtrlTab(w: Window, page: Page)
    requires Valid(w)
    ensures CtrlShiftTab(CtrlTab(w, page), page).current == w.current
  {
    var n, c := |w.tabs|, w.current;
    var w1 := CtrlTab(w, page);
    assert Valid(w1) && w1.current == (c + 1) % n && |w1.tabs| == n;
    var c2 := CtrlShiftTab(w1, page).current;
    assert c2 == (w1.current - 1) % n;
    PrevOfNext(c, n);
  }

  /** Stepping one back after one forward returns to the same index. */
  lemma PrevOfNext(c: int, n: int)
    requires 0 <= c < n
    ensures ((c + 1) % n - 1) % n == c
  {
    NextIndex(c, n);
    PrevIndex((c + 1) % n, n);
  }

  /** The current index after `k` presses of Ctrl-Tab on `n` tabs, starting at `c`. */
  function Advance(c: int, n: int, k: nat): int
    requires n > 0
    decreases k
  {
    if k == 0 then c else Advance((c + 1) % n, n, k - 1)
  }

  /** Ctrl-Tab pressed `k` times. */
  function CtrlTabs(w: Window, k: nat, page: Page): (r: Window)
    requires Valid(w)
    ensures Valid(r) && |r.tabs| == |w.tabs|
    ensures r.current == Advance(w.current, |w.tabs|, k)
    decreases k
  {
    if k == 0 then w else CtrlTabs(CtrlTab(w, page), k - 1, page)
  }

  /** Before the last tab is passed, each press moves one place right. */
  lemma {:induction false} AdvanceForward(c: int, n: int, k: nat)
    requires 0 <= c && c + k < n
    ensures Advance(c, n, k) == c + k
    decreases k
  {
    if k > 0 {
      NextIndex(c, n);
      AdvanceForward(c + 1, n, k - 1);
    }
  }

  /** Presses add up. */
  lemma {:induction false} AdvanceSplit(c: int, n: int, a: nat, b: nat)
    requires n > 0
    ensures Advance(c, n, a + b) == Advance(Advance(c, n, a), n, b)
    decreases a
  {
    if a > 0 {
      AdvanceSplit((c + 1) % n, n, a - 1, b);
    }
  }

  /** From the last tab a press wraps to the first. */
  lemma AdvanceWrap(c: int, n: int)
    requires 0 <= c < n
    ensures Advance(c, n, n - c) == 0
  {
    var k := n - 1 - c;
    AdvanceForward(c, n, k);
    AdvanceSplit(c, n, k, 1);
    NextIndex(n - 1, n);
  }

  /** How many presses take the current index from `c` to `i`: rightwards, wrapping once. */
  function Steps(c: int, n: int, i: int): (k: int)
    requires 0 <= c < n && 0 <= i < n
    ensures 0 <= k < n
  {
    if c <= i then i - c else n - c + i
  }

  /** Ctrl-Tab visits every tab, each within fewer presses than there are tabs, and one
      press per tab brings the current index back. */
  lemma AdvanceCycles(c: int, n: int)
    requires 0 <= c < n
    ensures Advance(c, n, n) == c
    ensures forall i :: 0 <= i < n ==> Advance(c, n, Steps(c, n, i)) == i
  {
    AdvanceWrap(c, n);
    AdvanceSplit(c, n, n - c, c);
    AdvanceForward(0, n, c);
    forall i | 0 <= i < n
      ensures Advance(c, n, Steps(c, n, i)) == i
    {
      if c <= i {
        AdvanceForward(c, n, i - c);
      } else {
        AdvanceSplit(c, n, n - c, i);
        AdvanceForward(0, n, i);
      }
    }
  }

  /** On the window: `|tabs|` presses of Ctrl-Tab return to the current tab, and every
      tab is current after fewer presses than that. */
  lemma CtrlTabCycles(w: Window, page: Page)
    requires Valid(w)
    ensures CtrlTabs(w, |w.tabs|, page).current == w.current
    ensures forall i :: 0 <= i < |w.tabs| ==>
      CtrlTabs(w, Steps(w.current, |w.tabs|, i), page).current == i
  {
    AdvanceCycles(w.current, |w.tabs|);
  }

  /** The button text for a title: titles longer than the limit are cut to it and marked
      with `...`. */
  function Truncate(title: string): (r: string)
    ensures |title| <= TitleLimit ==> r == title
    ensures |title| > TitleLimit ==> |r| == TitleLimit + 3 && r[..TitleLimit] == title[..TitleLimit] && r[TitleLimit..] == "..."
    ensures |r| <= TitleLimit + 3
  {
    if |title| > TitleLimit then title[..TitleLimit] + "..." else title
  }

  /** Cutting a cut title again changes nothing. */
  lemma TruncateIdempotent(title: string)
    ensures Truncate(Truncate(title)) == Truncate(title)
  {
    if |title| > TitleLimit {
      var r := Truncate(title);
      assert r[..TitleLimit] + "..." == r;
    }
  }

  /** `_update_tab_title(title)`: a missing or empty title changes nothing; otherwise the
      current tab's button shows the title, cut to the limit. */
  function UpdateTabTitle(w: Window, title: Option<string>): (r: Window)
    requires 0 <= w.current
    ensures (title.None? || title.value == [] || w.current >= |w.buttons|) ==> r == w
    ensures title.Some? && title.value != [] && w.current < |w.buttons| ==>
      r == w.(buttons := w.buttons[w.current := w.buttons[w.current].(text := Truncate(title.value))])
    ensures Valid(w) ==> Valid(r)
  {
    if title.Some? && title.value != [] && w.current < |w.buttons| then
      w.(buttons := w.buttons[w.current := w.buttons[w.current].(text := Truncate(title.value))])
    else w
  }

  /** `_configure`: the new size goes to the window and every tab, then the current tab is
      shown again. */
  function Resize(w: Window, width: int, height: int, page: Page): (r: Window)
    requires Valid(w)
    ensures Valid(r)
    ensures r.width == width && r.height == height && |r.tabs| == |w.tabs| && r.current == w.current
    ensures forall k :: 0 <= k < |r.tabs| ==> r.tabs[k].width == width && r.tabs[k].height == height
    ensures forall k :: 0 <= k < |r.tabs| ==> r.tabs[k].url == w.tabs[k].url && r.tabs[k].history == w.tabs[k].history
  {
    var tabs := seq(|w.tabs|, k requires 0 <= k < |w.tabs| => Tab.UpdateScreenDimensions(w.tabs[k], width, height));
    Redraw(w.(width := width, height := height, tabs := tabs), page)
  }

  /** What a window step leaves and the error it raised, if any. */
  datatype Outcome = Outcome(window: Window, error: Option<Error>)

  /** What the window does with the current tab's load: the tab is replaced; when the
      load raised nothing more happens, otherwise the button shows the new title and the
      address bar the tab's address. */
  function Settle(w: Window, l: Tab.Loaded): (r: Outcome)
    requires Valid(w) && Tab.Valid(l.tab)
    ensures Valid(r.window) && r.error == l.error
    ensures r.window.tabs == w.tabs[w.current := l.tab] && r.window.current == w.current
    ensures l.error.Some? ==> r.window == w.(tabs := w.tabs[w.current := l.tab])
    ensures l.error.None? ==> r.window.entry == l.tab.url
  {
    var w1 := w.(tabs := w.tabs[w.current := l.tab]);
    if l.error.Some? then Outcome(w1, l.error)
    else
      var w2 := UpdateTabTitle(w1, l.tab.title);
      Outcome(w2.(entry := l.tab.url), None)
  }

  /** `load(url)`: the given address, or the address bar's text when none is given. An
      empty address does nothing; otherwise the current tab loads it and the window
      settles on the result. */
  function Load(w: Window, url: Option<string>, env: Url.Env,
                pageTitle: Option<string>, drawn: seq<Draw.DrawCmd>, linespace: int): (r: Outcome)
    requires Valid(w)
    ensures Valid(r.window)
    ensures url.GetOr(w.entry) == [] ==> r == Outcome(w, None)
    ensures |r.window.tabs| == |w.tabs| && r.window.current == w.current
    ensures forall k :: 0 <= k < |w.tabs| && k != w.current ==> r.window.tabs[k] == w.tabs[k]
    ensures r.error.Some? <==> url.GetOr(w.entry) != [] && Url.Fetch(url.GetOr(w.entry), env).None?
    ensures url.GetOr(w.entry) != [] ==>
      r.window.tabs[w.current] == Tab.Load(w.tabs[w.current], url.GetOr(w.entry), true, env, pageTitle, drawn, linespace).tab
    ensures url.GetOr(w.entry) != [] && r.error.None? ==> r.window.entry == url.GetOr(w.entry)
  {
    var u := url.GetOr(w.entry);
    if u == [] then Outcome(w, None)
    else Settle(w, Tab.Load(w.tabs[w.current], u, true, env, pageTitle, drawn, linespace))
  }
}

=== FILE: wrappers.dfy ===
/** Failure-carrying results used where the Python code returns None or raises. */
module Wrappers {

  /** A value that may be absent: Python's `None` versus a present value. */
  datatype Option<+T> = None | Some(value: T) {
    function GetOr(default: T): T
    {
      match this
      case Some(v) => v
      case None => default
    }
  }

  /** The Python exceptions the modelled code raises or catches. */
  datatype Error = IndexError | ValueError | AttributeError | AssertionError | TypeError

  /** Either a value or the exception the Python code would raise instead. */
  datatype Result<+T> = Ok(value: T) | Err(error: Error) {
    function ToOption(): Option<T>
    {
      match this
      case Ok(v) => Some(v)
      case Err(_) => None
    }
  }
}
